=== FILE: README.md ===
# The atom store of visage's bundle, in Dafny

The visage avatar library ships one JavaScript bundle, `dist/index.esm.js`. It
carries a copy of the Jotai vanilla store and the avatar's `validateSource`
check. This project models both and proves properties of the models.

The store (`createStore`) keeps three tables:

- an atom state per atom: a value or an error, and the dependency map of the
  last read;
- a mounted entry per atom something subscribes to: its listeners, and the
  mounted atoms that depend on it;
- the pending map: the atoms updated since the last flush, each with the state
  it had before its first update.

Reading an atom (`readAtomState`) reuses the stored state while every
dependency is unchanged. Otherwise it runs the atom's read function; a thrown
error becomes the atom's state, and `get` rethrows it. Writing an atom
(`writeAtomState`) runs its write function with a getter and a setter.
`recomputeDependents` then re-reads every mounted atom that depends on a
changed atom, in a glitch-free order. `flushPending` lets mounted dependencies
follow new dependency maps and calls listeners, round after round until
nothing is pending. `subscribeAtom` mounts an atom and adds a listener; the
function it returns removes the listener and unmounts what nothing needs any
more.

Modules, in dependency order:

- `Values`: values, modelled by identity as `Object.is` compares them; the
  store's comparisons; `returnAtomValue`.
- `Atoms`: `atom(read, write)`, the registry of atoms.
- `StoreState`: the store, `setAtomState`, `setAtomValue`,
  `setAtomValueOrPromise`, `setAtomError`.
- `Invariants`: well-formedness of a store, kept by every operation.
- `Read`: `readAtomState`, `readAtom`.
- `Mount`: `mountAtom`, `unmountAtom`, `canUnmountAtom`, `addAtom`,
  `delAtom`, `mountDependencies`.
- `Flush`: `flushPending`.
- `Propagate`: `recomputeDependents`.
- `Write`: `writeAtomState`, `writeAtom`.
- `StoreApi`: `subscribeAtom` and its unsubscribe function, `getDefaultStore`.
- `LostListener`: a concrete store in which `subscribeAtom` as written loses
  its listener.
- `Source`: `validateSource`.

How JavaScript objects are modelled:

- Atoms are numbered in creation order. An atom's read function reads only
  atoms created before it, or itself. This order is what makes reads, mounts
  and unmounts terminate.
- Object identity, of state records and of mounted entries, is a number drawn
  from a counter in the store.
- Maps and sets keep their insertion order as sequences without duplicates.
- Calls to listeners and to `onMount`/`onUnmount` hooks are recorded in an
  event log.

## Model

| member | source | states |
|---|---|---|
| Values.ReturnAtomValue | dist/index.esm.js:386-391 | Reading a state throws exactly when it holds an error, and throws that error; otherwise it returns the stored value. |
| Atoms.MakeAtom | dist/index.esm.js:337-356 | An atom has an initial value exactly when `read` is not a function. It then reads itself and, unless a write function is given, gets the default updater. A read function without a write function gives a read-only atom. A given write function always wins. |
| Atoms.Register | dist/index.esm.js:336-338 | A new atom gets the next number from the counter, and the atoms made before it are unchanged. |
| Atoms.RegisterKeepsWf | dist/index.esm.js:337-356 | Adding an atom whose read function reads only existing atoms keeps every atom's reads before it. |
| StoreState.SetAtomState | dist/index.esm.js:405-418 | Installs the state. The pending map gains the atom with its state before the update, unless the atom is already pending, in which case the earliest previous state is kept. Nothing is mounted or called. |
| StoreState.SetAtomValue | dist/index.esm.js:419-460 | The old record is returned, and nothing changes, exactly when the value is equal (or wraps the same original promise) and the dependency map is kept. Otherwise a record with a new identity is installed, holding the value, or the stored promise when both wrap the same original. Its dependency map is the one built from the reads when that changed: keyed by exactly the atoms read, each entry the record its read saw, and the atom's own init read pointing at the new record. Otherwise it is the previous map. Other atoms' states are untouched. |
| StoreState.ResolveReadsResolves | dist/index.esm.js:419-434 | The dependency map built from the reads is keyed by exactly the atoms read with a record, plus the atom itself when it read its init. Each entry is the record its read saw, and the init read points at the new record. |
| StoreState.SetAtomValueOrPromise | dist/index.esm.js:461-522 | A promise is stored wrapped, with the original remembered. Any other value is stored as it is, exactly as `setAtomValue` does. |
| StoreState.SetAtomError | dist/index.esm.js:523-537 | The state holds the error. The old record is returned, and nothing changes, exactly when the error is equal and the dependency map is kept. Otherwise a record with a new identity is installed, with the dependency map built from the reads when that changed and the previous map otherwise. |
| Invariants.SetAtomValueKeepsWf | dist/index.esm.js:419-460 | A value set through a read keeps the store well formed: the dependency map lists only atoms the read function reads, or the atom itself. |
| Invariants.SetAtomErrorKeepsWf | dist/index.esm.js:523-537 | An error set through a read keeps the store well formed. |
| Read.ReadAtomState | dist/index.esm.js:538-612 | Returns the atom's current state and leaves it stored. It changes no atom numbered above it (created after it, so never read by it), and never mounts, unmounts or calls anything. Whether the cached record is reused is stated by `Read.ConsistentReadIsNoOp` and `Read.StaleReadRecomputes`. |
| Read.Recompute | dist/index.esm.js:554-611 | An error from a dependency, or thrown by the read function, becomes the atom's error state. A returned value is stored, a promise wrapped. |
| Read.ReadAtom | dist/index.esm.js:613 | `get` throws exactly when the atom's state is an error, and throws that error; otherwise it returns the state's value. |
| Read.ConsistentReadIsNoOp | dist/index.esm.js:538-553 | Memoisation: when every recorded dependency passes the memo test, reading returns the stored state and changes nothing. The test is the same record, or an equal non-promise value. Unmounted dependencies, which the read brings up to date first, must recursively pass it too; mounted ones are only compared. |
| Read.StaleReadRecomputes | dist/index.esm.js:538-612 | Conversely, when the dependencies the read brings up to date need nothing done but some recorded dependency fails the memo test, the read function runs again. The new content is what it makes of the current inputs. |
| Read.GatherAgrees | dist/index.esm.js:556-573 | The getter hands the read function each dependency's value, in reading order. For the atom itself it hands over the stored value, or `init` when there is no state yet. |
| Read.GatherAborts | dist/index.esm.js:556-573 | The getter stops the read function only by rethrowing the error of the state it just read, or by throwing "no atom init". |
| Mount.CanUnmountIff | dist/index.esm.js:621 | An entry can be unmounted exactly when it has no listeners and no dependent other than the atom itself. |
| Mount.MountAtom | dist/index.esm.js:712-739 | The atom is mounted on a new entry, with the initial dependent if given. Every dependency of the first read is mounted and lists the atom. Existing entries keep their identity and listeners, and exactly the `onMount` hooks of newly mounted atoms run. |
| Mount.AddAtom | dist/index.esm.js:614-620 | A mounted atom's entry is returned unchanged; otherwise the atom is mounted on a new entry. |
| Mount.UnmountAtom | dist/index.esm.js:740-769 | The atom is unmounted and its `onUnmount` runs first. Each dependency that was left unmountable is unmounted in turn, so every atom still mounted whose dependents changed cannot be unmounted. Only atoms without listeners are unmounted, and exactly their hooks run. |
| Mount.DelAtom | dist/index.esm.js:622-627 | Unmounts the atom exactly when it is mounted and can be unmounted; otherwise changes nothing. |
| Mount.MountDependencies | dist/index.esm.js:770-793 | A dropped dependency no longer lists the atom. An added one lists it, mounted for it, when the atom is mounted. No atom with listeners is unmounted. The rest is left alone (`Mount.FollowsFrame`): only atoms numbered at or below a dropped dependency are unmounted, an entry numbered above every dropped dependency keeps its identity, listeners, hook and dependents, and a kept dependency still lists the atom unless the atom's dependency on itself was dropped. |
| Mount.SameKeysMountNothing | dist/index.esm.js:770-793 | A new dependency map with the same keys as the previous one changes nothing. This is why comparing maps by content agrees with the source's comparison by identity. |
| Propagate.Loop1Counts | dist/index.esm.js:631-644 | After the first pass, each dependent's dirty count is the number of paths by which the changed atom reaches it. Its changed-set holds the atoms it is reached from directly. |
| Propagate.PropagationFollowsWalk | dist/index.esm.js:628-670 | The second pass settles dependents in the order of their last arrival along the walk, and leaves every dirty count at zero. |
| Propagate.SettledAreReachable | dist/index.esm.js:645-669 | The atoms settled are exactly those reachable from the changed atom through mounted dependents, each once, never the changed atom itself. |
| Propagate.SettledInOrder | dist/index.esm.js:645-669 | No atom is settled before an atom it depends on. |
| Propagate.SettledClosed | dist/index.esm.js:645-669 | The dependents of a settled atom are settled too. |
| Propagate.PropagationSettlesInOrder | dist/index.esm.js:628-670 | `recomputeDependents` is glitch-free. It re-reads only dependents reachable from the changed atom, each after everything it depends on, and leaves no dirty count behind. |
| Propagate.RecomputeDependents | dist/index.esm.js:628-670 | Nothing is mounted, unmounted or called; atom states, the pending map and the record counter may change. |
| Propagate.SettleRereads | dist/index.esm.js:649-664 | A dependent is re-read exactly when its count reaches zero and its changed-set is not empty; otherwise the store is unchanged. Once its count reaches zero, it leaves every changed-set unless it was re-read and found changed. While its count is above zero, the changed-sets are kept. |
| Propagate.SettleAllKeepsSource | dist/index.esm.js:649-664 | Along the second pass, a dependent that is re-read still has an atom of its first changed-set that was not settled-and-found-unchanged before its turn. |
| Propagate.PropagationSkipsUnchanged | dist/index.esm.js:628-670 | In `recomputeDependents`, the second pass is the settling of the walk's edges in order. A dependent each of whose sources (the atoms it is reached from directly) was settled before its turn and not found changed is not re-read: that step leaves the store as it was. |
| Propagate.PropagationChangesBelowSettled | dist/index.esm.js:628-670 | `recomputeDependents` changes the state of no atom other than the dependents it settles and atoms numbered below one of them. Those are the only atoms their read functions can reach. |
| Flush.FlushEntryCalls | dist/index.esm.js:802-820 | For one pending atom, exactly its listeners are called, no call is made twice, and nothing else is called. This happens unless the previous state held the same value or error and was not a promise. |
| Flush.FollowDeps | dist/index.esm.js:804-806 | Mounted dependencies follow a changed dependency map, and the rest of the mounted map is left as `Mount.FollowsFrame` states. A dependency map unchanged since the previous state changes nothing. |
| Flush.FlushPending | dist/index.esm.js:794-826 | The loop runs until the pending map is empty, or until the rounds run out. A round is spent exactly when something is pending. With nothing pending it changes nothing. In the first round, every listener of a pending atom that has a record, is mounted and whose previous state was absent or a promise is called. It only appends to the log, and no atom with listeners is unmounted. |
| Flush.FlushBatchSplit | dist/index.esm.js:800-802 | Flushing a batch is flushing the entries before `k`, then entry `k`, then the entries after it, in that order. |
| Flush.FlushBatchCalls | dist/index.esm.js:802-820 | Every listener called while flushing a batch belongs to an atom of the batch. Every listener of a batch atom that has a record, is mounted at the start and whose previous state was absent or a promise is called. |
| Write.WriteAtomState | dist/index.esm.js:671-701 | A write neither mounts nor calls anything. An atom without a write function throws a TypeError. |
| Write.Setter | dist/index.esm.js:674-697 | Setting the written atom itself throws "atom not writable" unless it has an initial value, before any state changes; otherwise the call returns `undefined`. Setting another atom runs that atom's write function. |
| Write.SetOwnWithoutInitThrows | dist/index.esm.js:676-679 | A write function whose first call sets its own atom, which has no initial value, throws with only the new Error object added to the store. |
| Write.SetSameValueIsNoOp | dist/index.esm.js:680-684 | Setting an atom to the non-promise value it already holds changes nothing, so no dependent is recomputed. |
| Write.RecomputeWithoutDependents | dist/index.esm.js:628-670 | Recomputing the dependents of an atom that no other mounted atom depends on changes nothing. |
| Write.DefaultUpdaterStores | dist/index.esm.js:346-349 | The default updater stores its argument, or the updater function applied to the current value. A current value that is an error is rethrown instead. |
| Write.RunSteps | dist/index.esm.js:698 | A write function that completes returns its own result, and an exception from a `set` call ends it. |
| Write.WriteAtom | dist/index.esm.js:702-711 | The result is what the write function returned or threw. An exception propagates before any flush: the store is the one the write left and no listener runs. Otherwise the flush runs until nothing is pending; a round is spent exactly when the write left something pending; the first round calls every listener, mounted before the write, of a pending atom whose previous state was absent or a promise; and listened-to atoms stay mounted with their listeners. |
| StoreApi.SubscribeAtom | dist/index.esm.js:827-845 | `subscribeAtom` in the corrected order (add the listener, then flush; the source flushes first). The atom is mounted (on its existing entry, if any) with the listener on that entry. It holds exactly the earlier listeners plus the new one. No other atom with listeners is unmounted. |
| StoreApi.SubscribeAtomAsWritten | dist/index.esm.js:827-831 | With the flush before `listeners.add`: when the atom's entry after the flush is still the one `addAtom` returned, the listener is on it. |
| StoreApi.Unsubscribe | dist/index.esm.js:838-844 | The listener leaves the entry it was added to. The atom is unmounted exactly when that leaves the entry without listeners and without dependents other than itself. A stale subscription leaves the current entry alone. |
| StoreApi.AddListener | dist/index.esm.js:830-831 | The entry's listeners become the old ones plus the new one, on the same entry. |
| StoreApi.RemoveListener | dist/index.esm.js:839 | The entry's listeners become the old ones minus the removed one. |
| StoreApi.GetDefaultStore | dist/index.esm.js:891-897 | The first call creates an empty store and keeps it. Every later call returns that same store. |
| LostListener.SubscribeAsWrittenLosesListener | dist/index.esm.js:827-831 | A well-formed store in which subscribing as written leaves the atom unmounted and the listener on no entry. The corrected order keeps the atom mounted with the listener. |
| Source.ValidateSource | dist/index.esm.js:52-66 | An array is valid exactly when it is non-empty and every element is valid. A string is valid exactly when its ending matches the file pattern or it starts with one of the two data-URL prefixes. A Blob is valid exactly when its type is `model/gltf-binary`. Nothing else is valid. |
| Source.Search | dist/index.esm.js:57-60 | `test` succeeds exactly when the file pattern matches at some position from the start on. |
| Source.MatchAtIff | dist/index.esm.js:57 | The four alternatives of the pattern, tried with a greedy `.*`, match at a position exactly when the position-wise reading of the pattern holds there. |
| Source.RunEnd | dist/index.esm.js:57 | A greedy `.*` stops at the first line terminator or at the end of the string. |
| Source.FileNamesAccepted | dist/index.esm.js:57 | A name ending in `.glb` or `.fbx`, with or without a query after `?`, is accepted. |
| Source.AnyCharAcceptsNameWithoutDot | dist/index.esm.js:57 | The unescaped dot accepts `modelglb`, which the literal reading rejects. |
| Source.LiteralDotNeedsExtension | dist/index.esm.js:57 | With the dot taken literally, a string accepted for its ending contains `.glb` or `.fbx`, either ending it or followed by `?`. |
| Source.LiteralDotIsStricter | dist/index.esm.js:52-66 | Every source the literal reading accepts, the pattern as written accepts too. |

## Left out

- Promises settle later, in the microtask queue; only their synchronous part is modelled. A returned promise is stored wrapped, with its original remembered. The later resolution, cancellation (`cancelPromise`, lines 360-380, 413-416, 463-521, 752-754) and the abort signal are not modelled.
- `setSelf` and the `signal` option of read functions are left out. Both only act asynchronously, once the read has returned.
- Read functions are modelled as a fixed list of reads followed by a pure function of the values read. A read function that catches a dependency's error and recovers is not modelled: the getter's rethrow always ends it. Nor is one that chooses what to read from values it has already read. Dependency maps still change, because a read stops at the first error; a larger set of dynamic dependencies is not covered.
- Write functions are modelled as a fixed list of `set` calls, each with its value or an updater applied to a read, and a result. A write function that reads, branches or loops freely is not modelled. The asynchronous setter's flush (lines 688-695, for `set` after the write function has returned) is not modelled either.
- Listener and hook bodies are left out. Their calls are recorded in the event log, and `onMount`'s setter calls are not modelled.
- Development-mode code is left out: `Object.freeze`, the store listeners, `mountedAtoms`, the `dev_` methods including `dev_restore_atoms`, and console warnings.
- The React bindings and the avatar components are not part of this model. The rest of the bundle is not modelled either.
- Atom values are never functions. A function-valued `set` argument is modelled only as the updater of the default write function.
- `WeakMap` garbage collection is not modelled. Atoms live as long as the registry.
- Write.WriteAtomState: nested write functions are bounded by a depth. Running out of it throws, as the engine's stack overflow does; deeper chains of writes are not modelled.
- Flush.FlushPending: the loop is bounded by a number of rounds, and a round is spent exactly when something is pending; flushes that never settle are not modelled. Only the first round's listener calls are stated. The calls of later rounds, and the fact that no listener of an atom outside the pending map is called, are stated for a single batch (`Flush.FlushBatchCalls`) and not for the whole loop.
- Write.DefaultUpdaterStores: proved only when no other mounted atom depends on the atom. Otherwise the recomputation may read the atom again, and the stored value is then stated only through `Write.SetOwn` and `Propagate.RecomputeDependents`.
- StoreApi.SubscribeAtomAsWritten: states only that a still-captured entry holds the listener. The converse, that a lost entry leaves the listener on no entry, is shown for the store of `LostListener` rather than for all stores.
- Read.StaleReadRecomputes: does not state that the recomputed record has a new identity. That would need an invariant that every recorded identity is below the store's counter. It also assumes that the dependencies brought up to date first need nothing done.
- Mount.MountDependencies: for an entry numbered at or below a dropped dependency, nothing is stated beyond the listened-to entries staying mounted. The second loop may mount such an atom again after the first unmounted it, with a new identity.
- Flush.FollowDeps: for an entry numbered at or below a dropped dependency, nothing is stated beyond the listened-to entries staying mounted, for the same reason as `Mount.MountDependencies`.
- Mount.MountAtom: requires the atom not to be mounted. The source calls `mountAtom` only from `addAtom` and `mountDependencies`, after checking that.
- Setting an atom that has no write function throws a TypeError, because `atom.write` is not a function. It does not throw a dedicated "not writable" error. The model follows the code.
- The key string `atom${n}` and `toString` are modelled only through the atom's number.

## Findings

| source | as written | input that shows it | evidently intended | confidence | as-written member | corrected member |
|---|---|---|---|---|---|---|
| dist/index.esm.js:57 | The dots in `(.glb\|.fbx\|.fbx[?].*\|.glb[?].*)$` are not escaped, so each matches any character but a line terminator. | The string `modelglb` is accepted as a model file. | Only names ending in `.glb` or `.fbx`, possibly followed by a query, are accepted. | not executed | Source.AnyCharAcceptsNameWithoutDot | Source.LiteralDotNeedsExtension |
| dist/index.esm.js:827-831 | `subscribeAtom` flushes before it adds the listener to the entry `addAtom` returned. The flush can unmount that entry, and the listener is then added to an entry the store no longer holds. | The store `LostListener.Before()`: B's stored state depends only on C, and its pending previous state also depended on A. Subscribing to A mounts A, and the flush then unmounts it. | The listener is on the atom's mounted entry after `sub` returns. | not executed | LostListener.SubscribeAsWrittenLosesListener | StoreApi.SubscribeAtom |

=== FILE: atoms.dfy ===
/** Atom descriptors (`atom(read, write)`) and the registry that gives each atom its id.

    An atom is either primitive (built from an initial value: it reads itself and
    gets the default updater as its write) or derived (built from a read function).
    A derived read function is modelled as the list of atoms it reads, in the order
    it reads them, and a pure function of the values it got.
 */
module Atoms {
  import opened Values

  /** What a read function does after its reads: return (possibly a promise) or throw. */
  datatype Produced = Returns(v: Value) | Throws(e: Value)

  datatype Reader =
    | ReadsSelf                                                // `get => get(config)`
    | Derived(inputs: seq<AtomId>, compute: seq<Value> -> Produced)

  /** The argument a caller passes to `set`: a value, or an updater function. */
  datatype Update = Replace(v: Value) | Apply(f: Value -> Value)

  /** One `set` call made by a custom write function. */
  datatype WriteStep =
    | SetWith(target: AtomId, payload: Update -> Value)          // set(target, payload(arg))
    | SetFrom(target: AtomId, source: AtomId, f: Value -> Value)  // set(target, f(get(source)))

  datatype Writer =
    | DefaultUpdater                                   // the write `atom(init)` installs
    | Custom(steps: seq<WriteStep>, result: Option<Value>)

  /** An `onMount` hook; `returnsUnmount` says whether it hands back an `onUnmount`. */
  datatype MountHook = MountHook(returnsUnmount: bool)

  datatype Atom = Atom(init: Option<Value>, reader: Reader, writer: Option<Writer>, onMount: Option<MountHook>)

  /** The first argument of `atom(read, write)`: a read function or an initial value. */
  datatype ReadArg = ReadFunction(inputs: seq<AtomId>, compute: seq<Value> -> Produced) | InitialValue(v: Value)

  /** `hasInitialValue`: the atom was built from an initial value. */
  predicate HasInitialValue(a: Atom) {
    a.init.Some?
  }

  /** `isActuallyWritableAtom`: the atom has a write function. */
  predicate IsWritable(a: Atom) {
    a.writer.Some?
  }

  /** `atom(read, write)`. */
  function MakeAtom(read: ReadArg, write: Option<Writer>): (a: Atom)
    ensures HasInitialValue(a) <==> read.InitialValue?
    ensures read.InitialValue? ==> a.init == Some(read.v) && a.reader == ReadsSelf
    ensures read.ReadFunction? ==> a.reader == Derived(read.inputs, read.compute)
    ensures write.Some? ==> a.writer == write
    ensures write.None? && read.InitialValue? ==> a.writer == Some(DefaultUpdater)
    ensures write.None? && read.ReadFunction? ==> !IsWritable(a)
    ensures a.onMount.None?
  {
    var base := match read
      case ReadFunction(inputs, compute) => Atom(None, Derived(inputs, compute), None, None)
      case InitialValue(v) => Atom(Some(v), ReadsSelf, Some(DefaultUpdater), None);
    if write.Some? then base.(writer := write) else base
  }

  /** The value the default updater stores: an updater function is applied to the
      current value, anything else is stored as it is. */
  function UpdatedValue(u: Update, current: Value): Value {
    match u
    case Replace(v) => v
    case Apply(f) => f(current)
  }

  type Registry = seq<Atom>

  /** The atoms atom `i` reads, in reading order. */
  function Reads(reg: Registry, i: AtomId): (rs: seq<AtomId>)
    requires i < |reg|
    ensures reg[i].reader.ReadsSelf? ==> rs == [i]
  {
    match reg[i].reader
    case ReadsSelf => [i]
    case Derived(inputs, _) => inputs
  }

  predicate NoDuplicates<T(==)>(xs: seq<T>) {
    forall j, k | 0 <= j < k < |xs| :: xs[j] != xs[k]
  }

  predicate StepInRange(step: WriteStep, n: nat) {
    match step
    case SetWith(t, _) => t < n
    case SetFrom(t, src, _) => t < n && src < n
  }

  /** Atom `i` reads only itself and atoms with smaller ids, each once, and its
      write function only names atoms of the registry. */
  predicate AtomWf(reg: Registry, i: AtomId)
    requires i < |reg|
  {
    && (forall j | 0 <= j < |Reads(reg, i)| :: Reads(reg, i)[j] <= i)
    && NoDuplicates(Reads(reg, i))
    && (reg[i].writer.Some? && reg[i].writer.value.Custom? ==>
          forall k | 0 <= k < |reg[i].writer.value.steps| :: StepInRange(reg[i].writer.value.steps[k], |reg|))
  }

  /** The dependency graph is acyclic apart from self-edges: ids follow a topological order. */
  predicate RegistryWf(reg: Registry) {
    forall i | 0 <= i < |reg| :: AtomWf(reg, i)
  }

  /** Creating an atom hands it the next id, as `atom${++keyCount}` does. */
  function Register(reg: Registry, read: ReadArg, write: Option<Writer>): (r: (Registry, AtomId))
    ensures r.1 == |reg| && |r.0| == |reg| + 1 && r.0[..|reg|] == reg
    ensures HasInitialValue(r.0[r.1]) <==> read.InitialValue?
  {
    (reg + [MakeAtom(read, write)], |reg|)
  }

  /** Registering an atom that reads only existing atoms (each once) and writes only
      existing atoms keeps the registry well formed. */
  lemma RegisterKeepsWf(reg: Registry, read: ReadArg, write: Option<Writer>)
    requires RegistryWf(reg)
    requires read.ReadFunction? ==> (forall j | 0 <= j < |read.inputs| :: read.inputs[j] <= |reg|) && NoDuplicates(read.inputs)
    requires write.Some? && write.value.Custom? ==>
               forall k | 0 <= k < |write.value.steps| :: StepInRange(write.value.steps[k], |reg| + 1)
    ensures RegistryWf(Register(reg, read, write).0)
  {
    var (reg', id) := Register(reg, read, write);
    forall i | 0 <= i < |reg'|
      ensures AtomWf(reg', i)
    {
      if i < |reg| {
        assert reg'[i] == reg[i];
        assert Reads(reg', i) == Reads(reg, i);
        assert AtomWf(reg, i);
        if reg[i].writer.Some? && reg[i].writer.value.Custom? {
          var steps := reg[i].writer.value.steps;
          forall k | 0 <= k < |steps|
            ensures StepInRange(steps[k], |reg'|)
          {
            assert StepInRange(steps[k], |reg|);
          }
        }
      }
    }
  }
}

=== FILE: flush.dfy ===
/** `flushPending`: the store's notification step. Every atom updated since the
    last flush is looked at once per round, in the order it was first updated:
    its mounted dependencies follow its new dependency map, and its listeners
    are called unless its value or error is unchanged. Mounting can read atoms,
    and so update them again, so the rounds go on until nothing is pending.
 */
module Flush {
  import opened Values
  import opened Atoms
  import opened StoreState
  import opened Invariants
  import opened Mount

  /** The source's test for calling listeners: skip them when the previous state
      was not a promise and holds an equal value or an equal error. */
  predicate Notifies(prev: Option<AtomState>, now: AtomState) {
    !(prev.Some? && !HasPromiseValue(prev.value.content)
      && (IsEqualValue(prev.value.content, now.content) || IsEqualError(prev.value.content, now.content)))
  }

  /** Listeners are skipped exactly when the previous state held the same
      content as the current one and that content is not a promise. */
  lemma NotifiesIff(prev: Option<AtomState>, now: AtomState)
    ensures !Notifies(prev, now) <==>
              prev.Some? && prev.value.content == now.content && !HasPromiseValue(now.content)
  {
  }

  /** A fresh promise always notifies, even when it wraps the same original. */
  lemma PromiseAlwaysNotifies(prev: Option<AtomState>, now: AtomState)
    requires HasPromiseValue(now.content)
    ensures Notifies(prev, now)
  {
  }

  /** The calls `mounted.l.forEach((listener) => listener())` makes. */
  function ListenerCalls(atom: AtomId, ls: seq<ListenerId>): (r: seq<Event>)
    ensures |r| == |ls|
    ensures forall k | 0 <= k < |ls| :: r[k] == ListenerCalled(atom, ls[k])
  {
    if ls == [] then [] else [ListenerCalled(atom, ls[0])] + ListenerCalls(atom, ls[1..])
  }

  /** The first half of handling a pending entry: when the dependency map is not
      the one the previous state had (always, when there was none), mounted
      dependencies follow it. */
  function FollowDeps(reg: Registry, s: Store, atom: AtomId, prev: Option<AtomState>): (r: Store)
    requires Wf(reg, s) && atom in s.states
    requires prev.Some? ==> DepsWf(reg, atom, prev.value.deps)
    ensures Wf(reg, r) && s.log <= r.log && KeepsListened(s.mounted, r.mounted)
    // records are kept, and only hooks run
    ensures HooksOnly(s, r)
    ensures prev.Some? && prev.value.deps == s.states[atom].deps ==> r == s
    // a dependency dropped since `prev` no longer lists the atom as a dependent
    ensures forall a | a in PrevKeys(PrevDepsOf(prev)) && a !in DepAtoms(s.states[atom].deps) ::
              a !in r.mounted || atom !in r.mounted[a].dependents
    // a mounted atom's current dependencies are mounted and list it
    ensures atom in r.mounted ==>
              forall a | a in DepAtoms(s.states[atom].deps) && a !in PrevKeys(PrevDepsOf(prev)) ::
                a in r.mounted && atom in r.mounted[a].dependents
    // the rest of the mounted map is left as `Mount.FollowsFrame` describes
    ensures FollowsFrame(s.mounted, r.mounted, atom, DepAtoms(s.states[atom].deps), PrevKeys(PrevDepsOf(prev)))
  {
    var deps := s.states[atom].deps;
    assert atom < |reg| && DepsWf(reg, atom, deps);
    if prev.Some? && prev.value.deps == deps then
      assert forall a | a in DepAtoms(deps) :: a in PrevKeys(PrevDepsOf(prev));
      s
    else
      MountDependencies(reg, s, atom, deps, PrevDepsOf(prev))
  }

  /** `prevAtomState?.d`. */
  function PrevDepsOf(prev: Option<AtomState>): Option<seq<Dep>> {
    if prev.Some? then Some(prev.value.deps) else None
  }

  /** One entry of the batch: follow the dependencies, then call the listeners
      of the mounted atom unless the change is no change. An atom without a
      state is skipped. */
  function FlushEntry(reg: Registry, s: Store, e: PendingEntry): (r: Store)
    requires Wf(reg, s) && e.atom < |reg|
    requires e.prev.Some? ==> DepsWf(reg, e.atom, e.prev.value.deps)
    ensures Wf(reg, r) && s.log <= r.log && KeepsListened(s.mounted, r.mounted)
    ensures s.states.Keys <= r.states.Keys
    ensures e.atom !in s.states ==> r == s
  {
    if e.atom in s.states then
      var s1 := FollowDeps(reg, s, e.atom, e.prev);
      if e.atom in s1.mounted && Notifies(e.prev, s.states[e.atom]) then CallListeners(reg, s1, e.atom) else s1
    else
      s
  }

  /** `mounted.l.forEach((listener) => listener())`: only the log grows. */
  function CallListeners(reg: Registry, s: Store, atom: AtomId): (r: Store)
    requires Wf(reg, s) && atom in s.mounted
    ensures Wf(reg, r) && s.log <= r.log && r.mounted == s.mounted
    ensures r.log == s.log + ListenerCalls(atom, s.mounted[atom].listeners)
  {
    s.(log := s.log + ListenerCalls(atom, s.mounted[atom].listeners))
  }

  /** Each listener of a mounted atom is called, exactly once per flushed
      change, and nothing else is called, when the change is a real one. */
  lemma FlushEntryCalls(reg: Registry, s: Store, e: PendingEntry)
    requires Wf(reg, s) && e.atom < |reg| && e.atom in s.states
    requires e.prev.Some? ==> DepsWf(reg, e.atom, e.prev.value.deps)
    ensures var s1 := FollowDeps(reg, s, e.atom, e.prev);
            var r := FlushEntry(reg, s, e);
            var now := s.states[e.atom];
            && s1.log <= r.log
            && (forall k | |s1.log| <= k < |r.log| :: r.log[k].ListenerCalled? && r.log[k].atom == e.atom)
            && (forall l :: ListenerCalled(e.atom, l) in r.log[|s1.log|..] <==>
                  e.atom in s1.mounted && l in s1.mounted[e.atom].listeners
                  && !(e.prev.Some? && e.prev.value.content == now.content && !HasPromiseValue(now.content)))
            // no listener is called twice
            && (forall i, j | |s1.log| <= i < j < |r.log| :: r.log[i] != r.log[j])
  {
    var s1 := FollowDeps(reg, s, e.atom, e.prev);
    var r := FlushEntry(reg, s, e);
    NotifiesIff(e.prev, s.states[e.atom]);
    if e.atom in s1.mounted && Notifies(e.prev, s.states[e.atom]) {
      CallsAppended(e.atom, s1.mounted[e.atom].listeners, s1.log, r.log);
    } else {
      assert r.log == s1.log;
    }
  }

  lemma CallsAppended(atom: AtomId, ls: seq<ListenerId>, log: seq<Event>, log': seq<Event>)
    requires log' == log + ListenerCalls(atom, ls) && NoDuplicates(ls)
    ensures log <= log'
    ensures forall k | |log| <= k < |log'| :: log'[k].ListenerCalled? && log'[k].atom == atom
    ensures forall l :: ListenerCalled(atom, l) in log'[|log|..] <==> l in ls
    ensures forall i, j | |log| <= i < j < |log'| :: log'[i] != log'[j]
  {
    var added := log'[|log|..];
    assert added == ListenerCalls(atom, ls);
    forall i, j | |log| <= i < j < |log'|
      ensures log'[i] != log'[j]
    {
      assert log'[i] == added[i - |log|] && log'[j] == added[j - |log|];
    }
    forall l
      ensures ListenerCalled(atom, l) in added <==> l in ls
    {
      if l in ls {
        var k :| 0 <= k < |ls| && ls[k] == l;
        assert added[k] == ListenerCalled(atom, l);
      }
    }
  }

  /** The entries of one round, in order. */
  function FlushBatch(reg: Registry, s: Store, batch: seq<PendingEntry>): (r: Store)
    requires Wf(reg, s) && PendingWf(reg, batch)
    ensures Wf(reg, r)
    ensures s.log <= r.log && s.states.Keys <= r.states.Keys
    ensures KeepsListened(s.mounted, r.mounted)
    ensures batch == [] ==> r == s
    decreases |batch|
  {
    if batch == [] then s
    else
      var s1 := FlushEntry(reg, s, batch[0]);
      var r := FlushBatch(reg, s1, batch[1..]);
      KeepsListenedTrans(s.mounted, s1.mounted, r.mounted);
      r
  }

  /** `flushPending`, for at most `rounds` rounds of its loop. Returns the store
      and the rounds left; the loop stopped early only if nothing was pending. */
  function FlushPending(reg: Registry, s: Store, rounds: nat): (r: (Store, nat))
    requires Wf(reg, s)
    ensures Wf(reg, r.0)
    ensures r.1 <= rounds
    // the loop ends when the pending map is empty, or when the rounds run out
    ensures r.0.pending == [] || r.1 == 0
    // a round is spent exactly when something is pending and a round is left
    ensures r.1 < rounds <==> s.pending != [] && rounds > 0
    ensures s.pending == [] ==> r == (s, rounds)
    ensures s.log <= r.0.log
    // listeners are never dropped: an atom that has some stays mounted
    ensures KeepsListened(s.mounted, r.0.mounted)
    // the first round calls every listener of a pending atom whose change always notifies
    ensures rounds > 0 ==> CallsListenersOf(s.pending, s.states, s.mounted, r.0.log[|s.log|..])
    decreases rounds
  {
    if s.pending == [] || rounds == 0 then (s, rounds)
    else
      var batch := s.pending;
      var s1 := FlushBatch(reg, s.(pending := []), batch);
      var r := FlushPending(reg, s1, rounds - 1);
      KeepsListenedTrans(s.mounted, s1.mounted, r.0.mounted);
      FlushBatchCalls(reg, s.(pending := []), batch);
      CallsLater(batch, s.states, s.mounted, s.log, s1.log, r.0.log);
      r
  }

  // ---------------------------------------------------------------------------
  // The calls a batch makes

  /** A change that notifies whatever the atom holds once flushed: there was no
      previous state, or it held a promise. */
  predicate AlwaysNotifies(prev: Option<AtomState>) {
    prev.None? || HasPromiseValue(prev.value.content)
  }

  /** Every listener that an atom of `batch` has in `m` is called in `calls`,
      when the atom has a record in `states` and its entry always notifies. */
  ghost predicate CallsListenersOf(batch: seq<PendingEntry>, states: map<AtomId, AtomState>, m: map<AtomId, Mounted>,
                                   calls: seq<Event>) {
    forall j, l | 0 <= j < |batch| && batch[j].atom in states && batch[j].atom in m && l in m[batch[j].atom].listeners
                  && AlwaysNotifies(batch[j].prev) ::
      ListenerCalled(batch[j].atom, l) in calls
  }

  /** Every listener called in `calls` belongs to an atom of `batch`. */
  ghost predicate CallsOnlyFor(batch: seq<PendingEntry>, calls: seq<Event>) {
    forall k | 0 <= k < |calls| && calls[k].ListenerCalled? ::
      exists j | 0 <= j < |batch| :: batch[j].atom == calls[k].atom
  }

  lemma CallsLater(batch: seq<PendingEntry>, states: map<AtomId, AtomState>, m: map<AtomId, Mounted>,
                   log: seq<Event>, log1: seq<Event>, log2: seq<Event>)
    requires log <= log1 <= log2 && CallsListenersOf(batch, states, m, log1[|log|..])
    ensures CallsListenersOf(batch, states, m, log2[|log|..])
  {
    forall j, l | 0 <= j < |batch| && batch[j].atom in states && batch[j].atom in m && l in m[batch[j].atom].listeners
                  && AlwaysNotifies(batch[j].prev)
      ensures ListenerCalled(batch[j].atom, l) in log2[|log|..]
    {
      var i :| 0 <= i < |log1[|log|..]| && log1[|log|..][i] == ListenerCalled(batch[j].atom, l);
      assert log2[|log|..][i] == log1[|log|..][i];
    }
  }

  /** A batch is flushed entry by entry, in order: flushing it is flushing the
      entries before `k`, then entry `k`, then the rest. */
  lemma {:induction false} FlushBatchSplit(reg: Registry, s: Store, batch: seq<PendingEntry>, k: nat)
    requires Wf(reg, s) && PendingWf(reg, batch) && k < |batch|
    ensures PendingWf(reg, batch[..k]) && PendingWf(reg, batch[k + 1..])
    ensures var s1 := FlushBatch(reg, s, batch[..k]);
            FlushBatch(reg, s, batch) == FlushBatch(reg, FlushEntry(reg, s1, batch[k]), batch[k + 1..])
    decreases k
  {
    if k == 0 {
      assert batch[..0] == [];
    } else {
      var s1 := FlushEntry(reg, s, batch[0]);
      var rest := batch[1..];
      FlushBatchSplit(reg, s1, rest, k - 1);
      assert batch[..k][0] == batch[0] && batch[..k][1..] == rest[..k - 1];
      assert rest[k - 1] == batch[k] && rest[k..] == batch[k + 1..];
    }
  }

  /** The calls one entry makes: listener calls for its own atom only, and,
      when its change always notifies, each listener its atom had. */
  lemma FlushEntryCallsOf(reg: Registry, s: Store, e: PendingEntry)
    requires Wf(reg, s) && e.atom < |reg|
    requires e.prev.Some? ==> DepsWf(reg, e.atom, e.prev.value.deps)
    ensures var r := FlushEntry(reg, s, e);
            && CallsOnlyFor([e], r.log[|s.log|..])
            && CallsListenersOf([e], s.states, s.mounted, r.log[|s.log|..])
  {
    if e.atom in s.states {
      var s1 := FollowDeps(reg, s, e.atom, e.prev);
      var r := FlushEntry(reg, s, e);
      FlushEntryCalls(reg, s, e);
      EntryCallsOnly(e, s, s1, r);
      EntryCallsListeners(e, s, s1, r);
    }
  }

  lemma EntryCallsOnly(e: PendingEntry, s: Store, s1: Store, r: Store)
    requires HooksOnly(s, s1) && s1.log <= r.log
    requires forall k | |s1.log| <= k < |r.log| :: r.log[k].ListenerCalled? && r.log[k].atom == e.atom
    ensures CallsOnlyFor([e], r.log[|s.log|..])
  {
    var calls := r.log[|s.log|..];
    forall k | 0 <= k < |calls| && calls[k].ListenerCalled?
      ensures exists j | 0 <= j < |[e]| :: [e][j].atom == calls[k].atom
    {
      assert calls[k] == r.log[|s.log| + k];
      assert [e][0].atom == calls[k].atom;
    }
  }

  lemma EntryCallsListeners(e: PendingEntry, s: Store, s1: Store, r: Store)
    requires e.atom in s.states && s.log <= s1.log <= r.log && KeepsListened(s.mounted, s1.mounted)
    requires forall l | e.atom in s1.mounted && l in s1.mounted[e.atom].listeners
                        && !(e.prev.Some? && e.prev.value.content == s.states[e.atom].content
                             && !HasPromiseValue(s.states[e.atom].content)) ::
               ListenerCalled(e.atom, l) in r.log[|s1.log|..]
    ensures CallsListenersOf([e], s.states, s.mounted, r.log[|s.log|..])
  {
    var calls := r.log[|s.log|..];
    assert [e][0] == e;
    forall l | e.atom in s.mounted && l in s.mounted[e.atom].listeners && AlwaysNotifies(e.prev)
      ensures ListenerCalled(e.atom, l) in calls
    {
      assert e.atom in s1.mounted && l in s1.mounted[e.atom].listeners;
      var i :| 0 <= i < |r.log[|s1.log|..]| && r.log[|s1.log|..][i] == ListenerCalled(e.atom, l);
      assert calls[|s1.log| - |s.log| + i] == ListenerCalled(e.atom, l);
    }
  }

  /** The calls a batch makes: every listener call is for an atom of the batch,
      and each listener of a batch atom whose change always notifies is called. */
  lemma {:induction false} FlushBatchCalls(reg: Registry, s: Store, batch: seq<PendingEntry>)
    requires Wf(reg, s) && PendingWf(reg, batch)
    ensures var r := FlushBatch(reg, s, batch);
            && CallsOnlyFor(batch, r.log[|s.log|..])
            && CallsListenersOf(batch, s.states, s.mounted, r.log[|s.log|..])
    decreases |batch|
  {
    if batch != [] {
      var e := batch[0];
      var s1 := FlushEntry(reg, s, e);
      var rest := batch[1..];
      var r := FlushBatch(reg, s1, rest);
      FlushEntryCallsOf(reg, s, e);
      FlushBatchCalls(reg, s1, rest);
      CallsStep(s, s1, r, batch);
    }
  }

  /** Joins the calls of a batch's first entry to those of the rest. */
  lemma CallsStep(s: Store, s1: Store, r: Store, batch: seq<PendingEntry>)
    requires batch != [] && s.log <= s1.log <= r.log
    requires s.states.Keys <= s1.states.Keys && KeepsListened(s.mounted, s1.mounted)
    requires CallsOnlyFor([batch[0]], s1.log[|s.log|..]) && CallsOnlyFor(batch[1..], r.log[|s1.log|..])
    requires CallsListenersOf([batch[0]], s.states, s.mounted, s1.log[|s.log|..])
    requires CallsListenersOf(batch[1..], s1.states, s1.mounted, r.log[|s1.log|..])
    ensures CallsOnlyFor(batch, r.log[|s.log|..])
    ensures CallsListenersOf(batch, s.states, s.mounted, r.log[|s.log|..])
  {
    var calls := r.log[|s.log|..];
    forall k | 0 <= k < |calls| && calls[k].ListenerCalled?
      ensures exists j | 0 <= j < |batch| :: batch[j].atom == calls[k].atom
    {
      if |s.log| + k < |s1.log| {
        assert s1.log[|s.log|..][k] == calls[k];
        assert [batch[0]][0].atom == calls[k].atom;
      } else {
        var i := |s.log| + k - |s1.log|;
        assert r.log[|s1.log|..][i] == calls[k];
        var j :| 0 <= j < |batch[1..]| && batch[1..][j].atom == calls[k].atom;
        assert batch[j + 1].atom == calls[k].atom;
      }
    }
    forall j, l | 0 <= j < |batch| && batch[j].atom in s.states && batch[j].atom in s.mounted
                  && l in s.mounted[batch[j].atom].listeners && AlwaysNotifies(batch[j].prev)
      ensures ListenerCalled(batch[j].atom, l) in calls
    {
      var c := ListenerCalled(batch[j].atom, l);
      if j == 0 {
        assert [batch[0]][0] == batch[j];
        var i :| 0 <= i < |s1.log[|s.log|..]| && s1.log[|s.log|..][i] == c;
        assert calls[i] == c;
      } else {
        assert batch[1..][j - 1] == batch[j];
        assert batch[j].atom in s1.mounted && l in s1.mounted[batch[j].atom].listeners;
        var i :| 0 <= i < |r.log[|s1.log|..]| && r.log[|s1.log|..][i] == c;
        assert calls[|s1.log| - |s.log| + i] == c;
      }
    }
  }
}

=== FILE: invariants.dfy ===
/** The well-formedness every store keeps: records only name atoms their read
    function reads (or the atom itself), mounted entries only list dependents that
    read the atom, and everything refers to atoms of the registry. Together with a
    well-formed registry this is what makes every recursion of the store terminate:
    dependencies have smaller ids, dependents larger ones.
 */
module Invariants {
  import opened Values
  import opened Atoms
  import opened StoreState

  /** `b` is `a` itself or one of the atoms `a` reads. */
  predicate ReadsOrSelf(reg: Registry, a: AtomId, b: AtomId) {
    a < |reg| && (b == a || b in Reads(reg, a))
  }

  predicate DepsWf(reg: Registry, a: AtomId, deps: seq<Dep>) {
    forall k | 0 <= k < |deps| :: ReadsOrSelf(reg, a, deps[k].atom)
  }

  predicate GotWf(reg: Registry, a: AtomId, got: seq<Read>) {
    forall k | 0 <= k < |got| :: ReadsOrSelf(reg, a, got[k].atom)
  }

  predicate StatesWf(reg: Registry, s: Store) {
    forall a | a in s.states :: a < |reg| && DepsWf(reg, a, s.states[a].deps)
  }

  /** The dependents of a mounted atom form a set, and each reads the atom (or is it). */
  predicate DependentsWf(reg: Registry, a: AtomId, ts: seq<AtomId>) {
    NoDuplicates(ts) && forall k | 0 <= k < |ts| :: ReadsOrSelf(reg, ts[k], a)
  }

  predicate MountedMapWf(reg: Registry, m: map<AtomId, Mounted>) {
    forall a | a in m :: a < |reg| && DependentsWf(reg, a, m[a].dependents) && NoDuplicates(m[a].listeners)
  }

  predicate MountedWf(reg: Registry, s: Store) {
    MountedMapWf(reg, s.mounted)
  }

  predicate PendingWf(reg: Registry, pending: seq<PendingEntry>) {
    forall k | 0 <= k < |pending| ::
      pending[k].atom < |reg| && (pending[k].prev.Some? ==> DepsWf(reg, pending[k].atom, pending[k].prev.value.deps))
  }

  predicate Wf(reg: Registry, s: Store) {
    && RegistryWf(reg)
    && StatesWf(reg, s)
    && MountedWf(reg, s)
    && PendingWf(reg, s.pending)
  }

  /** What an atom reads has an id no larger than its own. */
  lemma ReadsOrSelfBelow(reg: Registry, a: AtomId, b: AtomId)
    requires RegistryWf(reg) && ReadsOrSelf(reg, a, b)
    ensures b <= a && b < |reg|
  {
    if b != a {
      assert AtomWf(reg, a);
      var j :| 0 <= j < |Reads(reg, a)| && Reads(reg, a)[j] == b;
    }
  }

  lemma EmptyStoreWf(reg: Registry)
    requires RegistryWf(reg)
    ensures Wf(reg, EmptyStore())
  {
  }

  /** Installing a record whose dependencies the atom reads keeps the store well formed. */
  lemma SetAtomStateKeepsWf(reg: Registry, s: Store, a: AtomId, st: AtomState)
    requires Wf(reg, s) && a < |reg| && DepsWf(reg, a, st.deps)
    ensures Wf(reg, SetAtomState(s, a, st))
  {
  }

  lemma ResolveReadsWf(reg: Registry, atom: AtomId, got: seq<Read>, own: Snapshot)
    requires GotWf(reg, atom, got)
    ensures DepsWf(reg, atom, ResolveReads(atom, got, own))
  {
    var deps := ResolveReads(atom, got, own);
    forall k | 0 <= k < |deps|
      ensures ReadsOrSelf(reg, atom, deps[k].atom)
    {
      var j :| 0 <= j < |got| && ReadAtomSeq(got)[j] == deps[k].atom;
    }
  }

  lemma NextDepsWf(reg: Registry, s: Store, atom: AtomId, got: Option<seq<Read>>, own: Snapshot)
    requires Wf(reg, s) && atom < |reg|
    requires got.Some? ==> GotWf(reg, atom, got.value)
    ensures DepsWf(reg, atom, NextDeps(PrevDeps(GetState(s, atom)), atom, got, own))
  {
    if got.Some? {
      ResolveReadsWf(reg, atom, got.value, own);
    }
  }

  lemma SetAtomValueKeepsWf(reg: Registry, s: Store, atom: AtomId, v: Value, got: Option<seq<Read>>)
    requires Wf(reg, s) && atom < |reg|
    requires got.Some? ==> GotWf(reg, atom, got.value)
    ensures Wf(reg, SetAtomValue(s, atom, v, got).0)
  {
    var r := SetAtomValue(s, atom, v, got);
    if r.0 != s {
      NextDepsWf(reg, s, atom, got, Snapshot(s.next, r.1.content));
      SetAtomStateKeepsWf(reg, s.(next := s.next + 1), atom, r.1);
    }
  }

  lemma SetAtomValueOrPromiseKeepsWf(reg: Registry, s: Store, atom: AtomId, v: Value, got: Option<seq<Read>>)
    requires Wf(reg, s) && atom < |reg|
    requires got.Some? ==> GotWf(reg, atom, got.value)
    ensures Wf(reg, SetAtomValueOrPromise(s, atom, v, got).0)
  {
    if IsPromiseLike(v) {
      SetAtomValueKeepsWf(reg, s.(next := s.next + 1), atom, Wrapped(s.next, v), got);
    } else {
      SetAtomValueKeepsWf(reg, s, atom, v, got);
    }
  }

  lemma SetAtomErrorKeepsWf(reg: Registry, s: Store, atom: AtomId, e: Value, got: Option<seq<Read>>)
    requires Wf(reg, s) && atom < |reg|
    requires got.Some? ==> GotWf(reg, atom, got.value)
    ensures Wf(reg, SetAtomError(s, atom, e, got).0)
  {
    var r := SetAtomError(s, atom, e, got);
    if r.0 != s {
      NextDepsWf(reg, s, atom, got, Snapshot(s.next, Err(e)));
      SetAtomStateKeepsWf(reg, s.(next := s.next + 1), atom, r.1);
    }
  }
}

=== FILE: lost_listener.dfy ===
/** A store in which `subscribeAtom`, as written, loses its listener.

    Atoms: D (id 0) and A (id 1) are primitive; C (id 2) reads D and throws once
    D is no longer 0; B (id 3) reads C, then A. Reading B, setting D to 1,
    reading C, setting D to 1 again and reading B once more leaves B holding
    C's error with C as its only dependency, and B's earlier state, which also
    depended on A, pending. Nothing is mounted.

    Subscribing to A then mounts A with no dependents and flushes: following B's
    new dependencies takes B off A's dependents, which leaves A unmountable, and
    A is unmounted before the listener is added.
 */
module LostListener {
  import opened Values
  import opened Atoms
  import opened StoreState
  import opened Invariants
  import opened Read
  import opened Mount
  import opened Flush
  import opened StoreApi

  function Primitive(): Atom {
    Atom(Some(Plain(0)), ReadsSelf, Some(DefaultUpdater), None)
  }

  function Registry4(): Registry {
    [ Primitive(),
      Primitive(),
      Atom(None, Derived([0], (vs: seq<Value>) => if vs == [Plain(0)] then Returns(Plain(0)) else Throws(Plain(7))), None, None),
      Atom(None, Derived([2, 1], (vs: seq<Value>) => Returns(Plain(0))), None, None) ]
  }

  /** B's state before D changed: it had read C and A. */
  function EarlierB(): AtomState {
    AtomState(3, [Dep(2, Snapshot(2, Val(Plain(0)))), Dep(1, Snapshot(1, Val(Plain(0))))], Val(Plain(0)))
  }

  function Before(): Store {
    Store(
      map[0 := AtomState(4, [Dep(0, Snapshot(4, Val(Plain(1))))], Val(Plain(1))),
          1 := AtomState(1, [Dep(1, Snapshot(1, Val(Plain(0))))], Val(Plain(0))),
          2 := AtomState(5, [Dep(0, Snapshot(4, Val(Plain(1))))], Err(Plain(7))),
          3 := AtomState(6, [Dep(2, Snapshot(5, Err(Plain(7))))], Err(Plain(7)))],
      map[],
      [PendingEntry(3, Some(EarlierB()))],
      7,
      [])
  }

  lemma BeforeWf()
    ensures Wf(Registry4(), Before())
  {
    var reg := Registry4();
    assert AtomWf(reg, 0) && AtomWf(reg, 1) && AtomWf(reg, 2) && AtomWf(reg, 3);
  }

  /** The store once A is mounted: its entry has no listeners and lists only A. */
  function MountedA(): Store {
    Before().(mounted := map[1 := Mounted(7, [], [1], false)], next := 8)
  }

  /** The store once B's entry is flushed: A is unmounted again. */
  function Flushed(): Store {
    Before().(mounted := map[], next := 8, pending := [])
  }

  /** A's entry before its loop: no dependents yet. */
  function EnteredA(): Store {
    Before().(mounted := map[1 := Mounted(7, [], [], false)], next := 8)
  }

  /** A's read is memoised: its only dependency is itself. */
  lemma ReadingA(s: Store)
    requires s == EnteredA() || s == MountedA()
    ensures Wf(Registry4(), s)
    ensures ReadAtomState(Registry4(), s, 1) == (s, Before().states[1])
  {
    BeforeWf();
    assert s.states == Before().states;
    assert Wf(Registry4(), s);
    ConsistentA(s);
    ConsistentReadIsNoOp(Registry4(), s, 1);
  }

  lemma ConsistentA(s: Store)
    requires s.states == Before().states
    ensures Consistent(s, 1)
  {
    assert s.states[1].deps == [Dep(1, Snapshot(1, Val(Plain(0))))];
  }

  /** Mounting A makes it its own dependent and nothing else. */
  lemma MountingA()
    ensures Wf(Registry4(), Before())
    ensures AddAtom(Registry4(), Before(), 1) == (MountedA(), 7)
  {
    var reg, s := Registry4(), Before();
    BeforeWf();
    assert Enter(reg, s, 1, None) == EnteredA();
    ReadingA(EnteredA());
    MountingSelf();
    HookOfA();
  }

  /** A has no `onMount`, so the end of the mount changes nothing. */
  lemma HookOfA()
    ensures Wf(Registry4(), MountedA())
    ensures RunMountHook(Registry4(), MountedA(), 1) == MountedA()
  {
    var reg, s := Registry4(), MountedA();
    ReadingA(s);
    assert !HasMountHook(reg[1]) && !ReturnsUnmount(reg[1]);
    assert s.mounted[1 := s.mounted[1].(hasUnmount := false)] == s.mounted;
  }

  lemma MountingSelf()
    ensures Wf(Registry4(), EnteredA())
    ensures MountEach(Registry4(), EnteredA(), 1, DepAtoms(Before().states[1].deps)) == MountedA()
  {
    var reg, s0 := Registry4(), EnteredA();
    ReadingA(s0);
    assert DepAtoms(Before().states[1].deps) == [1];
    assert SetAdd([], 1) == [1];
    assert AddDependent(s0, 1, 1) == MountedA();
    assert MountOne(reg, s0, 1, 1) == MountedA();
  }

  /** Unmounting A: its only dependency is itself, so nothing else is touched. */
  lemma UnmountingA()
    ensures Wf(Registry4(), MountedA().(pending := []))
    ensures UnmountAtom(Registry4(), MountedA().(pending := []), 1) == Flushed()
  {
    var reg, sB := Registry4(), MountedA().(pending := []);
    BeforeWf();
    assert Wf(reg, sB);
    assert DepAtoms(sB.states[1].deps) == [1];
  }

  /** Dropping A from B's dependencies unmounts A. */
  lemma DroppingA()
    ensures Wf(Registry4(), MountedA().(pending := []))
    ensures MountDependencies(Registry4(), MountedA().(pending := []), 3, Before().states[3].deps, Some(EarlierB().deps)) == Flushed()
  {
    var reg, sB := Registry4(), MountedA().(pending := []);
    DropLoopA();
    assert DepAtoms(Before().states[3].deps) == [2];
    assert PrevKeys(Some(EarlierB().deps)) == [2, 1];
    assert Without([2], [2, 1]) == [];
    assert AddEach(reg, Flushed(), 3, []) == Flushed();
  }

  /** The first loop of `mountDependencies` for B: C is kept, A is dropped. */
  lemma DropLoopA()
    ensures Wf(Registry4(), MountedA().(pending := []))
    ensures DropEach(Registry4(), MountedA().(pending := []), 3, [2], [2, 1]) == Flushed()
  {
    var reg, sB := Registry4(), MountedA().(pending := []);
    UnmountingA();
    assert SetRemove([1], 3) == [1];
    assert RemoveDependent(sB, 1, 3) == sB;
    assert DropOne(reg, sB, 3, 1) == Flushed();
    assert DropEach(reg, sB, 3, [2], [1]) == Flushed();
  }

  /** The flush handles B's entry and stops. */
  lemma FlushingB()
    ensures Wf(Registry4(), MountedA())
    ensures FlushPending(Registry4(), MountedA(), 2) == (Flushed(), 1)
  {
    FlushingBatchB();
  }

  /** The batch holds B's entry only. */
  lemma FlushingBatchB()
    ensures Wf(Registry4(), MountedA()) && PendingWf(Registry4(), Before().pending)
    ensures FlushBatch(Registry4(), MountedA().(pending := []), Before().pending) == Flushed()
  {
    var reg, sB := Registry4(), MountedA().(pending := []);
    BeforeWf();
    FlushingEntryB();
    assert Wf(reg, MountedA());
    assert Before().pending == [Before().pending[0]];
    FlushOne(reg, sB, Before().pending[0]);
  }

  /** A batch of one entry is that entry's flush. */
  lemma FlushOne(reg: Registry, s: Store, e: PendingEntry)
    requires Wf(reg, s) && PendingWf(reg, [e])
    ensures FlushBatch(reg, s, [e]) == FlushEntry(reg, s, e)
  {
    assert [e][1..] == [];
  }

  /** B's entry: its dependencies changed, so they are followed, and B itself is
      not mounted, so no listener is called. */
  lemma FlushingEntryB()
    ensures Wf(Registry4(), MountedA().(pending := []))
    ensures FlushEntry(Registry4(), MountedA().(pending := []), Before().pending[0]) == Flushed()
  {
    FollowingB();
  }

  /** B's dependencies changed from [C, A] to [C]. */
  lemma FollowingB()
    ensures Wf(Registry4(), MountedA().(pending := [])) && 3 in MountedA().states
    ensures FollowDeps(Registry4(), MountedA().(pending := []), 3, Some(EarlierB())) == Flushed()
  {
    DroppingA();
  }

  /** The subscription as written leaves A unmounted and the listener nowhere;
      the corrected one keeps A mounted with the listener on it. */
  lemma SubscribeAsWrittenLosesListener()
    ensures Wf(Registry4(), Before())
    ensures var r := SubscribeAtomAsWritten(Registry4(), Before(), 1, 42, 2);
            1 !in r.0.mounted && forall a | a in r.0.mounted :: 42 !in r.0.mounted[a].listeners
    ensures var r := SubscribeAtom(Registry4(), Before(), 1, 42, 2);
            1 in r.0.mounted && 42 in r.0.mounted[1].listeners
  {
    MountingA();
    FlushingB();
  }
}

=== FILE: mount.dfy ===
/** The mount lifecycle: `mountAtom`, `unmountAtom`, `canUnmountAtom`,
    `mountDependencies`, and the helpers `addAtom` and `delAtom`.

    An atom is mounted while something needs it to stay up to date: a listener,
    or a mounted dependent. Mounting an atom reads it and mounts what it depends
    on; unmounting it runs its `onUnmount` hook and unmounts each dependency that
    is left without listeners and without other dependents. Hooks are recorded in
    the store's event log; what they do is not modelled.
 */
module Mount {
  import opened Values
  import opened Atoms
  import opened StoreState
  import opened Invariants
  import opened Read

  /** `canUnmountAtom`: no listeners, and no dependent other than the atom itself. */
  predicate CanUnmountAtom(atom: AtomId, mounted: Mounted) {
    && |mounted.listeners| == 0
    && (|mounted.dependents| == 0 || (|mounted.dependents| == 1 && atom in mounted.dependents))
  }

  /** On a set of dependents the size test says: no listeners, and every
      dependent is the atom itself. */
  lemma CanUnmountIff(atom: AtomId, mounted: Mounted)
    requires NoDuplicates(mounted.dependents)
    ensures CanUnmountAtom(atom, mounted) <==>
              mounted.listeners == [] && forall x | x in mounted.dependents :: x == atom
  {
    var t := mounted.dependents;
    if |t| >= 2 {
      assert t[0] != t[1] && t[0] in t && t[1] in t;
    } else if |t| == 1 {
      assert t == [t[0]];
      assert atom in t <==> t[0] == atom;
      assert t[0] in t;
    }
  }

  /** The onMount hook runs for a writable atom that has one. */
  predicate HasMountHook(a: Atom) {
    IsWritable(a) && a.onMount.Some?
  }

  predicate ReturnsUnmount(a: Atom) {
    HasMountHook(a) && a.onMount.value.returnsUnmount
  }

  // ---------------------------------------------------------------------------
  // How the mounted map may change

  /** Every entry of `m'` was in `m`, with the same identity, listeners and
      hook, and with no dependents it did not have. */
  ghost predicate Keeps(m: map<AtomId, Mounted>, m': map<AtomId, Mounted>) {
    forall b | b in m' ::
      && b in m
      && m'[b].serial == m[b].serial
      && m'[b].listeners == m[b].listeners
      && m'[b].hasUnmount == m[b].hasUnmount
      && (forall x | x in m'[b].dependents :: x in m[b].dependents)
  }

  /** What an unmount does to the mounted map: it drops entries, and drops from
      the dependents of those that stay only atoms that are no longer mounted. */
  ghost predicate Shrinks(m: map<AtomId, Mounted>, m': map<AtomId, Mounted>) {
    && Keeps(m, m')
    && forall b | b in m' :: forall x | x in m[b].dependents :: x in m'[b].dependents || x !in m'
  }

  /** Every atom still mounted whose dependents changed cannot be unmounted:
      the cascade did not stop early. */
  ghost predicate CascadeDone(m: map<AtomId, Mounted>, m': map<AtomId, Mounted>) {
    forall b | b in m' && b in m && m'[b].dependents != m[b].dependents :: !CanUnmountAtom(b, m'[b])
  }

  /** Every atom of `m` that was unmounted had no listeners, and every dependent
      it had, other than itself, was unmounted too. */
  ghost predicate UnmountedAlone(m: map<AtomId, Mounted>, m': map<AtomId, Mounted>) {
    forall b | b in m && b !in m' ::
      m[b].listeners == [] && forall x | x in m[b].dependents :: x == b || x !in m'
  }

  /** The events an unmount adds: the `onUnmount` hooks of exactly the atoms it
      unmounted that had one. */
  ghost predicate UnmountHooksRan(m: map<AtomId, Mounted>, m': map<AtomId, Mounted>, events: seq<Event>) {
    && (forall k | 0 <= k < |events| ::
          events[k].UnmountHookRan? && events[k].atom in m && events[k].atom !in m' && m[events[k].atom].hasUnmount)
    && (forall b | b in m && b !in m' && m[b].hasUnmount :: UnmountHookRan(b) in events)
  }

  /** What a mount does to the mounted map: it keeps every entry, with the same
      identity, listeners and hook, and only adds dependents. */
  ghost predicate Grows(m: map<AtomId, Mounted>, m': map<AtomId, Mounted>) {
    forall b | b in m ::
      && b in m'
      && m'[b].serial == m[b].serial
      && m'[b].listeners == m[b].listeners
      && m'[b].hasUnmount == m[b].hasUnmount
      && (forall x | x in m[b].dependents :: x in m'[b].dependents)
  }

  /** The entries a mount creates have no listeners, and remember whether the
      atom's `onMount` handed back an `onUnmount`. */
  ghost predicate FreshEntries(reg: Registry, m: map<AtomId, Mounted>, m': map<AtomId, Mounted>) {
    forall b | b in m' && b !in m :: b < |reg| && m'[b].listeners == [] && (m'[b].hasUnmount <==> ReturnsUnmount(reg[b]))
  }

  /** The events a mount adds: the `onMount` hooks of exactly the atoms it
      mounted that have one. */
  ghost predicate MountHooksRan(reg: Registry, m: map<AtomId, Mounted>, m': map<AtomId, Mounted>, events: seq<Event>) {
    && (forall k | 0 <= k < |events| ::
          && events[k].MountHookRan? && events[k].atom !in m && events[k].atom in m'
          && events[k].atom < |reg| && HasMountHook(reg[events[k].atom]))
    && (forall b | b in m' && b !in m && b < |reg| && HasMountHook(reg[b]) :: MountHookRan(b) in events)
  }

  /** Every atom of `m` that has a listener is still mounted in `m'`, with the
      same entry identity and the same listeners. */
  ghost predicate KeepsListened(m: map<AtomId, Mounted>, m': map<AtomId, Mounted>) {
    forall b | b in m && m[b].listeners != [] ::
      b in m' && m'[b].serial == m[b].serial && m'[b].listeners == m[b].listeners
  }

  lemma KeepsListenedTrans(m: map<AtomId, Mounted>, m1: map<AtomId, Mounted>, m2: map<AtomId, Mounted>)
    requires KeepsListened(m, m1) && KeepsListened(m1, m2)
    ensures KeepsListened(m, m2)
  {
  }

  lemma GrowsListened(m: map<AtomId, Mounted>, m': map<AtomId, Mounted>)
    requires Grows(m, m')
    ensures KeepsListened(m, m')
  {
  }

  /** What mounting and unmounting do outside the mounted map: every atom with a
      record keeps one (a read may replace it, never remove it), and the only
      calls made are `onMount` and `onUnmount` hooks, never a listener. */
  ghost predicate HooksOnly(s: Store, r: Store) {
    && s.states.Keys <= r.states.Keys
    && s.log <= r.log
    && forall k | |s.log| <= k < |r.log| :: !r.log[k].ListenerCalled?
  }

  lemma HooksOnlyTrans(s: Store, s1: Store, r: Store)
    requires HooksOnly(s, s1) && HooksOnly(s1, r)
    ensures HooksOnly(s, r)
  {
    forall k | |s.log| <= k < |r.log|
      ensures !r.log[k].ListenerCalled?
    {
      if k < |s1.log| {
        assert r.log[k] == s1.log[k];
      }
    }
  }

  /** A mount that ran only `onMount` hooks calls no listener. */
  lemma MountHooksOnly(reg: Registry, s: Store, r: Store)
    requires s.states.Keys <= r.states.Keys && s.log <= r.log
    requires MountHooksRan(reg, s.mounted, r.mounted, r.log[|s.log|..])
    ensures HooksOnly(s, r)
  {
    forall k | |s.log| <= k < |r.log|
      ensures !r.log[k].ListenerCalled?
    {
      assert r.log[k] == r.log[|s.log|..][k - |s.log|];
    }
  }

  /** An unmount that ran only `onUnmount` hooks calls no listener. */
  lemma UnmountHooksOnly(s: Store, r: Store)
    requires s.states.Keys <= r.states.Keys && s.log <= r.log
    requires UnmountHooksRan(s.mounted, r.mounted, r.log[|s.log|..])
    ensures HooksOnly(s, r)
  {
    forall k | |s.log| <= k < |r.log|
      ensures !r.log[k].ListenerCalled?
    {
      assert r.log[k] == r.log[|s.log|..][k - |s.log|];
    }
  }

  // ---------------------------------------------------------------------------
  // Editing one entry

  function AddDependent(s: Store, a: AtomId, dependent: AtomId): Store
    requires a in s.mounted
  {
    s.(mounted := s.mounted[a := s.mounted[a].(dependents := SetAdd(s.mounted[a].dependents, dependent))])
  }

  function RemoveDependent(s: Store, a: AtomId, dependent: AtomId): Store
    requires a in s.mounted
  {
    s.(mounted := s.mounted[a := s.mounted[a].(dependents := SetRemove(s.mounted[a].dependents, dependent))])
  }

  lemma AddDependentWf(reg: Registry, s: Store, a: AtomId, dependent: AtomId)
    requires Wf(reg, s) && a in s.mounted && ReadsOrSelf(reg, dependent, a)
    ensures Wf(reg, AddDependent(s, a, dependent))
  {
    var ts := SetAdd(s.mounted[a].dependents, dependent);
    forall k | 0 <= k < |ts|
      ensures ReadsOrSelf(reg, ts[k], a)
    {
      if ts[k] != dependent {
        var j :| 0 <= j < |s.mounted[a].dependents| && s.mounted[a].dependents[j] == ts[k];
      }
    }
  }

  lemma RemoveDependentWf(reg: Registry, s: Store, a: AtomId, dependent: AtomId)
    requires Wf(reg, s) && a in s.mounted
    ensures Wf(reg, RemoveDependent(s, a, dependent))
  {
    var ts := SetRemove(s.mounted[a].dependents, dependent);
    forall k | 0 <= k < |ts|
      ensures ReadsOrSelf(reg, ts[k], a)
    {
      assert ts[k] in ts;
      var j :| 0 <= j < |s.mounted[a].dependents| && s.mounted[a].dependents[j] == ts[k];
    }
  }

  // ---------------------------------------------------------------------------
  // Mounting

  /** What the loop of `mountAtom(atom)` does to the store: entries are kept
      (`Grows`), the new ones are fresh and below `atom`, the only dependents
      added are new atoms and `atom` itself, and the hooks of the new atoms ran. */
  ghost predicate MountedFor(reg: Registry, s: Store, r: Store, atom: AtomId) {
    && Grows(s.mounted, r.mounted)
    && FreshEntries(reg, s.mounted, r.mounted)
    && (forall b | b in r.mounted && b !in s.mounted :: b < atom)
    && AddsOnly(s.mounted, r.mounted, atom)
    && s.log <= r.log && MountHooksRan(reg, s.mounted, r.mounted, r.log[|s.log|..])
  }

  /** What `mountAtom(atom, init)` does to the store: as above, except that the
      new atoms are `atom` and atoms below it, and the only dependents added to an
      entry are new atoms, plus `init` on `atom`'s own entry. */
  ghost predicate MountedAt(reg: Registry, s: Store, r: Store, atom: AtomId, init: Option<AtomId>) {
    && Grows(s.mounted, r.mounted)
    && FreshEntries(reg, s.mounted, r.mounted)
    && (forall b | b in r.mounted && b !in s.mounted :: b <= atom)
    && (forall b, x | b in r.mounted && x in r.mounted[b].dependents ::
          x !in s.mounted || (b in s.mounted && x in s.mounted[b].dependents) || (b == atom && init == Some(x)))
    && s.log <= r.log && MountHooksRan(reg, s.mounted, r.mounted, r.log[|s.log|..])
  }

  lemma GrowsTrans(m: map<AtomId, Mounted>, m1: map<AtomId, Mounted>, m2: map<AtomId, Mounted>)
    requires Grows(m, m1) && Grows(m1, m2)
    ensures Grows(m, m2)
  {
  }

  lemma FreshTrans(reg: Registry, m: map<AtomId, Mounted>, m1: map<AtomId, Mounted>, m2: map<AtomId, Mounted>)
    requires Grows(m1, m2) && FreshEntries(reg, m, m1) && FreshEntries(reg, m1, m2)
    ensures FreshEntries(reg, m, m2)
  {
  }

  lemma MountHooksTrans(reg: Registry, m: map<AtomId, Mounted>, m1: map<AtomId, Mounted>, m2: map<AtomId, Mounted>,
                        log: seq<Event>, log1: seq<Event>, log2: seq<Event>)
    requires Grows(m, m1) && Grows(m1, m2)
    requires log <= log1 && MountHooksRan(reg, m, m1, log1[|log|..])
    requires log1 <= log2 && MountHooksRan(reg, m1, m2, log2[|log1|..])
    ensures log <= log2 && MountHooksRan(reg, m, m2, log2[|log|..])
  {
    assert log2[|log|..] == log1[|log|..] + log2[|log1|..];
  }

  lemma MountedForTrans(reg: Registry, s: Store, s1: Store, r: Store, atom: AtomId)
    requires MountedFor(reg, s, s1, atom) && MountedFor(reg, s1, r, atom)
    ensures MountedFor(reg, s, r, atom)
  {
    GrowsTrans(s.mounted, s1.mounted, r.mounted);
    FreshTrans(reg, s.mounted, s1.mounted, r.mounted);
    MountHooksTrans(reg, s.mounted, s1.mounted, r.mounted, s.log, s1.log, r.log);
    AddedDependentsTrans(s.mounted, s1.mounted, r.mounted, atom);
  }

  /** Every dependent an entry of `m'` lists that it did not list in `m` is a new
      atom or `atom` itself. */
  ghost predicate AddsOnly(m: map<AtomId, Mounted>, m': map<AtomId, Mounted>, atom: AtomId) {
    forall b, x | b in m' && x in m'[b].dependents ::
      x !in m || x == atom || (b in m && x in m[b].dependents)
  }

  lemma AddedDependentsTrans(m: map<AtomId, Mounted>, m1: map<AtomId, Mounted>, m2: map<AtomId, Mounted>, atom: AtomId)
    requires Grows(m, m1) && AddsOnly(m, m1, atom) && AddsOnly(m1, m2, atom)
    ensures AddsOnly(m, m2, atom)
  {
  }

  /** Mounting a dependency `a` for `atom` is one step of the loop of `mountAtom(atom)`. */
  lemma MountedAtFor(reg: Registry, s: Store, r: Store, a: AtomId, atom: AtomId)
    requires a < atom && MountedAt(reg, s, r, a, Some(atom))
    ensures MountedFor(reg, s, r, atom)
  {
  }

  /** The entry `mountAtom` installs before it reads the atom: no listeners, and
      the dependent it was mounted for, if any. Its identity is a new serial. */
  function Enter(reg: Registry, s: Store, atom: AtomId, init: Option<AtomId>): (r: Store)
    requires Wf(reg, s) && atom < |reg|
    requires init.Some? ==> ReadsOrSelf(reg, init.value, atom)
    ensures Wf(reg, r)
    ensures atom in r.mounted && r.mounted == s.mounted[atom := r.mounted[atom]] && r.mounted[atom].serial == s.next
    ensures r.mounted[atom].listeners == [] && !r.mounted[atom].hasUnmount
    ensures forall x :: x in r.mounted[atom].dependents <==> init == Some(x)
    ensures r.log == s.log && r.next > s.next && r.states == s.states
  {
    var dependents := if init.Some? then [init.value] else [];
    s.(mounted := s.mounted[atom := Mounted(s.next, [], dependents, false)], next := s.next + 1)
  }

  /** `mountAtom(atom, initialDependent)`: returns the store and the identity of
      the new entry. */
  function MountAtom(reg: Registry, s: Store, atom: AtomId, init: Option<AtomId>): (r: (Store, nat))
    requires Wf(reg, s) && atom < |reg| && atom !in s.mounted
    requires init.Some? ==> ReadsOrSelf(reg, init.value, atom)
    ensures Wf(reg, r.0)
    ensures atom in r.0.mounted && r.0.mounted[atom].serial == r.1 && r.1 == s.next
    ensures init.Some? ==> init.value in r.0.mounted[atom].dependents
    // each atom the first read recorded is mounted, with `atom` among its dependents
    ensures var st := ReadAtomState(reg, Enter(reg, s, atom, init), atom).1;
            forall k | 0 <= k < |st.deps| :: st.deps[k].atom in r.0.mounted && atom in r.0.mounted[st.deps[k].atom].dependents
    ensures MountedAt(reg, s, r.0, atom, init)
    ensures r.0.next > s.next && s.states.Keys <= r.0.states.Keys
    decreases atom, 1
  {
    var s0 := Enter(reg, s, atom, init);
    var first := ReadAtomState(reg, s0, atom);
    var s2 := MountEach(reg, first.0, atom, DepAtoms(first.1.deps));
    var r := RunMountHook(reg, s2, atom);
    MountAtomFrame(reg, s, atom, init, s0, first.0, s2, r);
    MountAtomDeps(reg, atom, first.1, s2, r);
    (r, s0.mounted[atom].serial)
  }

  /** The end of `mountAtom`: read the atom again, then run its `onMount` hook and
      remember whether it handed back an `onUnmount`. */
  function RunMountHook(reg: Registry, s: Store, atom: AtomId): (r: Store)
    requires Wf(reg, s) && atom < |reg| && atom in s.mounted
    ensures Wf(reg, r) && r.next >= s.next && s.states.Keys <= r.states.Keys
    ensures atom in r.mounted
    ensures r.mounted == s.mounted[atom := s.mounted[atom].(hasUnmount := s.mounted[atom].hasUnmount || ReturnsUnmount(reg[atom]))]
    ensures r.log == if HasMountHook(reg[atom]) then s.log + [MountHookRan(atom)] else s.log
  {
    var s3 := ReadAtomState(reg, s, atom).0;
    var s4 := if HasMountHook(reg[atom]) then s3.(log := s3.log + [MountHookRan(atom)]) else s3;
    var hasUnmount := s4.mounted[atom].hasUnmount || ReturnsUnmount(reg[atom]);
    s4.(mounted := s4.mounted[atom := s4.mounted[atom].(hasUnmount := hasUnmount)])
  }

  /** The first loop of `mountAtom`: each recorded dependency that is mounted gets
      `atom` as a dependent; one that is not, and is not `atom`, is mounted for it. */
  function MountEach(reg: Registry, s: Store, atom: AtomId, deps: seq<AtomId>): (r: Store)
    requires Wf(reg, s) && atom < |reg| && atom in s.mounted
    requires forall k | 0 <= k < |deps| :: ReadsOrSelf(reg, atom, deps[k])
    ensures Wf(reg, r)
    ensures forall k | 0 <= k < |deps| :: deps[k] in r.mounted && atom in r.mounted[deps[k]].dependents
    ensures MountedFor(reg, s, r, atom)
    ensures r.next >= s.next && s.states.Keys <= r.states.Keys
    decreases atom, 0, |deps|
  {
    if deps == [] then
      assert s.log[|s.log|..] == [];
      s
    else
      var s1 := MountOne(reg, s, atom, deps[0]);
      var r := MountEach(reg, s1, atom, deps[1..]);
      MountedForTrans(reg, s, s1, r, atom);
      MountEachStep(s1, r, atom, deps);
      r
  }

  /** One step of that loop, for the dependency `a`. */
  function MountOne(reg: Registry, s: Store, atom: AtomId, a: AtomId): (r: Store)
    requires Wf(reg, s) && atom < |reg| && atom in s.mounted && ReadsOrSelf(reg, atom, a)
    ensures Wf(reg, r)
    ensures a in r.mounted && atom in r.mounted[a].dependents
    ensures MountedFor(reg, s, r, atom)
    ensures r.next >= s.next && s.states.Keys <= r.states.Keys
    decreases atom, 0, 0
  {
    ReadsOrSelfBelow(reg, atom, a);
    if a in s.mounted then
      AddDependentWf(reg, s, a, atom);
      AddDependentFor(reg, s, a, atom);
      AddDependent(s, a, atom)
    else if a != atom then
      var r := MountAtom(reg, s, a, Some(atom)).0;
      MountedAtFor(reg, s, r, a, atom);
      r
    else
      assert false;
      s
  }

  lemma AddDependentFor(reg: Registry, s: Store, a: AtomId, atom: AtomId)
    requires a in s.mounted
    ensures MountedFor(reg, s, AddDependent(s, a, atom), atom)
  {
    assert s.log[|s.log|..] == [];
  }

  lemma MountEachStep(s1: Store, r: Store, atom: AtomId, deps: seq<AtomId>)
    requires deps != []
    requires deps[0] in s1.mounted && atom in s1.mounted[deps[0]].dependents
    requires Grows(s1.mounted, r.mounted)
    requires forall k | 0 <= k < |deps[1..]| :: deps[1..][k] in r.mounted && atom in r.mounted[deps[1..][k]].dependents
    ensures forall k | 0 <= k < |deps| :: deps[k] in r.mounted && atom in r.mounted[deps[k]].dependents
  {
    forall k | 0 <= k < |deps|
      ensures deps[k] in r.mounted && atom in r.mounted[deps[k]].dependents
    {
      if k > 0 {
        assert deps[k] == deps[1..][k - 1];
      }
    }
  }

  /** The steps of `mountAtom(atom, init)`: `s0` enters the atom's entry, `s1` is
      the store after its first read, `s2` after mounting its dependencies, and
      `s5` after its `onMount` hook. */
  ghost predicate MountSteps(reg: Registry, s: Store, atom: AtomId, init: Option<AtomId>,
                             s0: Store, s1: Store, s2: Store, s5: Store) {
    && atom < |reg| && atom !in s.mounted
    && atom in s0.mounted && s0.mounted == s.mounted[atom := s0.mounted[atom]] && s0.log == s.log
    && s0.mounted[atom].listeners == [] && !s0.mounted[atom].hasUnmount
    && (forall x :: x in s0.mounted[atom].dependents <==> init == Some(x))
    && s1.mounted == s0.mounted && s1.log == s0.log
    && MountedFor(reg, s1, s2, atom)
    && s5.mounted == s2.mounted[atom := s2.mounted[atom].(hasUnmount := s2.mounted[atom].hasUnmount || ReturnsUnmount(reg[atom]))]
    && s5.log == if HasMountHook(reg[atom]) then s2.log + [MountHookRan(atom)] else s2.log
  }

  /** The facts `MountAtom` states about the mounted map and the log, from those
      of its loop, in five parts. */
  lemma MountAtomFrame(reg: Registry, s: Store, atom: AtomId, init: Option<AtomId>,
                       s0: Store, s1: Store, s2: Store, s5: Store)
    requires MountSteps(reg, s, atom, init, s0, s1, s2, s5)
    ensures MountedAt(reg, s, s5, atom, init)
  {
    MountAtomBelow(reg, s, atom, init, s0, s1, s2, s5);
    MountAtomAdds(reg, s, atom, init, s0, s1, s2, s5);
    MountAtomGrows(reg, s, atom, init, s0, s1, s2, s5);
    MountAtomFresh(reg, s, atom, init, s0, s1, s2, s5);
    MountAtomHooks(reg, s, atom, init, s0, s1, s2, s5);
  }

  lemma MountAtomBelow(reg: Registry, s: Store, atom: AtomId, init: Option<AtomId>,
                       s0: Store, s1: Store, s2: Store, s5: Store)
    requires MountSteps(reg, s, atom, init, s0, s1, s2, s5)
    ensures forall b | b in s5.mounted && b !in s.mounted :: b <= atom
  {
    assert s5.mounted.Keys == s2.mounted.Keys;
  }

  lemma MountAtomAdds(reg: Registry, s: Store, atom: AtomId, init: Option<AtomId>,
                      s0: Store, s1: Store, s2: Store, s5: Store)
    requires MountSteps(reg, s, atom, init, s0, s1, s2, s5)
    ensures forall b, x | b in s5.mounted && x in s5.mounted[b].dependents ::
              x !in s.mounted || (b in s.mounted && x in s.mounted[b].dependents) || (b == atom && init == Some(x))
  {
    forall b, x | b in s5.mounted && x in s5.mounted[b].dependents
      ensures x !in s.mounted || (b in s.mounted && x in s.mounted[b].dependents) || (b == atom && init == Some(x))
    {
      assert b in s2.mounted && x in s2.mounted[b].dependents;
      if x in s1.mounted && x != atom {
        assert x in s.mounted;
        assert b in s1.mounted && x in s1.mounted[b].dependents;
        if b == atom {
          assert init == Some(x);
        } else {
          assert b in s.mounted && s1.mounted[b] == s.mounted[b];
        }
      }
    }
  }

  lemma MountAtomGrows(reg: Registry, s: Store, atom: AtomId, init: Option<AtomId>,
                       s0: Store, s1: Store, s2: Store, s5: Store)
    requires MountSteps(reg, s, atom, init, s0, s1, s2, s5)
    ensures Grows(s.mounted, s5.mounted)
  {
    forall b | b in s.mounted
      ensures b in s5.mounted && s5.mounted[b] == s2.mounted[b]
    {
      assert b != atom && b in s1.mounted;
    }
  }

  lemma MountAtomFresh(reg: Registry, s: Store, atom: AtomId, init: Option<AtomId>,
                       s0: Store, s1: Store, s2: Store, s5: Store)
    requires MountSteps(reg, s, atom, init, s0, s1, s2, s5)
    ensures FreshEntries(reg, s.mounted, s5.mounted)
  {
    assert !s2.mounted[atom].hasUnmount && s2.mounted[atom].listeners == [];
    forall b | b in s5.mounted && b !in s.mounted && b != atom
      ensures b in s2.mounted && b !in s1.mounted && s5.mounted[b] == s2.mounted[b]
    {
    }
  }

  lemma MountAtomHooks(reg: Registry, s: Store, atom: AtomId, init: Option<AtomId>,
                       s0: Store, s1: Store, s2: Store, s5: Store)
    requires MountSteps(reg, s, atom, init, s0, s1, s2, s5)
    ensures s.log <= s5.log && MountHooksRan(reg, s.mounted, s5.mounted, s5.log[|s.log|..])
  {
    var e := s2.log[|s1.log|..];
    assert s5.log[|s.log|..] == if HasMountHook(reg[atom]) then e + [MountHookRan(atom)] else e;
    HooksWithOwn(reg, s.mounted, s1.mounted, s2.mounted, s5.mounted, atom, e);
  }

  /** The hooks of the loop's new atoms, followed by `atom`'s own when it has one,
      are the hooks of every atom new since before `atom` was added. */
  lemma HooksWithOwn(reg: Registry, m: map<AtomId, Mounted>, m1: map<AtomId, Mounted>,
                     m2: map<AtomId, Mounted>, m5: map<AtomId, Mounted>, atom: AtomId, e: seq<Event>)
    requires atom < |reg| && atom !in m && atom in m1 && m1.Keys == m.Keys + {atom}
    requires m1.Keys <= m2.Keys && m5.Keys == m2.Keys
    requires MountHooksRan(reg, m1, m2, e)
    ensures MountHooksRan(reg, m, m5, if HasMountHook(reg[atom]) then e + [MountHookRan(atom)] else e)
  {
    var events := if HasMountHook(reg[atom]) then e + [MountHookRan(atom)] else e;
    forall k | 0 <= k < |events|
      ensures && events[k].MountHookRan? && events[k].atom !in m && events[k].atom in m5
              && events[k].atom < |reg| && HasMountHook(reg[events[k].atom])
    {
      if k < |e| {
        assert events[k] == e[k];
      }
    }
    forall b | b in m5 && b !in m && b < |reg| && HasMountHook(reg[b])
      ensures MountHookRan(b) in events
    {
      if b != atom {
        assert MountHookRan(b) in e;
      } else {
        assert events[|events| - 1] == MountHookRan(atom);
      }
    }
  }

  lemma MountAtomDeps(reg: Registry, atom: AtomId, st: AtomState, s2: Store, s5: Store)
    requires forall k | 0 <= k < |DepAtoms(st.deps)| :: DepAtoms(st.deps)[k] in s2.mounted && atom in s2.mounted[DepAtoms(st.deps)[k]].dependents
    requires atom in s2.mounted
    requires atom in s2.mounted && atom in s5.mounted
    requires s5.mounted == s2.mounted[atom := s2.mounted[atom].(hasUnmount := s5.mounted[atom].hasUnmount)]
    ensures forall k | 0 <= k < |st.deps| :: st.deps[k].atom in s5.mounted && atom in s5.mounted[st.deps[k].atom].dependents
  {
    forall k | 0 <= k < |st.deps|
      ensures st.deps[k].atom in s5.mounted && atom in s5.mounted[st.deps[k].atom].dependents
    {
      assert DepAtoms(st.deps)[k] == st.deps[k].atom;
    }
  }

  /** `addAtom`: the atom's entry, mounting it first when it is not mounted. */
  function AddAtom(reg: Registry, s: Store, atom: AtomId): (r: (Store, nat))
    requires Wf(reg, s) && atom < |reg|
    ensures Wf(reg, r.0)
    ensures atom in r.0.mounted && r.0.mounted[atom].serial == r.1
    ensures atom in s.mounted ==> r == (s, s.mounted[atom].serial)
    ensures atom !in s.mounted ==> r.1 == s.next && MountedAt(reg, s, r.0, atom, None)
    ensures r.0.next >= s.next
  {
    if atom in s.mounted then (s, s.mounted[atom].serial) else MountAtom(reg, s, atom, None)
  }

  // ---------------------------------------------------------------------------
  // Unmounting

  /** What the loop of `unmountAtom` does to the store: only the mounted map and
      the log change; the map shrinks, the cascade is complete, every atom it
      unmounted was left alone, and exactly their `onUnmount` hooks ran. */
  ghost predicate UnmountedFrom(s: Store, r: Store) {
    && r.states == s.states && r.pending == s.pending && r.next == s.next
    && Shrinks(s.mounted, r.mounted) && CascadeDone(s.mounted, r.mounted) && UnmountedAlone(s.mounted, r.mounted)
    && s.log <= r.log && UnmountHooksRan(s.mounted, r.mounted, r.log[|s.log|..])
  }

  lemma ShrinksTrans(m: map<AtomId, Mounted>, m1: map<AtomId, Mounted>, m2: map<AtomId, Mounted>)
    requires Shrinks(m, m1) && Shrinks(m1, m2)
    ensures Shrinks(m, m2)
  {
  }

  lemma CascadeTrans(m: map<AtomId, Mounted>, m1: map<AtomId, Mounted>, m2: map<AtomId, Mounted>)
    requires Keeps(m1, m2) && CascadeDone(m, m1) && CascadeDone(m1, m2)
    ensures CascadeDone(m, m2)
  {
    forall b | b in m2 && b in m && m2[b].dependents != m[b].dependents
      ensures !CanUnmountAtom(b, m2[b])
    {
      if m2[b].dependents == m1[b].dependents {
        assert !CanUnmountAtom(b, m1[b]);
      }
    }
  }

  lemma AloneTrans(m: map<AtomId, Mounted>, m1: map<AtomId, Mounted>, m2: map<AtomId, Mounted>)
    requires Shrinks(m, m1) && Keeps(m1, m2) && UnmountedAlone(m, m1) && UnmountedAlone(m1, m2)
    ensures UnmountedAlone(m, m2)
  {
  }

  lemma UnmountHooksTrans(m: map<AtomId, Mounted>, m1: map<AtomId, Mounted>, m2: map<AtomId, Mounted>,
                          log: seq<Event>, log1: seq<Event>, log2: seq<Event>)
    requires Keeps(m, m1) && Keeps(m1, m2)
    requires log <= log1 && UnmountHooksRan(m, m1, log1[|log|..])
    requires log1 <= log2 && UnmountHooksRan(m1, m2, log2[|log1|..])
    ensures log <= log2 && UnmountHooksRan(m, m2, log2[|log|..])
  {
    assert log2[|log|..] == log1[|log|..] + log2[|log1|..];
  }

  lemma UnmountedFromTrans(s: Store, s1: Store, r: Store)
    requires UnmountedFrom(s, s1) && UnmountedFrom(s1, r)
    ensures UnmountedFrom(s, r)
  {
    ShrinksTrans(s.mounted, s1.mounted, r.mounted);
    CascadeTrans(s.mounted, s1.mounted, r.mounted);
    AloneTrans(s.mounted, s1.mounted, r.mounted);
    UnmountHooksTrans(s.mounted, s1.mounted, r.mounted, s.log, s1.log, r.log);
  }

  /** `unmountAtom(atom)`. */
  function UnmountAtom(reg: Registry, s: Store, atom: AtomId): (r: Store)
    requires Wf(reg, s) && atom < |reg|
    ensures Wf(reg, r)
    ensures r.states == s.states && r.pending == s.pending && r.next == s.next
    ensures atom !in r.mounted
    ensures Shrinks(s.mounted, r.mounted) && CascadeDone(s.mounted, r.mounted)
    ensures UnmountedAlone(s.mounted - {atom}, r.mounted)
    ensures s.log <= r.log && UnmountHooksRan(s.mounted, r.mounted, r.log[|s.log|..])
    // its own hook runs first
    ensures atom in s.mounted && s.mounted[atom].hasUnmount ==>
              |r.log| > |s.log| && r.log[|s.log|] == UnmountHookRan(atom)
    // no dependency it leaves mounted still lists it as a dependent
    ensures atom in s.states ==>
              forall k | 0 <= k < |s.states[atom].deps| ::
                var a := s.states[atom].deps[k].atom; a == atom || a !in r.mounted || atom !in r.mounted[a].dependents
    decreases atom, 1
  {
    var hook := atom in s.mounted && s.mounted[atom].hasUnmount;
    var s1 := s.(mounted := s.mounted - {atom}, log := if hook then s.log + [UnmountHookRan(atom)] else s.log);
    if atom in s1.states then
      var deps := s1.states[atom].deps;
      assert DepsWf(reg, atom, deps);
      var r := UnmountEach(reg, s1, atom, DepAtoms(deps));
      UnmountAtomFrame(s, s1, r, atom);
      UnmountAtomDeps(atom, deps, r);
      r
    else
      assert s1.log[|s1.log|..] == [];
      UnmountAtomFrame(s, s1, s1, atom);
      s1
  }

  /** The loop of `unmountAtom` over the atom's dependencies: each one other than
      the atom that is mounted loses it as a dependent, and is unmounted when that
      leaves it unmountable. */
  function UnmountEach(reg: Registry, s: Store, atom: AtomId, deps: seq<AtomId>): (r: Store)
    requires Wf(reg, s) && atom < |reg| && atom !in s.mounted
    requires forall k | 0 <= k < |deps| :: ReadsOrSelf(reg, atom, deps[k])
    ensures Wf(reg, r)
    ensures UnmountedFrom(s, r)
    ensures forall k | 0 <= k < |deps| :: deps[k] == atom || deps[k] !in r.mounted || atom !in r.mounted[deps[k]].dependents
    decreases atom, 0, |deps|
  {
    if deps == [] then
      assert s.log[|s.log|..] == [];
      s
    else
      var a := deps[0];
      ReadsOrSelfBelow(reg, atom, a);
      var s1 := UnmountOne(reg, s, atom, a);
      var r := UnmountEach(reg, s1, atom, deps[1..]);
      UnmountedFromTrans(s, s1, r);
      UnmountEachStep(s1, r, atom, deps);
      r
  }

  /** One step of that loop. */
  function UnmountOne(reg: Registry, s: Store, atom: AtomId, a: AtomId): (r: Store)
    requires Wf(reg, s) && atom < |reg| && atom !in s.mounted && a <= atom
    ensures Wf(reg, r)
    ensures UnmountedFrom(s, r)
    ensures a == atom || a !in r.mounted || atom !in r.mounted[a].dependents
    decreases atom, 0, 0
  {
    if a != atom && a in s.mounted then
      RemoveDependentWf(reg, s, a, atom);
      var s1 := RemoveDependent(s, a, atom);
      CanUnmountIff(a, s1.mounted[a]);
      if CanUnmountAtom(a, s1.mounted[a]) then
        var r := UnmountAtom(reg, s1, a);
        UnmountOneShrinks(s, s1, r, atom, a);
        UnmountOneAlone(s, s1, r, atom, a);
        UnmountOneHooks(s, s1, r, atom, a);
        r
      else
        UnmountOneKept(s, s1, atom, a);
        s1
    else
      assert s.log[|s.log|..] == [];
      s
  }

  lemma UnmountOneKept(s: Store, s1: Store, atom: AtomId, a: AtomId)
    requires atom !in s.mounted && a in s.mounted
    requires s1 == RemoveDependent(s, a, atom) && !CanUnmountAtom(a, s1.mounted[a])
    ensures UnmountedFrom(s, s1)
    ensures atom !in s1.mounted[a].dependents
  {
    assert s1.log[|s.log|..] == [];
  }

  lemma UnmountOneShrinks(s: Store, s1: Store, r: Store, atom: AtomId, a: AtomId)
    requires atom !in s.mounted && a in s.mounted
    requires s1 == RemoveDependent(s, a, atom)
    requires a !in r.mounted && Shrinks(s1.mounted, r.mounted) && CascadeDone(s1.mounted, r.mounted)
    ensures Shrinks(s.mounted, r.mounted) && CascadeDone(s.mounted, r.mounted)
  {
  }

  lemma UnmountOneAlone(s: Store, s1: Store, r: Store, atom: AtomId, a: AtomId)
    requires atom !in s.mounted && a in s.mounted
    requires s1 == RemoveDependent(s, a, atom)
    requires s1.mounted[a].listeners == [] && forall x | x in s1.mounted[a].dependents :: x == a
    requires a !in r.mounted && r.mounted.Keys <= s1.mounted.Keys && UnmountedAlone(s1.mounted - {a}, r.mounted)
    ensures UnmountedAlone(s.mounted, r.mounted)
  {
    forall b | b in s.mounted && b !in r.mounted
      ensures s.mounted[b].listeners == [] && forall x | x in s.mounted[b].dependents :: x == b || x !in r.mounted
    {
      if b == a {
        forall x | x in s.mounted[b].dependents
          ensures x == b || x !in r.mounted
        {
          if x != atom {
            assert x in s1.mounted[a].dependents;
          }
        }
      }
    }
  }

  lemma UnmountOneHooks(s: Store, s1: Store, r: Store, atom: AtomId, a: AtomId)
    requires a in s.mounted
    requires s1 == RemoveDependent(s, a, atom)
    requires r.states == s1.states && r.pending == s1.pending && r.next == s1.next
    requires s1.log <= r.log && UnmountHooksRan(s1.mounted, r.mounted, r.log[|s1.log|..])
    ensures r.states == s.states && r.pending == s.pending && r.next == s.next
    ensures s.log <= r.log && UnmountHooksRan(s.mounted, r.mounted, r.log[|s.log|..])
  {
  }

  lemma UnmountAtomFrame(s: Store, s1: Store, r: Store, atom: AtomId)
    requires s1.mounted == s.mounted - {atom}
    requires s1.log == if atom in s.mounted && s.mounted[atom].hasUnmount then s.log + [UnmountHookRan(atom)] else s.log
    requires Shrinks(s1.mounted, r.mounted) && CascadeDone(s1.mounted, r.mounted) && UnmountedAlone(s1.mounted, r.mounted)
    requires s1.log <= r.log && UnmountHooksRan(s1.mounted, r.mounted, r.log[|s1.log|..])
    ensures atom !in r.mounted
    ensures Shrinks(s.mounted, r.mounted) && CascadeDone(s.mounted, r.mounted)
    ensures UnmountedAlone(s.mounted - {atom}, r.mounted)
    ensures s.log <= r.log && UnmountHooksRan(s.mounted, r.mounted, r.log[|s.log|..])
    ensures atom in s.mounted && s.mounted[atom].hasUnmount ==>
              |r.log| > |s.log| && r.log[|s.log|] == UnmountHookRan(atom)
  {
    var events := r.log[|s1.log|..];
    assert r.log[|s.log|..] == s1.log[|s.log|..] + events;
  }

  lemma UnmountAtomDeps(atom: AtomId, deps: seq<Dep>, r: Store)
    requires forall k | 0 <= k < |DepAtoms(deps)| ::
               DepAtoms(deps)[k] == atom || DepAtoms(deps)[k] !in r.mounted || atom !in r.mounted[DepAtoms(deps)[k]].dependents
    ensures forall k | 0 <= k < |deps| ::
              var a := deps[k].atom; a == atom || a !in r.mounted || atom !in r.mounted[a].dependents
  {
    forall k | 0 <= k < |deps|
      ensures var a := deps[k].atom; a == atom || a !in r.mounted || atom !in r.mounted[a].dependents
    {
      assert DepAtoms(deps)[k] == deps[k].atom;
    }
  }

  lemma UnmountEachStep(s1: Store, r: Store, atom: AtomId, deps: seq<AtomId>)
    requires deps != []
    requires deps[0] == atom || deps[0] !in s1.mounted || atom !in s1.mounted[deps[0]].dependents
    requires Keeps(s1.mounted, r.mounted)
    requires forall k | 0 <= k < |deps[1..]| :: deps[1..][k] == atom || deps[1..][k] !in r.mounted || atom !in r.mounted[deps[1..][k]].dependents
    ensures forall k | 0 <= k < |deps| :: deps[k] == atom || deps[k] !in r.mounted || atom !in r.mounted[deps[k]].dependents
  {
    forall k | 0 <= k < |deps|
      ensures deps[k] == atom || deps[k] !in r.mounted || atom !in r.mounted[deps[k]].dependents
    {
      if k > 0 {
        assert deps[k] == deps[1..][k - 1];
      }
    }
  }

  /** `delAtom`: unmount the atom if it is mounted and can be unmounted. */
  function DelAtom(reg: Registry, s: Store, atom: AtomId): (r: Store)
    requires Wf(reg, s) && atom < |reg|
    ensures Wf(reg, r)
    ensures atom in s.mounted && CanUnmountAtom(atom, s.mounted[atom]) ==> atom !in r.mounted
    ensures !(atom in s.mounted && CanUnmountAtom(atom, s.mounted[atom])) ==> r == s
    ensures Shrinks(s.mounted, r.mounted) && UnmountedAlone(s.mounted - {atom}, r.mounted)
  {
    if atom in s.mounted && CanUnmountAtom(atom, s.mounted[atom]) then UnmountAtom(reg, s, atom) else s
  }

  // ---------------------------------------------------------------------------
  // Following a change of dependencies

  /** What an unmount cascade from `c` leaves alone: only atoms numbered at or
      below `c` are unmounted, a dependent numbered above `c` stays listed on the
      entries that remain, and every atom unmounted other than `c` had no
      dependent above `c` but itself. */
  ghost predicate UnmountsBelow(m: map<AtomId, Mounted>, m': map<AtomId, Mounted>, c: int) {
    && (forall b | b in m && b !in m' :: b <= c)
    && (forall b, x | b in m && b in m' && x in m[b].dependents && c < x :: x in m'[b].dependents)
    && (forall b, x | b in m && b !in m' && b != c && x in m[b].dependents :: x == b || x <= c)
  }

  lemma UnmountsBelowTrans(m: map<AtomId, Mounted>, m1: map<AtomId, Mounted>, m2: map<AtomId, Mounted>, c: int)
    requires Keeps(m1, m2) && UnmountsBelow(m, m1, c) && UnmountsBelow(m1, m2, c)
    ensures UnmountsBelow(m, m2, c)
  {
    forall b, x | b in m && b !in m2 && b != c && x in m[b].dependents
      ensures x == b || x <= c
    {
      if b in m1 && x !in m1[b].dependents {
        assert x <= c;
      }
    }
  }

  /** A cascade from `a` is one from any `c` above it, once `a` itself, if it
      was unmounted, had no dependent but itself. */
  lemma UnmountsBelowWiden(m: map<AtomId, Mounted>, m': map<AtomId, Mounted>, a: int, c: int)
    requires UnmountsBelow(m, m', a) && a <= c
    requires a in m && a !in m' ==> forall x | x in m[a].dependents :: x == a
    ensures UnmountsBelow(m, m', c)
  {
  }

  /** `unmountAtom(c)` unmounts only atoms at or below `c`: the cascade follows
      dependencies, which are numbered below the atom that reads them. */
  lemma UnmountAtomBelow(reg: Registry, s: Store, c: AtomId)
    requires Wf(reg, s) && c < |reg|
    ensures UnmountsBelow(s.mounted, UnmountAtom(reg, s, c).mounted, c)
    decreases c, 1
  {
    var hook := c in s.mounted && s.mounted[c].hasUnmount;
    var s1 := s.(mounted := s.mounted - {c}, log := if hook then s.log + [UnmountHookRan(c)] else s.log);
    assert UnmountsBelow(s.mounted, s1.mounted, c);
    if c in s1.states {
      var deps := s1.states[c].deps;
      assert DepsWf(reg, c, deps);
      UnmountEachBelow(reg, s1, c, DepAtoms(deps));
      UnmountsBelowTrans(s.mounted, s1.mounted, UnmountAtom(reg, s, c).mounted, c);
    }
  }

  lemma UnmountEachBelow(reg: Registry, s: Store, c: AtomId, deps: seq<AtomId>)
    requires Wf(reg, s) && c < |reg| && c !in s.mounted
    requires forall k | 0 <= k < |deps| :: ReadsOrSelf(reg, c, deps[k])
    ensures UnmountsBelow(s.mounted, UnmountEach(reg, s, c, deps).mounted, c)
    decreases c, 0, |deps|
  {
    if deps != [] {
      var a := deps[0];
      ReadsOrSelfBelow(reg, c, a);
      var s1 := UnmountOne(reg, s, c, a);
      UnmountOneBelow(reg, s, c, a);
      UnmountEachBelow(reg, s1, c, deps[1..]);
      UnmountsBelowTrans(s.mounted, s1.mounted, UnmountEach(reg, s, c, deps).mounted, c);
    }
  }

  lemma UnmountOneBelow(reg: Registry, s: Store, c: AtomId, a: AtomId)
    requires Wf(reg, s) && c < |reg| && c !in s.mounted && a <= c
    ensures UnmountsBelow(s.mounted, UnmountOne(reg, s, c, a).mounted, c)
    decreases c, 0, 0
  {
    if a != c && a in s.mounted {
      RemoveDependentWf(reg, s, a, c);
      var s1 := RemoveDependent(s, a, c);
      assert UnmountsBelow(s.mounted, s1.mounted, c);
      CanUnmountIff(a, s1.mounted[a]);
      if CanUnmountAtom(a, s1.mounted[a]) {
        var r := UnmountAtom(reg, s1, a);
        UnmountAtomBelow(reg, s1, a);
        UnmountsBelowWiden(s1.mounted, r.mounted, a, c);
        UnmountsBelowTrans(s.mounted, s1.mounted, r.mounted, c);
      }
    }
  }

  /** The atoms of `xs` not in `ys`, in order. */
  function Without(xs: seq<AtomId>, ys: seq<AtomId>): (r: seq<AtomId>)
    ensures forall a :: a in r <==> a in xs && a !in ys
    ensures (forall a | a in xs :: a in ys) ==> r == []
  {
    if xs == [] then []
    else if xs[0] in ys then Without(xs[1..], ys)
    else [xs[0]] + Without(xs[1..], ys)
  }

  /** `mountDependencies(atom, atomState, prevDependencies)`: the dependencies
      dropped since `prev` lose `atom` as a dependent (and are unmounted when that
      leaves them unmountable); then the dependencies added since `prev` get it as
      a dependent, being mounted first when `atom` itself is mounted. Keys of a
      dependency map are distinct, so deleting a kept key from the new key set
      and skipping it are the same. */
  function MountDependencies(reg: Registry, s: Store, atom: AtomId, deps: seq<Dep>, prev: Option<seq<Dep>>): (r: Store)
    requires Wf(reg, s) && atom < |reg| && DepsWf(reg, atom, deps)
    requires prev.Some? ==> DepsWf(reg, atom, prev.value)
    ensures Wf(reg, r) && s.log <= r.log
    // records are kept, and only hooks run
    ensures HooksOnly(s, r)
    // no atom with listeners is unmounted
    ensures KeepsListened(s.mounted, r.mounted)
    // a dependency that was dropped no longer lists `atom`
    ensures forall a | a in PrevKeys(prev) && a !in DepAtoms(deps) :: a !in r.mounted || atom !in r.mounted[a].dependents
    // a dependency that was added lists it, if `atom` is still mounted
    ensures atom in r.mounted ==>
              forall a | a in DepAtoms(deps) && a !in PrevKeys(prev) :: a in r.mounted && atom in r.mounted[a].dependents
    // the rest of the mounted map is left as `FollowsFrame` describes
    ensures FollowsFrame(s.mounted, r.mounted, atom, DepAtoms(deps), PrevKeys(prev))
  {
    var keys := DepAtoms(deps);
    var prevKeys := PrevKeys(prev);
    DepKeysWf(reg, atom, deps);
    PrevKeysWf(reg, atom, prev);
    var s1 := DropEach(reg, s, atom, keys, prevKeys);
    var added := Without(keys, prevKeys);
    forall k | 0 <= k < |added|
      ensures ReadsOrSelf(reg, atom, added[k])
    {
      assert added[k] in added;
      var j :| 0 <= j < |keys| && keys[j] == added[k];
    }
    var r := AddEach(reg, s1, atom, added);
    DropEachBelow(reg, s, atom, keys, prevKeys);
    MountDependenciesKeeps(reg, s, s1, r, atom, keys, prevKeys);
    MountDependenciesFrame(s1, r, atom, keys, prevKeys, added);
    HooksOnlyTrans(s, s1, r);
    GrowsListened(s1.mounted, r.mounted);
    KeepsListenedTrans(s.mounted, s1.mounted, r.mounted);
    r
  }

  /** What following a change of `atom`'s dependencies from `prevKeys` to
      `keys` leaves alone in the mounted map:
      - only atoms numbered at or below a dropped dependency are unmounted;
      - an entry numbered above every dropped dependency keeps its identity,
        listeners, hook and dependents;
      - a dependency that stays still lists `atom`, unless what was dropped is
        `atom`'s dependency on itself, which can unmount `atom`. */
  ghost predicate FollowsFrame(m: map<AtomId, Mounted>, m': map<AtomId, Mounted>, atom: AtomId, keys: seq<AtomId>, prevKeys: seq<AtomId>) {
    && (forall b | b in m && b !in m' :: exists d | d in prevKeys && d !in keys :: b <= d)
    && (forall b | b in m && (forall d | d in prevKeys && d !in keys :: d < b) ::
          && b in m' && m'[b].serial == m[b].serial
          && m'[b].listeners == m[b].listeners && m'[b].hasUnmount == m[b].hasUnmount
          && forall x | x in m[b].dependents :: x in m'[b].dependents)
    && (!(atom in prevKeys && atom !in keys) ==>
          forall a | a in keys && a in m && atom in m[a].dependents :: a in m' && atom in m'[a].dependents)
  }

  /** The frame of `mountDependencies`, from that of its first loop and the
      growth of its second. */
  lemma MountDependenciesKeeps(reg: Registry, s: Store, s1: Store, r: Store, atom: AtomId, keys: seq<AtomId>, prevKeys: seq<AtomId>)
    requires Wf(reg, s) && forall k | 0 <= k < |prevKeys| :: ReadsOrSelf(reg, atom, prevKeys[k])
    requires Keeps(s.mounted, s1.mounted) && Grows(s1.mounted, r.mounted)
    requires DetachesBelow(s.mounted, s1.mounted, DroppedBound(keys, prevKeys), Dropped(keys, prevKeys))
    ensures FollowsFrame(s.mounted, r.mounted, atom, keys, prevKeys)
  {
    var c := DroppedBound(keys, prevKeys);
    forall b | b in s.mounted && b !in r.mounted
      ensures exists d | d in prevKeys && d !in keys :: b <= d
    {
      assert b !in s1.mounted && b <= c && c in prevKeys;
    }
    forall b | b in s.mounted && (forall d | d in prevKeys && d !in keys :: d < b)
      ensures && b in r.mounted && r.mounted[b].serial == s.mounted[b].serial
              && r.mounted[b].listeners == s.mounted[b].listeners && r.mounted[b].hasUnmount == s.mounted[b].hasUnmount
              && forall x | x in s.mounted[b].dependents :: x in r.mounted[b].dependents
    {
      assert c < b && b !in Dropped(keys, prevKeys) && b in s1.mounted;
      forall x | x in s.mounted[b].dependents
        ensures x in s1.mounted[b].dependents
      {
        assert DependentsWf(reg, b, s.mounted[b].dependents);
        var k :| 0 <= k < |s.mounted[b].dependents| && s.mounted[b].dependents[k] == x;
        ReadsOrSelfBelow(reg, x, b);
      }
    }
    if !(atom in prevKeys && atom !in keys) {
      assert c < atom by {
        if c != -1 {
          var k :| 0 <= k < |prevKeys| && prevKeys[k] == c;
          ReadsOrSelfBelow(reg, atom, c);
        }
      }
      forall a | a in keys && a in s.mounted && atom in s.mounted[a].dependents
        ensures a in r.mounted && atom in r.mounted[a].dependents
      {
        assert a !in Dropped(keys, prevKeys);
        assert a in s1.mounted;
      }
    }
  }

  function PrevKeys(prev: Option<seq<Dep>>): seq<AtomId> {
    if prev.Some? then DepAtoms(prev.value) else []
  }

  lemma DepKeysWf(reg: Registry, atom: AtomId, deps: seq<Dep>)
    requires DepsWf(reg, atom, deps)
    ensures forall k | 0 <= k < |DepAtoms(deps)| :: ReadsOrSelf(reg, atom, DepAtoms(deps)[k])
  {
  }

  lemma PrevKeysWf(reg: Registry, atom: AtomId, prev: Option<seq<Dep>>)
    requires prev.Some? ==> DepsWf(reg, atom, prev.value)
    ensures forall k | 0 <= k < |PrevKeys(prev)| :: ReadsOrSelf(reg, atom, PrevKeys(prev)[k])
  {
    if prev.Some? {
      DepKeysWf(reg, atom, prev.value);
    }
  }

  lemma MountDependenciesFrame(s1: Store, r: Store, atom: AtomId, keys: seq<AtomId>, prevKeys: seq<AtomId>, added: seq<AtomId>)
    requires forall a | a in added :: a in keys && a !in prevKeys
    requires forall a | a in keys && a !in prevKeys :: a in added
    requires forall a | a in prevKeys && a !in keys :: a !in s1.mounted || atom !in s1.mounted[a].dependents
    requires forall c | c in r.mounted && c !in added && atom in r.mounted[c].dependents :: c in s1.mounted && atom in s1.mounted[c].dependents
    requires atom in r.mounted ==> forall k | 0 <= k < |added| :: added[k] in r.mounted && atom in r.mounted[added[k]].dependents
    ensures forall a | a in prevKeys && a !in keys :: a !in r.mounted || atom !in r.mounted[a].dependents
    ensures atom in r.mounted ==> forall a | a in keys && a !in prevKeys :: a in r.mounted && atom in r.mounted[a].dependents
  {
    if atom in r.mounted {
      forall a | a in keys && a !in prevKeys
        ensures a in r.mounted && atom in r.mounted[a].dependents
      {
        var k :| 0 <= k < |added| && added[k] == a;
      }
    }
  }

  /** The first loop of `mountDependencies`, over the previous keys. */
  function DropEach(reg: Registry, s: Store, atom: AtomId, keys: seq<AtomId>, prevKeys: seq<AtomId>): (r: Store)
    requires Wf(reg, s) && atom < |reg|
    requires forall k | 0 <= k < |prevKeys| :: ReadsOrSelf(reg, atom, prevKeys[k])
    ensures Wf(reg, r) && HooksOnly(s, r)
    ensures Keeps(s.mounted, r.mounted) && KeepsListened(s.mounted, r.mounted)
    ensures forall a | a in prevKeys && a !in keys :: a !in r.mounted || atom !in r.mounted[a].dependents
    decreases |prevKeys|
  {
    if prevKeys == [] then s
    else
      var a := prevKeys[0];
      ReadsOrSelfBelow(reg, atom, a);
      var s1 := if a in keys || a !in s.mounted then s else DropOne(reg, s, atom, a);
      var r := DropEach(reg, s1, atom, keys, prevKeys[1..]);
      DropEachStep(s, s1, r, atom, keys, prevKeys);
      HooksOnlyTrans(s, s1, r);
      KeepsListenedTrans(s.mounted, s1.mounted, r.mounted);
      r
  }

  /** `mounted.t.delete(atom)`, then unmount `a` if that leaves it unmountable. */
  function DropOne(reg: Registry, s: Store, atom: AtomId, a: AtomId): (r: Store)
    requires Wf(reg, s) && a < |reg| && a in s.mounted
    ensures Wf(reg, r) && HooksOnly(s, r)
    ensures Keeps(s.mounted, r.mounted) && KeepsListened(s.mounted, r.mounted)
    ensures a !in r.mounted || atom !in r.mounted[a].dependents
  {
    RemoveDependentWf(reg, s, a, atom);
    var s1 := RemoveDependent(s, a, atom);
    if CanUnmountAtom(a, s1.mounted[a]) then
      var r := UnmountAtom(reg, s1, a);
      DropOneListened(s, s1, r, atom, a);
      UnmountHooksOnly(s1, r);
      r
    else
      s1
  }

  /** Unmounting what the drop left unmountable unmounts no atom with listeners. */
  lemma DropOneListened(s: Store, s1: Store, r: Store, atom: AtomId, a: AtomId)
    requires a in s.mounted && s1 == RemoveDependent(s, a, atom) && CanUnmountAtom(a, s1.mounted[a])
    requires Keeps(s1.mounted, r.mounted) && UnmountedAlone(s1.mounted - {a}, r.mounted)
    ensures KeepsListened(s.mounted, r.mounted)
  {
  }

  lemma DropEachStep(s: Store, s1: Store, r: Store, atom: AtomId, keys: seq<AtomId>, prevKeys: seq<AtomId>)
    requires prevKeys != []
    requires Keeps(s.mounted, s1.mounted) && Keeps(s1.mounted, r.mounted)
    requires prevKeys[0] in keys || prevKeys[0] !in s1.mounted || atom !in s1.mounted[prevKeys[0]].dependents
    requires forall a | a in prevKeys[1..] && a !in keys :: a !in r.mounted || atom !in r.mounted[a].dependents
    ensures Keeps(s.mounted, r.mounted)
    ensures forall a | a in prevKeys && a !in keys :: a !in r.mounted || atom !in r.mounted[a].dependents
  {
    assert prevKeys == [prevKeys[0]] + prevKeys[1..];
  }

  /** The dependencies `mountDependencies` drops: previous keys not among the new ones. */
  ghost function Dropped(keys: seq<AtomId>, prevKeys: seq<AtomId>): set<AtomId> {
    set b | b in prevKeys && b !in keys
  }

  /** The highest dropped dependency, or -1 when none is dropped. */
  function DroppedBound(keys: seq<AtomId>, prevKeys: seq<AtomId>): (c: int)
    ensures forall b | b in prevKeys && b !in keys :: b <= c
    ensures c == -1 || (0 <= c && c in prevKeys && c !in keys)
  {
    if prevKeys == [] then -1
    else
      var rest := DroppedBound(keys, prevKeys[1..]);
      if prevKeys[0] !in keys && prevKeys[0] > rest then prevKeys[0] else rest
  }

  /** What the first loop of `mountDependencies` leaves alone, for dropped keys
      `dropped` all at or below `c`: only atoms at or below `c` are unmounted; an
      entry that stays and was not dropped keeps every dependent above `c`; and an
      atom unmounted that was not dropped had no dependent above `c` but itself. */
  ghost predicate DetachesBelow(m: map<AtomId, Mounted>, m': map<AtomId, Mounted>, c: int, dropped: set<AtomId>) {
    && (forall b | b in m && b !in m' :: b <= c)
    && (forall b, x | b in m && b in m' && b !in dropped && x in m[b].dependents && c < x :: x in m'[b].dependents)
    && (forall b, x | b in m && b !in m' && b !in dropped && x in m[b].dependents :: x == b || x <= c)
  }

  lemma DetachesTrans(m: map<AtomId, Mounted>, m1: map<AtomId, Mounted>, m2: map<AtomId, Mounted>, c: int, dropped: set<AtomId>)
    requires Keeps(m1, m2) && DetachesBelow(m, m1, c, dropped) && DetachesBelow(m1, m2, c, dropped)
    ensures DetachesBelow(m, m2, c, dropped)
  {
    forall b, x | b in m && b !in m2 && b !in dropped && x in m[b].dependents
      ensures x == b || x <= c
    {
      if b in m1 && x !in m1[b].dependents {
        assert x <= c;
      }
    }
  }

  lemma DetachesWiden(m: map<AtomId, Mounted>, m': map<AtomId, Mounted>, a: int, d: set<AtomId>, c: int, dropped: set<AtomId>)
    requires DetachesBelow(m, m', a, d) && a <= c && d <= dropped
    ensures DetachesBelow(m, m', c, dropped)
  {
  }

  /** Dropping `a` detaches only below `a`. */
  lemma DropOneBelow(reg: Registry, s: Store, atom: AtomId, a: AtomId)
    requires Wf(reg, s) && a < |reg| && a in s.mounted
    ensures DetachesBelow(s.mounted, DropOne(reg, s, atom, a).mounted, a, {a})
  {
    RemoveDependentWf(reg, s, a, atom);
    var s1 := RemoveDependent(s, a, atom);
    assert DetachesBelow(s.mounted, s1.mounted, a, {a});
    if CanUnmountAtom(a, s1.mounted[a]) {
      var r := UnmountAtom(reg, s1, a);
      UnmountAtomBelow(reg, s1, a);
      assert DetachesBelow(s1.mounted, r.mounted, a, {a});
      DetachesTrans(s.mounted, s1.mounted, r.mounted, a, {a});
    }
  }

  /** The first loop detaches only below the highest dropped dependency. */
  lemma DropEachBelow(reg: Registry, s: Store, atom: AtomId, keys: seq<AtomId>, prevKeys: seq<AtomId>)
    requires Wf(reg, s) && atom < |reg|
    requires forall k | 0 <= k < |prevKeys| :: ReadsOrSelf(reg, atom, prevKeys[k])
    ensures DetachesBelow(s.mounted, DropEach(reg, s, atom, keys, prevKeys).mounted,
                          DroppedBound(keys, prevKeys), Dropped(keys, prevKeys))
    decreases |prevKeys|
  {
    if prevKeys != [] {
      var c := DroppedBound(keys, prevKeys);
      var a := prevKeys[0];
      ReadsOrSelfBelow(reg, atom, a);
      var s1 := if a in keys || a !in s.mounted then s else DropOne(reg, s, atom, a);
      if !(a in keys || a !in s.mounted) {
        DropOneBelow(reg, s, atom, a);
        DetachesWiden(s.mounted, s1.mounted, a, {a}, c, Dropped(keys, prevKeys));
      }
      var r := DropEach(reg, s1, atom, keys, prevKeys[1..]);
      DropEachBelow(reg, s1, atom, keys, prevKeys[1..]);
      DetachesWiden(s1.mounted, r.mounted, DroppedBound(keys, prevKeys[1..]), Dropped(keys, prevKeys[1..]), c, Dropped(keys, prevKeys));
      DetachesTrans(s.mounted, s1.mounted, r.mounted, c, Dropped(keys, prevKeys));
    }
  }

  /** The second loop of `mountDependencies`, over the keys added. */
  function AddEach(reg: Registry, s: Store, atom: AtomId, added: seq<AtomId>): (r: Store)
    requires Wf(reg, s) && atom < |reg|
    requires forall k | 0 <= k < |added| :: ReadsOrSelf(reg, atom, added[k])
    ensures Wf(reg, r) && HooksOnly(s, r)
    ensures Grows(s.mounted, r.mounted)
    ensures atom !in s.mounted ==> r.mounted.Keys == s.mounted.Keys
    ensures atom in r.mounted ==> forall k | 0 <= k < |added| :: added[k] in r.mounted && atom in r.mounted[added[k]].dependents
    ensures forall c | c in r.mounted && c !in added && atom in r.mounted[c].dependents :: c in s.mounted && atom in s.mounted[c].dependents
    decreases |added|
  {
    if added == [] then s
    else
      var a := added[0];
      ReadsOrSelfBelow(reg, atom, a);
      var s1 := AddOne(reg, s, atom, a);
      var r := AddEach(reg, s1, atom, added[1..]);
      AddEachStep(s, s1, r, atom, added);
      HooksOnlyTrans(s, s1, r);
      r
  }

  /** `mounted.t.add(atom)` when `a` is mounted; otherwise mount `a` for `atom`
      when `atom` is mounted. */
  function AddOne(reg: Registry, s: Store, atom: AtomId, a: AtomId): (r: Store)
    requires Wf(reg, s) && atom < |reg| && ReadsOrSelf(reg, atom, a) && a < |reg|
    ensures Wf(reg, r) && HooksOnly(s, r)
    ensures Grows(s.mounted, r.mounted)
    ensures atom !in s.mounted ==> r.mounted.Keys == s.mounted.Keys
    ensures atom in s.mounted || a in s.mounted ==> a in r.mounted && atom in r.mounted[a].dependents
    ensures forall c | c in r.mounted && c != a && atom in r.mounted[c].dependents :: c in s.mounted && atom in s.mounted[c].dependents
  {
    if a in s.mounted then
      AddDependentWf(reg, s, a, atom);
      AddDependent(s, a, atom)
    else if atom in s.mounted then
      var r := MountAtom(reg, s, a, Some(atom)).0;
      MountedForOnlyAt(reg, s, r, a, atom);
      MountHooksOnly(reg, s, r);
      r
    else
      s
  }

  /** Mounting `a` for a mounted `atom` adds `atom` as a dependent of `a` only. */
  lemma MountedForOnlyAt(reg: Registry, s: Store, r: Store, a: AtomId, atom: AtomId)
    requires atom in s.mounted && MountedAt(reg, s, r, a, Some(atom))
    ensures forall c | c in r.mounted && c != a && atom in r.mounted[c].dependents :: c in s.mounted && atom in s.mounted[c].dependents
  {
  }

  lemma AddEachStep(s: Store, s1: Store, r: Store, atom: AtomId, added: seq<AtomId>)
    requires added != []
    requires Grows(s.mounted, s1.mounted) && Grows(s1.mounted, r.mounted)
    requires atom !in s.mounted ==> s1.mounted.Keys == s.mounted.Keys
    requires atom !in s1.mounted ==> r.mounted.Keys == s1.mounted.Keys
    requires atom in s.mounted || added[0] in s.mounted ==> added[0] in s1.mounted && atom in s1.mounted[added[0]].dependents
    requires forall c | c in s1.mounted && c != added[0] && atom in s1.mounted[c].dependents :: c in s.mounted && atom in s.mounted[c].dependents
    requires atom in r.mounted ==> forall k | 0 <= k < |added[1..]| :: added[1..][k] in r.mounted && atom in r.mounted[added[1..][k]].dependents
    requires forall c | c in r.mounted && c !in added[1..] && atom in r.mounted[c].dependents :: c in s1.mounted && atom in s1.mounted[c].dependents
    ensures Grows(s.mounted, r.mounted)
    ensures atom !in s.mounted ==> r.mounted.Keys == s.mounted.Keys
    ensures atom in r.mounted ==> forall k | 0 <= k < |added| :: added[k] in r.mounted && atom in r.mounted[added[k]].dependents
    ensures forall c | c in r.mounted && c !in added && atom in r.mounted[c].dependents :: c in s.mounted && atom in s.mounted[c].dependents
  {
    assert added == [added[0]] + added[1..];
    if atom in r.mounted {
      forall k | 0 <= k < |added|
        ensures added[k] in r.mounted && atom in r.mounted[added[k]].dependents
      {
        if k > 0 {
          assert added[k] == added[1..][k - 1];
        }
      }
    }
  }

  /** A dependency map with the same keys as the previous one changes nothing. */
  lemma SameKeysMountNothing(reg: Registry, s: Store, atom: AtomId, deps: seq<Dep>, prev: seq<Dep>)
    requires Wf(reg, s) && atom < |reg| && DepsWf(reg, atom, deps) && DepsWf(reg, atom, prev)
    requires forall a :: a in DepAtoms(deps) <==> a in DepAtoms(prev)
    ensures MountDependencies(reg, s, atom, deps, Some(prev)) == s
  {
    var keys := DepAtoms(deps);
    var prevKeys := DepAtoms(prev);
    DepKeysWf(reg, atom, prev);
    DropKeptNothing(reg, s, atom, keys, prevKeys);

  }

  lemma {:induction false} DropKeptNothing(reg: Registry, s: Store, atom: AtomId, keys: seq<AtomId>, prevKeys: seq<AtomId>)
    requires Wf(reg, s) && atom < |reg|
    requires forall k | 0 <= k < |prevKeys| :: ReadsOrSelf(reg, atom, prevKeys[k])
    requires forall a | a in prevKeys :: a in keys
    ensures DropEach(reg, s, atom, keys, prevKeys) == s
    decreases |prevKeys|
  {
    if prevKeys != [] {
      assert prevKeys[0] in keys;
      DropKeptNothing(reg, s, atom, keys, prevKeys[1..]);
    }
  }
}

=== FILE: propagate.dfy ===
/** `recomputeDependents`: after an atom changed, bring its mounted dependents up
    to date without glitches.

    The first pass (`loop1`) walks every path of the dependents graph from the
    changed atom, counting for each dependent how often it is reached (its dirty
    count) and which atoms it is reached from (its changed-set). The second pass
    (`loop2`) walks the same paths in the same order, decrementing the counts; a
    dependent is settled when its count reaches zero, and only then re-read, if its
    changed-set is not empty. A dependent that turns out unchanged is removed from
    every changed-set, so a dependent all of whose sources were settled before it
    and found unchanged is not re-read. Re-reads may also bring unmounted atoms
    below a settled dependent up to date; no other atom's state changes.
 */
module Propagate {
  import opened Values
  import opened Atoms
  import opened StoreState
  import opened Invariants
  import opened Read

  /** `mountedMap.get(a)?.t`, or nothing when `a` is not mounted. */
  function DependentsOf(m: map<AtomId, Mounted>, a: AtomId): seq<AtomId> {
    if a in m then m[a].dependents else []
  }

  /** The dependents listed, other than `a` itself, have ids above `a` and below `n`. */
  predicate Above(n: nat, a: AtomId, ts: seq<AtomId>) {
    forall k | 0 <= k < |ts| :: ts[k] == a || a < ts[k] < n
  }

  /** Every mounted atom's dependents lie above it: what makes both passes terminate. */
  ghost predicate Upward(n: nat, m: map<AtomId, Mounted>) {
    forall a :: Above(n, a, DependentsOf(m, a))
  }

  lemma WfUpward(reg: Registry, s: Store)
    requires Wf(reg, s)
    ensures Upward(|reg|, s.mounted)
  {
    forall a: AtomId
      ensures Above(|reg|, a, DependentsOf(s.mounted, a))
    {
      var ts := DependentsOf(s.mounted, a);
      forall k | 0 <= k < |ts|
        ensures ts[k] == a || a < ts[k] < |reg|
      {
        ReadsOrSelfBelow(reg, ts[k], a);
      }
    }
  }

  /** `dirtyMap` and `dependencyMap`. */
  datatype Marks = Marks(dirty: map<AtomId, nat>, changedFrom: map<AtomId, set<AtomId>>)

  /** `dirtyMap.get(a)`, zero when absent. */
  function CountOf(dirty: map<AtomId, nat>, a: AtomId): nat {
    if a in dirty then dirty[a] else 0
  }

  function DirtyCount(mk: Marks, a: AtomId): nat {
    CountOf(mk.dirty, a)
  }

  function ChangedFrom(mk: Marks, a: AtomId): set<AtomId> {
    if a in mk.changedFrom then mk.changedFrom[a] else {}
  }

  /** One step of `loop1`: `dependent` is reached from `a`. */
  function Mark(mk: Marks, a: AtomId, dependent: AtomId): (r: Marks)
    ensures DirtyCount(r, dependent) == DirtyCount(mk, dependent) + 1
    ensures ChangedFrom(r, dependent) == ChangedFrom(mk, dependent) + {a}
    ensures forall b | b != dependent :: DirtyCount(r, b) == DirtyCount(mk, b) && ChangedFrom(r, b) == ChangedFrom(mk, b)
  {
    Marks(mk.dirty[dependent := DirtyCount(mk, dependent) + 1],
          mk.changedFrom[dependent := ChangedFrom(mk, dependent) + {a}])
  }

  /** `loop1(a)`. */
  function Loop1(n: nat, m: map<AtomId, Mounted>, a: AtomId, mk: Marks): Marks
    requires Upward(n, m)
    decreases n - a, 1, 0
  {
    Loop1Each(n, m, a, DependentsOf(m, a), mk)
  }

  function Loop1Each(n: nat, m: map<AtomId, Mounted>, a: AtomId, ts: seq<AtomId>, mk: Marks): Marks
    requires Upward(n, m) && Above(n, a, ts)
    decreases n - a, 0, |ts|
  {
    if ts == [] then mk
    else
      var t := ts[0];
      var mk1 := if t != a then Loop1(n, m, t, Mark(mk, a, t)) else mk;
      Loop1Each(n, m, a, ts[1..], mk1)
  }

  /** The state `loop2` threads along: the store, the marks, and — as an
      observation of the model — the dependents in the order they were settled. */
  datatype Pass = Pass(s: Store, mk: Marks, settled: seq<AtomId>)

  /** The counting half of a pass: the dirty counts and the settling order. */
  datatype Tally = Tally(dirty: map<AtomId, nat>, settled: seq<AtomId>)

  function TallyOf(p: Pass): Tally {
    Tally(p.mk.dirty, p.settled)
  }

  /** The counting half of one `loop2` step: the count of `d` drops by one unless
      it is already zero, and `d` is settled when its count is then zero. */
  function Tick(t: Tally, d: AtomId): (r: Tally)
    ensures CountOf(r.dirty, d) == if CountOf(t.dirty, d) > 0 then CountOf(t.dirty, d) - 1 else 0
    ensures forall b | b != d :: CountOf(r.dirty, b) == CountOf(t.dirty, b)
    ensures r.settled == if CountOf(r.dirty, d) == 0 then t.settled + [d] else t.settled
  {
    var count := CountOf(t.dirty, d);
    Tally(if count > 0 then t.dirty[d := count - 1] else t.dirty,
          if count <= 1 then t.settled + [d] else t.settled)
  }

  /** `dependencyMap.forEach((s) => s.delete(dependent))`. */
  function Unchanged(mk: Marks, dependent: AtomId): (r: Marks)
    ensures r.dirty == mk.dirty
    ensures forall b :: ChangedFrom(r, b) == ChangedFrom(mk, b) - {dependent}
  {
    Marks(mk.dirty, map b | b in mk.changedFrom :: mk.changedFrom[b] - {dependent})
  }

  /** Re-read a dependent whose changed-set is not empty; report whether its value changed. */
  function Reread(reg: Registry, s: Store, dependent: AtomId): (r: (Store, bool))
    requires Wf(reg, s) && dependent < |reg|
    ensures Wf(reg, r.0) && r.0.mounted == s.mounted && r.0.log == s.log && r.0.next >= s.next
    ensures dependent in r.0.states && ReadFrame(s, r.0, dependent + 1)
    ensures r.1 <==> dependent !in s.states || !IsEqualValue(s.states[dependent].content, r.0.states[dependent].content)
  {
    var prev := GetState(s, dependent);
    var (s', next) := ReadAtomState(reg, s, dependent);
    (s', prev.None? || !IsEqualValue(prev.value.content, next.content))
  }

  /** One step of `loop2`: `dependent` is reached once more. */
  function Settle(reg: Registry, p: Pass, dependent: AtomId): (r: Pass)
    requires Wf(reg, p.s) && dependent < |reg|
    ensures Wf(reg, r.s) && r.s.mounted == p.s.mounted && r.s.log == p.s.log && r.s.next >= p.s.next
    ensures TallyOf(r) == Tick(TallyOf(p), dependent)
  {
    var t := Tick(TallyOf(p), dependent);
    var mk1 := p.mk.(dirty := t.dirty);
    if DirtyCount(p.mk, dependent) > 1 then Pass(p.s, mk1, t.settled)
    else
      var (s1, isChanged) := if |ChangedFrom(mk1, dependent)| > 0 then Reread(reg, p.s, dependent) else (p.s, false);
      var mk2 := if isChanged then mk1 else Unchanged(mk1, dependent);
      Pass(s1, mk2, t.settled)
  }

  /** `loop2(a)`. */
  function Loop2(reg: Registry, p: Pass, a: AtomId): (r: Pass)
    requires Wf(reg, p.s)
    ensures Wf(reg, r.s) && r.s.mounted == p.s.mounted && r.s.log == p.s.log && r.s.next >= p.s.next
    decreases |reg| - a, 1, 0
  {
    WfUpward(reg, p.s);
    Loop2Each(reg, p, a, DependentsOf(p.s.mounted, a))
  }

  function Loop2Each(reg: Registry, p: Pass, a: AtomId, ts: seq<AtomId>): (r: Pass)
    requires Wf(reg, p.s) && Above(|reg|, a, ts)
    ensures Wf(reg, r.s) && r.s.mounted == p.s.mounted && r.s.log == p.s.log && r.s.next >= p.s.next
    decreases |reg| - a, 0, |ts|
  {
    if ts == [] then p
    else
      var t := ts[0];
      var p1 := if t != a then Loop2(reg, Settle(reg, p, t), t) else p;
      Loop2Each(reg, p1, a, ts[1..])
  }

  /** Both passes of `recomputeDependents(atom)`. */
  function Propagation(reg: Registry, s: Store, atom: AtomId): (r: Pass)
    requires Wf(reg, s) && atom < |reg|
    ensures Wf(reg, r.s) && r.s.mounted == s.mounted && r.s.log == s.log && r.s.next >= s.next
  {
    WfUpward(reg, s);
    var mk := Loop1(|reg|, s.mounted, atom, Marks(map[], map[]));
    Loop2(reg, Pass(s, mk, []), atom)
  }

  /** `recomputeDependents(atom)`. */
  function RecomputeDependents(reg: Registry, s: Store, atom: AtomId): (s': Store)
    requires Wf(reg, s) && atom < |reg|
    ensures Wf(reg, s') && s'.mounted == s.mounted && s'.log == s.log && s'.next >= s.next
  {
    Propagation(reg, s, atom).s
  }

  // ---------------------------------------------------------------------------
  // The paths both passes walk

  /** `from` reaches its mounted dependent `to`. */
  datatype Edge = Edge(from: AtomId, to: AtomId)

  /** The edges `loop1(a)` and `loop2(a)` follow, in the order they follow them:
      every path out of `a`, depth first, so an atom reached along several paths
      is listed once per path. */
  function Walk(n: nat, m: map<AtomId, Mounted>, a: AtomId): (es: seq<Edge>)
    requires Upward(n, m)
    ensures InRange(n, es)
    decreases n - a, 1, 0
  {
    WalkEach(n, m, a, DependentsOf(m, a))
  }

  function WalkEach(n: nat, m: map<AtomId, Mounted>, a: AtomId, ts: seq<AtomId>): (es: seq<Edge>)
    requires Upward(n, m) && Above(n, a, ts)
    ensures InRange(n, es)
    decreases n - a, 0, |ts|
  {
    if ts == [] then []
    else
      var t := ts[0];
      var here := if t != a then [Edge(a, t)] + Walk(n, m, t) else [];
      var rest := WalkEach(n, m, a, ts[1..]);
      assert here != [] ==> here[1..] == Walk(n, m, t);
      InRangeAppend(n, here, rest);
      here + rest
  }

  /** Every edge arrives at an atom below `n`. */
  predicate InRange(n: nat, es: seq<Edge>) {
    es == [] || (es[0].to < n && InRange(n, es[1..]))
  }

  lemma InRangeAppend(n: nat, es1: seq<Edge>, es2: seq<Edge>)
    ensures InRange(n, es1 + es2) <==> InRange(n, es1) && InRange(n, es2)
  {
    if es1 == [] {
      assert es1 + es2 == es2;
    } else {
      assert (es1 + es2)[1..] == es1[1..] + es2;
      InRangeAppend(n, es1[1..], es2);
    }
  }

  /** The atoms the edges arrive at, in order. */
  function Targets(es: seq<Edge>): (r: seq<AtomId>)
    ensures |r| == |es| && forall k | 0 <= k < |es| :: r[k] == es[k].to
  {
    if es == [] then [] else [es[0].to] + Targets(es[1..])
  }

  /** How many of the edges arrive at `d`. */
  function Arrivals(es: seq<Edge>, d: AtomId): nat {
    if es == [] then 0 else (if es[0].to == d then 1 else 0) + Arrivals(es[1..], d)
  }

  /** The atoms from which an edge arrives at `d`. */
  function Sources(es: seq<Edge>, d: AtomId): set<AtomId> {
    set k | 0 <= k < |es| && es[k].to == d :: es[k].from
  }

  /** The first target, if it does not arrive again later. */
  function LastHere(es: seq<Edge>): seq<AtomId>
    requires es != []
  {
    if es[0].to in Targets(es[1..]) then [] else [es[0].to]
  }

  /** The targets in the order of their last arrival. */
  function LastArrivals(es: seq<Edge>): seq<AtomId> {
    if es == [] then [] else LastHere(es) + LastArrivals(es[1..])
  }

  // ---------------------------------------------------------------------------
  // The first pass counts arrivals

  /** `Mark` applied along a list of edges. */
  function MarkAll(mk: Marks, es: seq<Edge>): Marks
    decreases |es|
  {
    if es == [] then mk else MarkAll(Mark(mk, es[0].from, es[0].to), es[1..])
  }

  lemma {:induction false} MarkAllAppend(mk: Marks, es1: seq<Edge>, es2: seq<Edge>)
    ensures MarkAll(mk, es1 + es2) == MarkAll(MarkAll(mk, es1), es2)
    decreases |es1|
  {
    if es1 == [] {
      assert es1 + es2 == es2;
    } else {
      assert (es1 + es2)[1..] == es1[1..] + es2;
      MarkAllAppend(Mark(mk, es1[0].from, es1[0].to), es1[1..], es2);
    }
  }

  lemma {:induction false} Loop1Walks(n: nat, m: map<AtomId, Mounted>, a: AtomId, mk: Marks)
    requires Upward(n, m)
    ensures Loop1(n, m, a, mk) == MarkAll(mk, Walk(n, m, a))
    decreases n - a, 1, 0
  {
    Loop1EachWalks(n, m, a, DependentsOf(m, a), mk);
  }

  lemma {:induction false} Loop1EachWalks(n: nat, m: map<AtomId, Mounted>, a: AtomId, ts: seq<AtomId>, mk: Marks)
    requires Upward(n, m)
    requires Above(n, a, ts)
    ensures Loop1Each(n, m, a, ts, mk) == MarkAll(mk, WalkEach(n, m, a, ts))
    decreases n - a, 0, |ts|
  {
    if ts != [] {
      var t := ts[0];
      if t != a {
        var mk1 := Loop1(n, m, t, Mark(mk, a, t));
        Loop1Walks(n, m, t, Mark(mk, a, t));
        Loop1EachWalks(n, m, a, ts[1..], mk1);
        var here := [Edge(a, t)] + Walk(n, m, t);
        MarkAllAppend(mk, here, WalkEach(n, m, a, ts[1..]));
        MarkAllAppend(mk, [Edge(a, t)], Walk(n, m, t));
        assert MarkAll(mk, [Edge(a, t)]) == Mark(mk, a, t);
      } else {
        Loop1EachWalks(n, m, a, ts[1..], mk);
        assert WalkEach(n, m, a, ts) == WalkEach(n, m, a, ts[1..]);
      }
    }
  }

  lemma {:induction false} MarkAllCounts(mk: Marks, es: seq<Edge>, d: AtomId)
    ensures DirtyCount(MarkAll(mk, es), d) == DirtyCount(mk, d) + Arrivals(es, d)
    ensures ChangedFrom(MarkAll(mk, es), d) == ChangedFrom(mk, d) + Sources(es, d)
    decreases |es|
  {
    if es != [] {
      MarkAllCounts(Mark(mk, es[0].from, es[0].to), es[1..], d);
      var later := Sources(es[1..], d);
      if es[0].to == d {
        assert Sources(es, d) == {es[0].from} + later by {
          forall x | x in Sources(es, d) ensures x in {es[0].from} + later {
            var k :| 0 <= k < |es| && es[k].to == d && es[k].from == x;
            if k > 0 { assert es[1..][k - 1] == es[k]; }
          }
          forall x | x in later ensures x in Sources(es, d) {
            var k :| 0 <= k < |es[1..]| && es[1..][k].to == d && es[1..][k].from == x;
            assert es[k + 1] == es[1..][k];
          }
        }
      } else {
        assert Sources(es, d) == later by {
          forall x | x in Sources(es, d) ensures x in later {
            var k :| 0 <= k < |es| && es[k].to == d && es[k].from == x;
            assert k > 0 && es[1..][k - 1] == es[k];
          }
          forall x | x in later ensures x in Sources(es, d) {
            var k :| 0 <= k < |es[1..]| && es[1..][k].to == d && es[1..][k].from == x;
            assert es[k + 1] == es[1..][k];
          }
        }
      }
    }
  }

  /** After `loop1(atom)`, each dependent's dirty count is the number of paths by
      which the changed atom reaches it, and its changed-set holds the atoms it is
      reached from directly. */
  lemma Loop1Counts(n: nat, m: map<AtomId, Mounted>, atom: AtomId, d: AtomId)
    requires Upward(n, m)
    ensures DirtyCount(Loop1(n, m, atom, Marks(map[], map[])), d) == Arrivals(Walk(n, m, atom), d)
    ensures ChangedFrom(Loop1(n, m, atom, Marks(map[], map[])), d) == Sources(Walk(n, m, atom), d)
  {
    Loop1Walks(n, m, atom, Marks(map[], map[]));
    MarkAllCounts(Marks(map[], map[]), Walk(n, m, atom), d);
  }

  // ---------------------------------------------------------------------------
  // The second pass settles each dependent at its last arrival

  /** `Settle` applied along a list of edges. */
  function SettleAll(reg: Registry, p: Pass, es: seq<Edge>): (r: Pass)
    requires Wf(reg, p.s) && InRange(|reg|, es)
    ensures Wf(reg, r.s) && r.s.mounted == p.s.mounted && r.s.log == p.s.log && r.s.next >= p.s.next
    decreases |es|
  {
    if es == [] then p else SettleAll(reg, Settle(reg, p, es[0].to), es[1..])
  }

  /** `Tick` applied along a list of edges. */
  function TickAll(t: Tally, es: seq<Edge>): (r: Tally)
    ensures forall b | b !in Targets(es) :: CountOf(r.dirty, b) == CountOf(t.dirty, b)
    decreases |es|
  {
    if es == [] then t else TickAll(Tick(t, es[0].to), es[1..])
  }

  /** What settling along a list of edges does to the counts and the settling
      order depends on nothing but the edges. */
  lemma {:induction false} SettleAllTally(reg: Registry, p: Pass, es: seq<Edge>)
    requires Wf(reg, p.s) && InRange(|reg|, es)
    ensures TallyOf(SettleAll(reg, p, es)) == TickAll(TallyOf(p), es)
    decreases |es|
  {
    if es != [] {
      SettleAllTally(reg, Settle(reg, p, es[0].to), es[1..]);
    }
  }

  lemma {:induction false} SettleAllAppend(reg: Registry, p: Pass, es1: seq<Edge>, es2: seq<Edge>)
    requires Wf(reg, p.s) && InRange(|reg|, es1 + es2)
    ensures InRange(|reg|, es1) && InRange(|reg|, es2)
    ensures SettleAll(reg, p, es1 + es2) == SettleAll(reg, SettleAll(reg, p, es1), es2)
    decreases |es1|
  {
    InRangeAppend(|reg|, es1, es2);
    if es1 == [] {
      assert es1 + es2 == es2;
    } else {
      assert (es1 + es2)[1..] == es1[1..] + es2;
      assert (es1 + es2)[0] == es1[0];
      SettleAllAppend(reg, Settle(reg, p, es1[0].to), es1[1..], es2);
    }
  }

  /** Settling along an edge into `t`, a list `w`, then the rest. */
  lemma SettleAllBranch(reg: Registry, p: Pass, e: Edge, w: seq<Edge>, rest: seq<Edge>)
    requires Wf(reg, p.s) && InRange(|reg|, ([e] + w) + rest)
    ensures e.to < |reg| && InRange(|reg|, w) && InRange(|reg|, rest)
    ensures SettleAll(reg, p, ([e] + w) + rest) == SettleAll(reg, SettleAll(reg, Settle(reg, p, e.to), w), rest)
  {
    var es := ([e] + w) + rest;
    assert es[0] == e && es[1..] == w + rest;
    assert InRange(|reg|, w + rest);
    var p0 := Settle(reg, p, e.to);
    assert SettleAll(reg, p, es) == SettleAll(reg, p0, w + rest);
    SettleAllAppend(reg, p0, w, rest);
  }

  lemma {:induction false} Loop2Walks(reg: Registry, p: Pass, a: AtomId)
    requires Wf(reg, p.s) && Upward(|reg|, p.s.mounted)
    ensures Loop2(reg, p, a) == SettleAll(reg, p, Walk(|reg|, p.s.mounted, a))
    decreases |reg| - a, 1, 0
  {
    Loop2EachWalks(reg, p, a, DependentsOf(p.s.mounted, a));
  }

  lemma {:induction false} Loop2EachWalks(reg: Registry, p: Pass, a: AtomId, ts: seq<AtomId>)
    requires Wf(reg, p.s) && Upward(|reg|, p.s.mounted) && Above(|reg|, a, ts)
    ensures Loop2Each(reg, p, a, ts) == SettleAll(reg, p, WalkEach(|reg|, p.s.mounted, a, ts))
    decreases |reg| - a, 0, |ts|
  {
    var m := p.s.mounted;
    if ts != [] {
      var t := ts[0];
      var rest := WalkEach(|reg|, m, a, ts[1..]);
      if t != a {
        var w := Walk(|reg|, m, t);
        assert WalkEach(|reg|, m, a, ts) == ([Edge(a, t)] + w) + rest;
        SettleAllBranch(reg, p, Edge(a, t), w, rest);
        var p0 := Settle(reg, p, t);
        Loop2Walks(reg, p0, t);
        Loop2EachWalks(reg, Loop2(reg, p0, t), a, ts[1..]);
      } else {
        Loop2EachWalks(reg, p, a, ts[1..]);
        assert WalkEach(|reg|, m, a, ts) == rest;
      }
    }
  }

  lemma ArrivalsNone(es: seq<Edge>, d: AtomId)
    ensures Arrivals(es, d) == 0 <==> d !in Targets(es)
  {
    if es != [] {
      assert Targets(es) == [es[0].to] + Targets(es[1..]);
      ArrivalsNone(es[1..], d);
    }
  }

  /** The counts of a tally match the arrivals along `es`. */
  predicate CountsArrivals(t: Tally, es: seq<Edge>) {
    forall k | 0 <= k < |es| :: CountOf(t.dirty, es[k].to) == Arrivals(es, es[k].to)
  }

  /** One settling step keeps the counts equal to the arrivals still to come. */
  lemma TickStep(t: Tally, es: seq<Edge>)
    requires es != [] && CountsArrivals(t, es)
    ensures CountsArrivals(Tick(t, es[0].to), es[1..])
    ensures es[0].to !in Targets(es[1..]) ==> CountOf(Tick(t, es[0].to).dirty, es[0].to) == 0
    ensures Tick(t, es[0].to).settled == t.settled + LastHere(es)
  {
    var d := es[0].to;
    var rest := es[1..];
    ArrivalsNone(rest, d);
    forall k | 0 <= k < |rest|
      ensures CountOf(Tick(t, d).dirty, rest[k].to) == Arrivals(rest, rest[k].to)
    {
      assert rest[k] == es[k + 1];
    }
  }

  /** Started from the counts of the first pass, the second pass brings every
      count down to zero. */
  lemma {:induction false} TickAllClears(t: Tally, es: seq<Edge>)
    requires CountsArrivals(t, es)
    ensures forall k | 0 <= k < |es| :: CountOf(TickAll(t, es).dirty, es[k].to) == 0
    decreases |es|
  {
    if es != [] {
      var rest := es[1..];
      var t1 := Tick(t, es[0].to);
      TickStep(t, es);
      TickAllClears(t1, rest);
      var r := TickAll(t1, rest);
      assert r == TickAll(t, es);
      forall k | 0 <= k < |es|
        ensures CountOf(r.dirty, es[k].to) == 0
      {
        if k > 0 {
          assert es[k] == rest[k - 1];
        } else if es[0].to in Targets(rest) {
          var j :| 0 <= j < |rest| && Targets(rest)[j] == es[0].to;
        }
      }
    }
  }

  /** Started from the counts of the first pass, the second pass settles each
      target exactly once, at its last arrival. */
  lemma {:induction false} TickAllTrace(t: Tally, es: seq<Edge>)
    requires CountsArrivals(t, es)
    ensures TickAll(t, es).settled == t.settled + LastArrivals(es)
    decreases |es|
  {
    if es == [] {
      assert t.settled + [] == t.settled;
    } else {
      TickStep(t, es);
      TickAllTrace(Tick(t, es[0].to), es[1..]);
      TraceStep(t, es);
    }
  }

  lemma TraceStep(t: Tally, es: seq<Edge>)
    requires es != [] && Tick(t, es[0].to).settled == t.settled + LastHere(es)
    requires TickAll(Tick(t, es[0].to), es[1..]).settled == Tick(t, es[0].to).settled + LastArrivals(es[1..])
    ensures TickAll(t, es).settled == t.settled + LastArrivals(es)
  {
    TickAllUnfold(t, es);
    LastArrivalsUnfold(es);
    AppendAssoc(t.settled, LastHere(es), LastArrivals(es[1..]));
  }

  lemma TickAllUnfold(t: Tally, es: seq<Edge>)
    requires es != []
    ensures TickAll(t, es) == TickAll(Tick(t, es[0].to), es[1..])
  {
  }

  lemma LastArrivalsUnfold(es: seq<Edge>)
    requires es != []
    ensures LastArrivals(es) == LastHere(es) + LastArrivals(es[1..])
  {
  }

  lemma AppendAssoc<T>(x: seq<T>, y: seq<T>, z: seq<T>)
    ensures (x + y) + z == x + (y + z)
  {
  }


  lemma LastArrivalsTargets(es: seq<Edge>, x: AtomId)
    ensures x in LastArrivals(es) <==> x in Targets(es)
  {
    if es != [] {
      assert Targets(es) == [es[0].to] + Targets(es[1..]);
      LastArrivalsTargets(es[1..], x);
    }
  }

  lemma {:induction false} LastArrivalsDistinct(es: seq<Edge>)
    ensures NoDuplicates(LastArrivals(es))
    decreases |es|
  {
    if es != [] {
      LastArrivalsDistinct(es[1..]);
      LastArrivalsTargets(es[1..], es[0].to);
    }
  }

  /** `es[k]` is an arrival at the `j`-th settled atom after which the `i`-th
      settled atom never arrives again. */
  predicate OrderWitness(es: seq<Edge>, i: nat, j: nat, k: nat)
    requires i < j < |LastArrivals(es)|
  {
    k < |es| && es[k].to == LastArrivals(es)[j] && LastArrivals(es)[i] !in Targets(es[k..])
  }

  /** Of two settled atoms, the one settled later arrives at some point `k` after
      which the other never arrives again. */
  lemma {:induction false} LastArrivalsOrder(es: seq<Edge>, i: nat, j: nat) returns (k: nat)
    requires i < j < |LastArrivals(es)|
    ensures OrderWitness(es, i, j, k)
    decreases |es|, 1
  {
    if es[0].to in Targets(es[1..]) {
      k := OrderSkip(es, i, j);
    } else if i == 0 {
      k := OrderFirst(es, j);
    } else {
      k := OrderLater(es, i, j);
    }
  }

  /** The first edge is not a last arrival: the witness lies in the tail. */
  lemma {:induction false} OrderSkip(es: seq<Edge>, i: nat, j: nat) returns (k: nat)
    requires i < j < |LastArrivals(es)| && es[0].to in Targets(es[1..])
    ensures OrderWitness(es, i, j, k)
    decreases |es|, 0
  {
    var rest := es[1..];
    LastArrivalsUnfold(es);
    assert LastArrivals(es) == LastArrivals(rest);
    var k' := LastArrivalsOrder(rest, i, j);
    TailSuffix(es, k');
    k := k' + 1;
  }

  /** The first edge is the last arrival of the first settled atom, so the first
      settled atom never arrives after the first edge. */
  lemma {:induction false} OrderFirst(es: seq<Edge>, j: nat) returns (k: nat)
    requires 0 < j < |LastArrivals(es)| && es[0].to !in Targets(es[1..])
    ensures OrderWitness(es, 0, j, k)
    decreases |es|, 0
  {
    var rest := es[1..];
    var tr := LastArrivals(es);
    LastArrivalsUnfold(es);
    assert tr == [es[0].to] + LastArrivals(rest);
    LastArrivalsTargets(rest, tr[j]);
    var k' :| 0 <= k' < |rest| && Targets(rest)[k'] == tr[j];
    TailSuffix(es, k');
    TargetsSuffix(rest, k');
    k := k' + 1;
  }

  /** The first edge settles an atom other than the two: the witness lies in the tail. */
  lemma {:induction false} OrderLater(es: seq<Edge>, i: nat, j: nat) returns (k: nat)
    requires 0 < i < j < |LastArrivals(es)| && es[0].to !in Targets(es[1..])
    ensures OrderWitness(es, i, j, k)
    decreases |es|, 0
  {
    var rest := es[1..];
    LastArrivalsUnfold(es);
    assert LastArrivals(es) == [es[0].to] + LastArrivals(rest);
    var k' := LastArrivalsOrder(rest, i - 1, j - 1);
    TailSuffix(es, k');
    k := k' + 1;
  }

  lemma TailSuffix<T>(xs: seq<T>, k: nat)
    requires k + 1 < |xs|
    ensures xs[k + 1] == xs[1..][k] && xs[k + 1..] == xs[1..][k..]
  {
  }

  /** A suffix arrives only where the whole list does. */
  lemma TargetsSuffix(es: seq<Edge>, k: nat)
    requires k <= |es|
    ensures forall x | x in Targets(es[k..]) :: x in Targets(es)
  {
    forall x | x in Targets(es[k..])
      ensures x in Targets(es)
    {
      var q :| 0 <= q < |es[k..]| && Targets(es[k..])[q] == x;
      assert Targets(es)[k + q] == x;
    }
  }


  // ---------------------------------------------------------------------------
  // The shape of the walk

  /** The arrival `es[k]` is followed at once by the whole walk out of its target. */
  ghost predicate SubtreeAt(n: nat, m: map<AtomId, Mounted>, es: seq<Edge>, k: nat) {
    && Upward(n, m)
    && k < |es|
    && var w := Walk(n, m, es[k].to);
       k + 1 + |w| <= |es| && es[k + 1..k + 1 + |w|] == w
  }

  /** Every arrival at an atom is followed at once by the whole walk out of it. */
  lemma {:induction false} WalkSubtree(n: nat, m: map<AtomId, Mounted>, a: AtomId, k: nat)
    requires Upward(n, m)
    requires k < |Walk(n, m, a)|
    ensures SubtreeAt(n, m, Walk(n, m, a), k)
    decreases n - a, 1, 0
  {
    WalkEachSubtree(n, m, a, DependentsOf(m, a), k);
  }

  /** A stretch of the middle part of a concatenation is a stretch of the whole. */
  lemma Middle<T>(es: seq<T>, x: seq<T>, y: seq<T>, z: seq<T>, i: nat, w: seq<T>)
    requires es == x + y + z && i + |w| <= |y| && y[i..i + |w|] == w
    ensures |x| + i + |w| <= |es| && es[|x| + i..|x| + i + |w|] == w
    ensures i < |y| ==> es[|x| + i] == y[i]
  {
    assert es[|x| + i..|x| + i + |w|] == y[i..i + |w|];
  }

  lemma {:induction false} WalkEachSubtree(n: nat, m: map<AtomId, Mounted>, a: AtomId, ts: seq<AtomId>, k: nat)
    requires Upward(n, m) && Above(n, a, ts)
    requires k < |WalkEach(n, m, a, ts)|
    ensures SubtreeAt(n, m, WalkEach(n, m, a, ts), k)
    decreases n - a, 0, |ts|, 1
  {
    if ts[0] == a {
      assert WalkEach(n, m, a, ts) == WalkEach(n, m, a, ts[1..]);
      WalkEachSubtree(n, m, a, ts[1..], k);
    } else if k <= |Walk(n, m, ts[0])| {
      FirstSubtree(n, m, a, ts, k);
    } else {
      LaterSubtree(n, m, a, ts, k);
    }
  }

  /** `WalkEachSubtree` for the edge to the first dependent and the arrivals inside
      the walk out of it. */
  lemma {:induction false} FirstSubtree(n: nat, m: map<AtomId, Mounted>, a: AtomId, ts: seq<AtomId>, k: nat)
    requires Upward(n, m) && Above(n, a, ts)
    requires ts != [] && ts[0] != a && k <= |Walk(n, m, ts[0])|
    ensures SubtreeAt(n, m, WalkEach(n, m, a, ts), k)
    decreases n - a, 0, |ts|, 0
  {
    WalkEachFirst(n, m, a, ts);
    if k == 0 {
      FirstEdgeSubtree(n, m, WalkEach(n, m, a, ts), Edge(a, ts[0]), WalkEach(n, m, a, ts[1..]));
    } else {
      InnerSubtree(n, m, ts[0], WalkEach(n, m, a, ts), [Edge(a, ts[0])], WalkEach(n, m, a, ts[1..]), k);
    }
  }

  /** The first edge of a walk over dependents is followed by the walk out of the
      atom it arrives at. */
  lemma FirstEdgeSubtree(n: nat, m: map<AtomId, Mounted>, es: seq<Edge>, e: Edge, tail: seq<Edge>)
    requires Upward(n, m) && es == [e] + Walk(n, m, e.to) + tail
    ensures SubtreeAt(n, m, es, 0)
  {
    var wt := Walk(n, m, e.to);
    Middle(es, [e], wt, tail, 0, wt);
  }

  /** A walk that follows an arrival in the middle part of a concatenation
      follows it in the whole. */
  lemma SubtreeShift(n: nat, m: map<AtomId, Mounted>, es: seq<Edge>, x: seq<Edge>, y: seq<Edge>, z: seq<Edge>, i: nat)
    requires es == x + y + z && SubtreeAt(n, m, y, i)
    ensures SubtreeAt(n, m, es, |x| + i)
  {
    var w := Walk(n, m, y[i].to);
    Middle(es, x, y, z, i, []);
    Middle(es, x, y, z, i + 1, w);
  }

  lemma {:induction false} InnerSubtree(n: nat, m: map<AtomId, Mounted>, t: AtomId, es: seq<Edge>, x: seq<Edge>, tail: seq<Edge>, k: nat)
    requires Upward(n, m) && |x| == 1 && es == x + Walk(n, m, t) + tail && 0 < k <= |Walk(n, m, t)|
    ensures SubtreeAt(n, m, es, k)
    decreases n - t, 2, 0, 0
  {
    WalkSubtree(n, m, t, k - 1);
    SubtreeShift(n, m, es, x, Walk(n, m, t), tail, k - 1);
  }

  /** `WalkEachSubtree` for an arrival after the walk out of the first dependent. */
  lemma {:induction false} LaterSubtree(n: nat, m: map<AtomId, Mounted>, a: AtomId, ts: seq<AtomId>, k: nat)
    requires Upward(n, m) && Above(n, a, ts)
    requires ts != [] && ts[0] != a && |Walk(n, m, ts[0])| < k < |WalkEach(n, m, a, ts)|
    ensures SubtreeAt(n, m, WalkEach(n, m, a, ts), k)
    decreases n - a, 0, |ts|, 0
  {
    var x := [Edge(a, ts[0])] + Walk(n, m, ts[0]);
    var tail := WalkEach(n, m, a, ts[1..]);
    WalkEachFirst(n, m, a, ts);
    var i: nat := k - |x|;
    assert |x| + i == k && i < |tail|;
    WalkEachSubtree(n, m, a, ts[1..], i);
    SubtreeSuffix(n, m, WalkEach(n, m, a, ts), x, tail, i, k);
  }

  /** `SubtreeShift` with nothing after the part the arrival is in. */
  lemma SubtreeSuffix(n: nat, m: map<AtomId, Mounted>, es: seq<Edge>, x: seq<Edge>, y: seq<Edge>, i: nat, k: nat)
    requires es == x + y && SubtreeAt(n, m, y, i) && k == |x| + i
    ensures SubtreeAt(n, m, es, k)
  {
    assert es == x + y + [];
    SubtreeShift(n, m, es, x, y, [], i);
  }

  /** The walk over `ts` starts with the edge to `ts[0]` and the walk out of it. */
  lemma WalkEachFirst(n: nat, m: map<AtomId, Mounted>, a: AtomId, ts: seq<AtomId>)
    requires Upward(n, m) && Above(n, a, ts) && ts != [] && ts[0] != a
    ensures Above(n, a, ts[1..])
    ensures WalkEach(n, m, a, ts) == [Edge(a, ts[0])] + Walk(n, m, ts[0]) + WalkEach(n, m, a, ts[1..])
  {
  }

  /** Every edge of the walk out of `a` arrives at an atom above `a`. */
  lemma {:induction false} WalkAbove(n: nat, m: map<AtomId, Mounted>, a: AtomId)
    requires Upward(n, m)
    ensures forall k | 0 <= k < |Walk(n, m, a)| :: a < Walk(n, m, a)[k].to
    decreases n - a, 1, 0
  {
    WalkEachAbove(n, m, a, DependentsOf(m, a));
  }

  lemma {:induction false} WalkEachAbove(n: nat, m: map<AtomId, Mounted>, a: AtomId, ts: seq<AtomId>)
    requires Upward(n, m) && Above(n, a, ts)
    ensures forall k | 0 <= k < |WalkEach(n, m, a, ts)| :: a < WalkEach(n, m, a, ts)[k].to
    decreases n - a, 0, |ts|
  {
    if ts != [] {
      var es := WalkEach(n, m, a, ts);
      var tail := WalkEach(n, m, a, ts[1..]);
      WalkEachAbove(n, m, a, ts[1..]);
      if ts[0] != a {
        WalkAbove(n, m, ts[0]);
        assert es == [Edge(a, ts[0])] + Walk(n, m, ts[0]) + tail;
      } else {
        assert es == tail;
      }
    }
  }

  lemma {:induction false} WalkEachHasEdge(n: nat, m: map<AtomId, Mounted>, a: AtomId, ts: seq<AtomId>, d: AtomId)
    requires Upward(n, m)
    requires Above(n, a, ts)
    requires d in ts && d != a
    ensures Edge(a, d) in WalkEach(n, m, a, ts)
    decreases |ts|
  {
    var tail := WalkEach(n, m, a, ts[1..]);
    if ts[0] == d {
      assert WalkEach(n, m, a, ts) == [Edge(a, d)] + Walk(n, m, d) + tail;
    } else {
      WalkEachHasEdge(n, m, a, ts[1..], d);
      var here := WalkEach(n, m, a, ts)[..|WalkEach(n, m, a, ts)| - |tail|];
      assert WalkEach(n, m, a, ts) == here + tail;
    }
  }

  /** The walk out of an atom follows the edge to each of its mounted dependents. */
  lemma WalkHasEdge(n: nat, m: map<AtomId, Mounted>, a: AtomId, d: AtomId)
    requires Upward(n, m)
    requires d in DependentsOf(m, a) && d != a
    ensures Edge(a, d) in Walk(n, m, a)
  {
    WalkEachHasEdge(n, m, a, DependentsOf(m, a), d);
  }

  /** After any arrival at `p`, every mounted dependent of `p` arrives too. */
  lemma ArrivesAfter(n: nat, m: map<AtomId, Mounted>, root: AtomId, k: nat)
    requires Upward(n, m)
    requires k < |Walk(n, m, root)|
    ensures var es := Walk(n, m, root);
            forall d | d in DependentsOf(m, es[k].to) && d != es[k].to :: d in Targets(es[k..])
  {
    var es := Walk(n, m, root);
    var p := es[k].to;
    WalkSubtree(n, m, root, k);
    var w := Walk(n, m, p);
    forall d | d in DependentsOf(m, p) && d != p
      ensures d in Targets(es[k..])
    {
      WalkHasEdge(n, m, p, d);
      var q :| 0 <= q < |w| && w[q] == Edge(p, d);
      assert es[k..][q + 1] == es[k + 1..k + 1 + |w|][q];
    }
  }

  // ---------------------------------------------------------------------------
  // What `recomputeDependents` guarantees

  /** The dependents `recomputeDependents(atom)` settles are the targets of the
      walk out of `atom`, in the order of their last arrival, and every dirty count
      ends at zero. */
  lemma PropagationFollowsWalk(reg: Registry, s: Store, atom: AtomId)
    requires Wf(reg, s) && atom < |reg|
    ensures Upward(|reg|, s.mounted)
    ensures Propagation(reg, s, atom).settled == LastArrivals(Walk(|reg|, s.mounted, atom))
    ensures var es := Walk(|reg|, s.mounted, atom);
            forall k | 0 <= k < |es| :: DirtyCount(Propagation(reg, s, atom).mk, es[k].to) == 0
  {
    var m := s.mounted;
    var n := |reg|;
    WfUpward(reg, s);
    var es := Walk(n, m, atom);
    var mk := Loop1(n, m, atom, Marks(map[], map[]));
    forall k | 0 <= k < |es|
      ensures CountOf(mk.dirty, es[k].to) == Arrivals(es, es[k].to)
    {
      Loop1Counts(n, m, atom, es[k].to);
    }
    var p0 := Pass(s, mk, []);
    Loop2Walks(reg, p0, atom);
    SettleAllTally(reg, p0, es);
    TickAllTrace(TallyOf(p0), es);
    TickAllClears(TallyOf(p0), es);
    assert [] + LastArrivals(es) == LastArrivals(es);
  }

  /** Settling in the order of last arrival reaches exactly the atoms reachable
      through mounted dependents, each once, never the changed atom itself. */
  lemma SettledAreReachable(n: nat, m: map<AtomId, Mounted>, atom: AtomId)
    requires Upward(n, m)
    ensures var es := Walk(n, m, atom); var tr := LastArrivals(es);
            && NoDuplicates(tr)
            && (forall d :: d in tr <==> d in Targets(es))
            && atom !in tr
            && (forall d | d in DependentsOf(m, atom) && d != atom :: d in tr)
  {
    var es := Walk(n, m, atom);
    var tr := LastArrivals(es);
    LastArrivalsDistinct(es);
    forall d
      ensures d in tr <==> d in Targets(es)
    {
      LastArrivalsTargets(es, d);
    }
    WalkAbove(n, m, atom);
    forall d | d in DependentsOf(m, atom) && d != atom
      ensures d in tr
    {
      WalkHasEdge(n, m, atom, d);
    }
  }

  /** No atom is settled before an atom it depends on. */
  lemma SettledInOrder(n: nat, m: map<AtomId, Mounted>, atom: AtomId)
    requires Upward(n, m)
    ensures var tr := LastArrivals(Walk(n, m, atom));
            forall i, j | 0 <= i < j < |tr| :: tr[i] !in DependentsOf(m, tr[j])
  {
    var es := Walk(n, m, atom);
    var tr := LastArrivals(es);
    LastArrivalsDistinct(es);
    forall i, j | 0 <= i < j < |tr|
      ensures tr[i] !in DependentsOf(m, tr[j])
    {
      var k := LastArrivalsOrder(es, i, j);
      ArrivesAfter(n, m, atom, k);
    }
  }

  /** Settling an atom is always followed by settling all of its dependents. */
  lemma SettledClosed(n: nat, m: map<AtomId, Mounted>, atom: AtomId)
    requires Upward(n, m)
    ensures var tr := LastArrivals(Walk(n, m, atom));
            forall j, d | 0 <= j < |tr| && d in DependentsOf(m, tr[j]) && d != tr[j] :: d in tr
  {
    var es := Walk(n, m, atom);
    var tr := LastArrivals(es);
    forall j, d | 0 <= j < |tr| && d in DependentsOf(m, tr[j]) && d != tr[j]
      ensures d in tr
    {
      LastArrivalsTargets(es, tr[j]);
      var k :| 0 <= k < |es| && Targets(es)[k] == tr[j];
      ArrivesAfter(n, m, atom, k);
      TargetsSuffix(es, k);
      LastArrivalsTargets(es, d);
    }
  }

  /** A settling order `tr` is glitch-free for a change of `atom`: it settles
      exactly the atoms `reached`, each once, never `atom` itself, including every
      dependent of `atom`; no atom is settled before an atom it depends on, and the
      dependents of a settled atom are settled too. */
  ghost predicate GlitchFree(m: map<AtomId, Mounted>, atom: AtomId, tr: seq<AtomId>, reached: seq<AtomId>) {
    && NoDuplicates(tr)
    && (forall d :: d in tr <==> d in reached)
    && atom !in tr
    && (forall d | d in DependentsOf(m, atom) && d != atom :: d in tr)
    && (forall i, j | 0 <= i < j < |tr| :: tr[i] !in DependentsOf(m, tr[j]))
    && (forall j, d | 0 <= j < |tr| && d in DependentsOf(m, tr[j]) && d != tr[j] :: d in tr)
  }

  lemma LastArrivalsGlitchFree(n: nat, m: map<AtomId, Mounted>, atom: AtomId)
    requires Upward(n, m)
    ensures GlitchFree(m, atom, LastArrivals(Walk(n, m, atom)), Targets(Walk(n, m, atom)))
  {
    SettledAreReachable(n, m, atom);
    SettledInOrder(n, m, atom);
    SettledClosed(n, m, atom);
  }

  /** `recomputeDependents(atom)` is glitch-free: the dependents it settles — the
      only ones it may re-read — are exactly those reachable from `atom` through
      mounted dependents, in an order that never settles an atom before one it
      depends on; and every dirty count ends at zero. */
  lemma PropagationSettlesInOrder(reg: Registry, s: Store, atom: AtomId)
    requires Wf(reg, s) && atom < |reg|
    ensures Upward(|reg|, s.mounted)
    ensures var r := Propagation(reg, s, atom);
            && GlitchFree(s.mounted, atom, r.settled, Targets(Walk(|reg|, s.mounted, atom)))
            && (forall j | 0 <= j < |r.settled| :: DirtyCount(r.mk, r.settled[j]) == 0)
  {
    PropagationFollowsWalk(reg, s, atom);
    LastArrivalsGlitchFree(|reg|, s.mounted, atom);
    var es := Walk(|reg|, s.mounted, atom);
    var r := Propagation(reg, s, atom);
    forall j | 0 <= j < |r.settled|
      ensures DirtyCount(r.mk, r.settled[j]) == 0
    {
      LastArrivalsTargets(es, r.settled[j]);
      var k :| 0 <= k < |es| && Targets(es)[k] == r.settled[j];
    }
  }
  // ---------------------------------------------------------------------------
  // What the second pass re-reads

  /** A dependent is re-read only when it is settled — its count reaches zero —
      and its changed-set is not empty. One found unchanged, or not re-read, leaves
      every changed-set. */
  lemma SettleRereads(reg: Registry, p: Pass, d: AtomId)
    requires Wf(reg, p.s) && d < |reg|
    ensures var r := Settle(reg, p, d);
            var rereads := DirtyCount(p.mk, d) <= 1 && |ChangedFrom(p.mk, d)| > 0;
            && (rereads ==> r.s == Reread(reg, p.s, d).0 && r.settled == p.settled + [d])
            && (!rereads ==> r.s == p.s)
            && (DirtyCount(p.mk, d) > 1 || (rereads && Reread(reg, p.s, d).1) ==>
                  forall b :: ChangedFrom(r.mk, b) == ChangedFrom(p.mk, b))
            && (DirtyCount(p.mk, d) <= 1 && !(rereads && Reread(reg, p.s, d).1) ==>
                  forall b :: ChangedFrom(r.mk, b) == ChangedFrom(p.mk, b) - {d})
  {
  }

  /** What one step of the second pass does to the dependent `d` it reaches: whether
      `d` is settled, whether it is re-read, and whether the re-read finds it changed. */
  datatype SettleStep = SettleStep(d: AtomId, settles: bool, rereads: bool, changed: bool)

  function StepOf(reg: Registry, p: Pass, d: AtomId): SettleStep
    requires Wf(reg, p.s) && d < |reg|
  {
    var settles := DirtyCount(p.mk, d) <= 1;
    var rereads := settles && |ChangedFrom(p.mk, d)| > 0;
    SettleStep(d, settles, rereads, rereads && Reread(reg, p.s, d).1)
  }

  /** The steps of settling along `es`, one per edge. */
  function Steps(reg: Registry, p: Pass, es: seq<Edge>): (r: seq<SettleStep>)
    requires Wf(reg, p.s) && InRange(|reg|, es)
    ensures |r| == |es| && forall k | 0 <= k < |es| :: r[k].d == es[k].to
    decreases |es|
  {
    if es == [] then [] else [StepOf(reg, p, es[0].to)] + Steps(reg, Settle(reg, p, es[0].to), es[1..])
  }

  /** The dependents settled before step `i` and not found changed: each has left
      every changed-set by then. */
  ghost function Discarded(tr: seq<SettleStep>, i: nat): set<AtomId>
    requires i <= |tr|
  {
    set j | 0 <= j < i && tr[j].settles && !tr[j].changed :: tr[j].d
  }

  /** The edges before `i` arrive in range, and so does edge `i`. */
  lemma {:induction false} InRangePrefix(n: nat, es: seq<Edge>, i: nat)
    requires InRange(n, es) && i < |es|
    ensures InRange(n, es[..i]) && es[i].to < n
    decreases i
  {
    if i > 0 {
      InRangePrefix(n, es[1..], i - 1);
      assert es[..i][0] == es[0] && es[..i][1..] == es[1..][..i - 1];
    }
  }

  /** Step `i` is the step `Settle` takes from the pass the first `i` edges left. */
  lemma {:induction false} StepsAt(reg: Registry, p: Pass, es: seq<Edge>, i: nat)
    requires Wf(reg, p.s) && InRange(|reg|, es) && i < |es|
    requires InRange(|reg|, es[..i]) && es[i].to < |reg|
    ensures Steps(reg, p, es)[i] == StepOf(reg, SettleAll(reg, p, es[..i]), es[i].to)
    decreases i
  {
    if i > 0 {
      var p1 := Settle(reg, p, es[0].to);
      InRangePrefix(|reg|, es[1..], i - 1);
      StepsAt(reg, p1, es[1..], i - 1);
      assert es[..i][0] == es[0] && es[..i][1..] == es[1..][..i - 1];
      assert SettleAll(reg, p, es[..i]) == SettleAll(reg, p1, es[1..][..i - 1]);
      assert Steps(reg, p, es)[i] == Steps(reg, p1, es[1..])[i - 1];
    }
  }

  /** Changed-sets only shrink along the second pass, and a dependent settled
      without being found changed leaves all of them: so a dependent that is
      re-read still has in its changed-set an atom of its first changed-set that
      was not discarded before its turn. */
  lemma {:induction false} SettleAllKeepsSource(reg: Registry, p: Pass, es: seq<Edge>, i: nat)
    requires Wf(reg, p.s) && InRange(|reg|, es) && i < |es|
    ensures Steps(reg, p, es)[i].rereads ==>
              exists x :: x in ChangedFrom(p.mk, es[i].to) && x !in Discarded(Steps(reg, p, es), i)
    decreases i
  {
    var tr := Steps(reg, p, es);
    var d0 := es[0].to;
    if i == 0 {
      if tr[0].rereads {
        assert ChangedFrom(p.mk, d0) != {};
        var x :| x in ChangedFrom(p.mk, d0);
        assert x !in Discarded(tr, 0);
      }
    } else if tr[i].rereads {
      var p1 := Settle(reg, p, d0);
      var tr1 := Steps(reg, p1, es[1..]);
      SettleRereads(reg, p, d0);
      SettleAllKeepsSource(reg, p1, es[1..], i - 1);
      assert tr1[i - 1] == tr[i];
      var x :| x in ChangedFrom(p1.mk, es[i].to) && x !in Discarded(tr1, i - 1);
      var d0s := if tr[0].settles && !tr[0].changed then {d0} else {};
      forall y | y in Discarded(tr, i)
        ensures y in Discarded(tr1, i - 1) + d0s
      {
        var j :| 0 <= j < i && tr[j].settles && !tr[j].changed && tr[j].d == y;
        if j > 0 {
          assert tr1[j - 1] == tr[j];
        }
      }
      assert x in ChangedFrom(p.mk, es[i].to) && x !in Discarded(tr, i);
    }
  }

  /** In `recomputeDependents(atom)`, a dependent every one of whose sources — the
      atoms it is reached from directly — was settled before its turn and not found
      changed is not re-read: that step of the second pass leaves the store as it is. */
  lemma PropagationSkipsUnchanged(reg: Registry, s: Store, atom: AtomId, i: nat)
    requires Wf(reg, s) && atom < |reg| && Upward(|reg|, s.mounted)
    requires i < |Walk(|reg|, s.mounted, atom)|
    ensures var es := Walk(|reg|, s.mounted, atom);
            var p := Pass(s, Loop1(|reg|, s.mounted, atom, Marks(map[], map[])), []);
            && Propagation(reg, s, atom) == SettleAll(reg, p, es)
            && InRange(|reg|, es[..i]) && es[i].to < |reg|
            && ((forall x | x in Sources(es, es[i].to) :: x in Discarded(Steps(reg, p, es), i)) ==>
                  Settle(reg, SettleAll(reg, p, es[..i]), es[i].to).s == SettleAll(reg, p, es[..i]).s)
  {
    var es := Walk(|reg|, s.mounted, atom);
    var p := Pass(s, Loop1(|reg|, s.mounted, atom, Marks(map[], map[])), []);
    Loop2Walks(reg, p, atom);
    InRangePrefix(|reg|, es, i);
    StepsAt(reg, p, es, i);
    SettleAllKeepsSource(reg, p, es, i);
    Loop1Counts(|reg|, s.mounted, atom, es[i].to);
    SettleRereads(reg, SettleAll(reg, p, es[..i]), es[i].to);
  }

  /** Every atom whose record differs between `s` and `s'` is one of `tr` or is
      numbered below one of them. */
  ghost predicate ChangedBelow(s: Store, s': Store, tr: seq<AtomId>) {
    forall b | GetState(s', b) != GetState(s, b) :: exists j | 0 <= j < |tr| :: b <= tr[j]
  }

  lemma ChangedBelowTrans(s0: Store, s1: Store, s2: Store, t0: seq<AtomId>, t1: seq<AtomId>, t2: seq<AtomId>)
    requires t0 <= t1 && t1 <= t2
    requires ChangedBelow(s0, s1, t1[|t0|..]) && ChangedBelow(s1, s2, t2[|t1|..])
    ensures ChangedBelow(s0, s2, t2[|t0|..])
  {
    forall b | GetState(s2, b) != GetState(s0, b)
      ensures exists j | 0 <= j < |t2[|t0|..]| :: b <= t2[|t0|..][j]
    {
      if GetState(s1, b) != GetState(s0, b) {
        var j :| 0 <= j < |t1[|t0|..]| && b <= t1[|t0|..][j];
        assert t2[|t0|..][j] == t1[|t0|..][j];
      } else {
        var j :| 0 <= j < |t2[|t1|..]| && b <= t2[|t1|..][j];
        assert t2[|t0|..][j + |t1| - |t0|] == t2[|t1|..][j];
      }
    }
  }

  /** One step of the second pass changes only the dependent it settles and atoms
      numbered below it, which are the only ones its read function reads. */
  lemma SettleChangesBelow(reg: Registry, p: Pass, d: AtomId)
    requires Wf(reg, p.s) && d < |reg|
    ensures var r := Settle(reg, p, d);
            p.settled <= r.settled && ChangedBelow(p.s, r.s, r.settled[|p.settled|..])
  {
    SettleRereads(reg, p, d);
    var r := Settle(reg, p, d);
    if DirtyCount(p.mk, d) <= 1 && |ChangedFrom(p.mk, d)| > 0 {
      assert r.settled[|p.settled|..] == [d];
      forall b: AtomId | GetState(r.s, b) != GetState(p.s, b)
        ensures exists j | 0 <= j < |r.settled[|p.settled|..]| :: b <= r.settled[|p.settled|..][j]
      {
        assert b <= d;
        assert r.settled[|p.settled|..][0] == d;
      }
    }
  }

  lemma {:induction false} SettleAllChangesBelow(reg: Registry, p: Pass, es: seq<Edge>)
    requires Wf(reg, p.s) && InRange(|reg|, es)
    ensures var r := SettleAll(reg, p, es);
            p.settled <= r.settled && ChangedBelow(p.s, r.s, r.settled[|p.settled|..])
    decreases |es|
  {
    if es != [] {
      var p1 := Settle(reg, p, es[0].to);
      SettleChangesBelow(reg, p, es[0].to);
      SettleAllChangesBelow(reg, p1, es[1..]);
      var r := SettleAll(reg, p1, es[1..]);
      ChangedBelowTrans(p.s, p1.s, r.s, p.settled, p1.settled, r.settled);
    }
  }

  /** `recomputeDependents(atom)` changes the record of no atom other than the
      dependents it settles and atoms numbered below one of them, the only atoms
      their read functions can reach. */
  lemma PropagationChangesBelowSettled(reg: Registry, s: Store, atom: AtomId)
    requires Wf(reg, s) && atom < |reg|
    ensures ChangedBelow(s, Propagation(reg, s, atom).s, Propagation(reg, s, atom).settled)
  {
    WfUpward(reg, s);
    var mk := Loop1(|reg|, s.mounted, atom, Marks(map[], map[]));
    var p := Pass(s, mk, []);
    Loop2Walks(reg, p, atom);
    SettleAllChangesBelow(reg, p, Walk(|reg|, s.mounted, atom));
    var r := Propagation(reg, s, atom);
    assert r.settled[|p.settled|..] == r.settled;
  }
}

=== FILE: read.dfy ===
/** `readAtomState`: the memoised read of an atom, and `readAtom` (the store's `get`).

    A cached record is reused when, after the dependencies that are not mounted
    have been brought up to date, every recorded dependency is the atom itself,
    still has the very record that was read, or has an equal value that is not a
    promise. Otherwise the read function runs again: it reads its inputs in order
    through the getter, and the first input holding an error stops it, that error
    becoming the atom's state.
 */
module Read {
  import opened Values
  import opened Atoms
  import opened StoreState
  import opened Invariants

  /** The memo test of `readAtomState` for one recorded dependency. */
  predicate DepFresh(s: Store, atom: AtomId, d: Dep) {
    || d.atom == atom
    || (d.atom in s.states && s.states[d.atom].id == d.seen.id)
    || (d.atom in s.states && !HasPromiseValue(s.states[d.atom].content)
        && IsEqualValue(s.states[d.atom].content, d.seen.content))
  }

  predicate AllFresh(s: Store, atom: AtomId, deps: seq<Dep>) {
    forall k | 0 <= k < |deps| :: DepFresh(s, atom, deps[k])
  }

  /** Records of atoms with ids `lo` and above are neither added, removed nor replaced. */
  ghost predicate Untouched(s: Store, s': Store, lo: nat) {
    forall b | b >= lo :: (b in s'.states <==> b in s.states) && (b in s.states ==> s'.states[b] == s.states[b])
  }

  /** What a read may change: records of atoms below `lo`, the pending map and the
      identity counter; never the mounted map or the event log. A record may be
      replaced but is never removed. */
  ghost predicate ReadFrame(s: Store, s': Store, lo: nat) {
    && s'.mounted == s.mounted
    && s'.log == s.log
    && s'.next >= s.next
    && s.states.Keys <= s'.states.Keys
    && Untouched(s, s', lo)
  }

  /** The values the getter handed out, or the error that stopped the read function. */
  datatype Gathered = AllRead(values: seq<Value>) | Aborted(e: Value)

  /** `readAtomState`: returns the store and the atom's current record. */
  function ReadAtomState(reg: Registry, s: Store, atom: AtomId): (r: (Store, AtomState))
    requires Wf(reg, s) && atom < |reg|
    ensures Wf(reg, r.0)
    ensures atom in r.0.states && r.0.states[atom] == r.1
    ensures ReadFrame(s, r.0, atom + 1)
    decreases atom, 2, 0
  {
    if atom in s.states then
      var cached := s.states[atom];
      var s1 := RefreshDeps(reg, s, atom, cached.deps);
      if AllFresh(s1, atom, cached.deps) then (s1, cached)
      else Recompute(reg, s1, atom)
    else
      Recompute(reg, s, atom)
  }

  /** The first loop of `readAtomState`: read every recorded dependency that is
      neither the atom itself nor mounted. */
  function RefreshDeps(reg: Registry, s: Store, atom: AtomId, deps: seq<Dep>): (s': Store)
    requires Wf(reg, s) && atom < |reg| && DepsWf(reg, atom, deps)
    ensures Wf(reg, s')
    ensures ReadFrame(s, s', atom)
    decreases atom, 0, |deps|
  {
    if deps == [] then s
    else
      var a := deps[0].atom;
      ReadsOrSelfBelow(reg, atom, a);
      var s1 := if a != atom && a !in s.mounted then ReadAtomState(reg, s, a).0 else s;
      RefreshDeps(reg, s1, atom, deps[1..])
  }

  /** Run the read function of `atom` and install what it produced. */
  function Recompute(reg: Registry, s: Store, atom: AtomId): (r: (Store, AtomState))
    requires Wf(reg, s) && atom < |reg|
    ensures Wf(reg, r.0)
    ensures atom in r.0.states && r.0.states[atom] == r.1
    ensures ReadFrame(s, r.0, atom + 1)
    ensures Settles(reg[atom].reader, Gather(reg, s, atom, Reads(reg, atom), [], []).2, r.1.content)
    decreases atom, 1, 0
  {
    var (s1, got, outcome) := Gather(reg, s, atom, Reads(reg, atom), [], []);
    match outcome
    case Aborted(e) =>
      SetAtomErrorKeepsWf(reg, s1, atom, e, Some(got));
      SetAtomError(s1, atom, e, Some(got))
    case AllRead(values) =>
      match Produce(reg[atom].reader, values)
      case Returns(v) =>
        SetAtomValueOrPromiseKeepsWf(reg, s1, atom, v, Some(got));
        SetAtomValueOrPromise(s1, atom, v, Some(got))
      case Throws(e) =>
        SetAtomErrorKeepsWf(reg, s1, atom, e, Some(got));
        SetAtomError(s1, atom, e, Some(got))
  }

  /** The getter handed out `values[k]` for the read `got[k]`: the content of the
      record it recorded, or the init of the atom itself when it had no record. */
  ghost predicate Agrees(reg: Registry, atom: AtomId, got: seq<Read>, values: seq<Value>) {
    && |got| == |values|
    && forall k | 0 <= k < |got| :: AgreesAt(reg, atom, got[k], values[k])
  }

  ghost predicate AgreesAt(reg: Registry, atom: AtomId, rd: Read, v: Value) {
    if rd.seen.Some? then rd.seen.value.content == Val(v)
    else rd.atom == atom && atom < |reg| && reg[atom].init == Some(v)
  }

  /** The content the outcome of a read function leads to: an error that stopped
      the getter, or that the function threw, becomes the error state; a returned
      promise is stored wrapped; any other value is stored as it is. */
  ghost predicate Settles(reader: Reader, outcome: Gathered, c: Content) {
    match outcome
    case Aborted(e) => c == Err(e)
    case AllRead(values) =>
      && (reader.ReadsSelf? ==> |values| == 1)
      && match Produce(reader, values)
         case Throws(e) => c == Err(e)
         case Returns(v) => StoredAs(c, v)
  }

  /** What the read function returns once the getter has handed it `values`. */
  function Produce(reader: Reader, values: seq<Value>): (p: Produced)
    requires reader.ReadsSelf? ==> |values| == 1
    ensures reader.ReadsSelf? ==> p == Returns(values[0])
  {
    match reader
    case ReadsSelf => Returns(values[0])
    case Derived(_, compute) => compute(values)
  }

  /** The getter, called for each atom in `rest` in turn; `got` is `nextDependencies`. */
  function Gather(reg: Registry, s: Store, atom: AtomId, rest: seq<AtomId>, got: seq<Read>, values: seq<Value>)
    : (r: (Store, seq<Read>, Gathered))
    requires Wf(reg, s) && atom < |reg|
    requires forall k | 0 <= k < |rest| :: ReadsOrSelf(reg, atom, rest[k])
    requires GotWf(reg, atom, got)
    ensures Wf(reg, r.0)
    ensures GotWf(reg, atom, r.1)
    ensures ReadFrame(s, r.0, atom)
    ensures r.2.AllRead? ==> |r.2.values| == |values| + |rest|
    decreases atom, 0, |rest|
  {
    if rest == [] then (s, got, AllRead(values))
    else
      var a := rest[0];
      ReadsOrSelfBelow(reg, atom, a);
      if a == atom then
        if atom in s.states then
          var st := s.states[atom];
          var got' := got + [Read(atom, Some(Snap(st)))];
          match st.content
          case Val(v) => Gather(reg, s, atom, rest[1..], got', values + [v])
          case Err(e) => (s, got', Aborted(e))
        else if reg[atom].init.Some? then
          Gather(reg, s, atom, rest[1..], got + [Read(atom, None)], values + [reg[atom].init.value])
        else
          (s.(next := s.next + 1), got, Aborted(Fault(s.next, NoAtomInit)))
      else
        var (s1, st) := ReadAtomState(reg, s, a);
        var got' := got + [Read(a, Some(Snap(st)))];
        match st.content
        case Val(v) => Gather(reg, s1, atom, rest[1..], got', values + [v])
        case Err(e) => (s1, got', Aborted(e))
  }

  /** `readAtom`, the store's `get`: read the atom, then rethrow its error or return its value. */
  function ReadAtom(reg: Registry, s: Store, atom: AtomId): (r: (Store, Completion<Value>))
    requires Wf(reg, s) && atom < |reg|
    ensures Wf(reg, r.0) && ReadFrame(s, r.0, atom + 1)
    ensures atom in r.0.states
    ensures r.1.Abrupt? <==> r.0.states[atom].content.Err?
    ensures r.1.Abrupt? ==> r.0.states[atom].content == Err(r.1.thrown)
    ensures r.1.Normal? ==> r.0.states[atom].content == Val(r.1.value)
  {
    var (s1, st) := ReadAtomState(reg, s, atom);
    (s1, ReturnAtomValue(st.content))
  }

  lemma AgreesAppend(reg: Registry, atom: AtomId, got: seq<Read>, values: seq<Value>, rd: Read, v: Value)
    requires Agrees(reg, atom, got, values) && AgreesAt(reg, atom, rd, v)
    ensures Agrees(reg, atom, got + [rd], values + [v])
  {
    var got', values' := got + [rd], values + [v];
    forall k | 0 <= k < |got'| ensures AgreesAt(reg, atom, got'[k], values'[k]) {
      if k < |got| {
        assert got'[k] == got[k] && values'[k] == values[k];
      }
    }
  }

  lemma ReadAtomSeqAppend(got: seq<Read>, rd: Read)
    ensures ReadAtomSeq(got + [rd]) == ReadAtomSeq(got) + [rd.atom]
  {
  }

  /** What `Gather` promises when the read function gets to run: the values match
      the records read, and the atoms were read in order. */
  ghost predicate GatheredFrom(reg: Registry, atom: AtomId, got: seq<Read>, rest: seq<AtomId>, r: (Store, seq<Read>, Gathered)) {
    r.2.AllRead? ==> Agrees(reg, atom, r.1, r.2.values) && ReadAtomSeq(r.1) == ReadAtomSeq(got) + rest
  }

  /** The getter hands the read function each recorded state's value, in reading order. */
  lemma {:induction false} GatherAgrees(reg: Registry, s: Store, atom: AtomId, rest: seq<AtomId>, got: seq<Read>, values: seq<Value>)
    requires Wf(reg, s) && atom < |reg|
    requires forall k | 0 <= k < |rest| :: ReadsOrSelf(reg, atom, rest[k])
    requires GotWf(reg, atom, got)
    requires Agrees(reg, atom, got, values)
    ensures GatheredFrom(reg, atom, got, rest, Gather(reg, s, atom, rest, got, values))
    decreases |rest|, 1
  {
    if rest == [] {
      assert ReadAtomSeq(got) + rest == ReadAtomSeq(got);
    } else if rest[0] == atom {
      GatherAgreesSelf(reg, s, atom, rest, got, values);
    } else {
      GatherAgreesOther(reg, s, atom, rest, got, values);
    }
  }

  /** One read through the getter that yields `v`, followed by the rest. */
  lemma GatheredStep(reg: Registry, atom: AtomId, got: seq<Read>, rest: seq<AtomId>, rd: Read, r: (Store, seq<Read>, Gathered))
    requires rest != [] && rd.atom == rest[0]
    requires GatheredFrom(reg, atom, got + [rd], rest[1..], r)
    ensures GatheredFrom(reg, atom, got, rest, r)
  {
    ReadAtomSeqAppend(got, rd);
    assert rest == [rd.atom] + rest[1..];
  }

  /** The read function reading its own atom. */
  lemma {:induction false} GatherAgreesSelf(reg: Registry, s: Store, atom: AtomId, rest: seq<AtomId>, got: seq<Read>, values: seq<Value>)
    requires Wf(reg, s) && atom < |reg| && rest != [] && rest[0] == atom
    requires forall k | 0 <= k < |rest| :: ReadsOrSelf(reg, atom, rest[k])
    requires GotWf(reg, atom, got)
    requires Agrees(reg, atom, got, values)
    ensures GatheredFrom(reg, atom, got, rest, Gather(reg, s, atom, rest, got, values))
    decreases |rest|, 0
  {
    if atom in s.states {
      var st := s.states[atom];
      var rd := Read(atom, Some(Snap(st)));
      if st.content.Val? {
        AgreesAppend(reg, atom, got, values, rd, st.content.v);
        GatherAgrees(reg, s, atom, rest[1..], got + [rd], values + [st.content.v]);
        GatheredStep(reg, atom, got, rest, rd, Gather(reg, s, atom, rest[1..], got + [rd], values + [st.content.v]));
      }
    } else if reg[atom].init.Some? {
      var rd := Read(atom, None);
      var v := reg[atom].init.value;
      AgreesAppend(reg, atom, got, values, rd, v);
      GatherAgrees(reg, s, atom, rest[1..], got + [rd], values + [v]);
      GatheredStep(reg, atom, got, rest, rd, Gather(reg, s, atom, rest[1..], got + [rd], values + [v]));
    }
  }

  /** The read function reading another atom, which is read first. */
  lemma {:induction false} GatherAgreesOther(reg: Registry, s: Store, atom: AtomId, rest: seq<AtomId>, got: seq<Read>, values: seq<Value>)
    requires Wf(reg, s) && atom < |reg| && rest != [] && rest[0] != atom
    requires forall k | 0 <= k < |rest| :: ReadsOrSelf(reg, atom, rest[k])
    requires GotWf(reg, atom, got)
    requires Agrees(reg, atom, got, values)
    ensures GatheredFrom(reg, atom, got, rest, Gather(reg, s, atom, rest, got, values))
    decreases |rest|, 0
  {
    var a := rest[0];
    ReadsOrSelfBelow(reg, atom, a);
    var (s1, st) := ReadAtomState(reg, s, a);
    var rd := Read(a, Some(Snap(st)));
    if st.content.Val? {
      AgreesAppend(reg, atom, got, values, rd, st.content.v);
      GatherAgrees(reg, s1, atom, rest[1..], got + [rd], values + [st.content.v]);
      GatheredStep(reg, atom, got, rest, rd, Gather(reg, s1, atom, rest[1..], got + [rd], values + [st.content.v]));
    }
  }

  /** What stops the read function: an error held by the last record the getter
      read, or the fault the getter raised itself, with the last identity drawn. */
  predicate AbortedBy(got: seq<Read>, r: (Store, seq<Read>, Gathered)) {
    r.2.Aborted? ==>
      || (|r.1| > |got| && r.1[|r.1| - 1].seen.Some? && r.1[|r.1| - 1].seen.value.content == Err(r.2.e))
      || (r.0.next > 0 && r.2.e == Fault(r.0.next - 1, NoAtomInit))
  }

  /** The getter stops the read function at the first error: an error a recorded
      state holds, or a fresh "no atom init" Error when the atom reads itself
      without a state or an init. */
  lemma {:induction false} GatherAborts(reg: Registry, s: Store, atom: AtomId, rest: seq<AtomId>, got: seq<Read>, values: seq<Value>)
    requires Wf(reg, s) && atom < |reg|
    requires forall k | 0 <= k < |rest| :: ReadsOrSelf(reg, atom, rest[k])
    requires GotWf(reg, atom, got)
    ensures AbortedBy(got, Gather(reg, s, atom, rest, got, values))
    decreases |rest|, 1
  {
    if rest != [] {
      if rest[0] == atom {
        GatherAbortsSelf(reg, s, atom, rest, got, values);
      } else {
        GatherAbortsOther(reg, s, atom, rest, got, values);
      }
    }
  }

  /** Reading on after a read only makes `got` longer. */
  lemma AbortedByLonger(got: seq<Read>, rd: Read, r: (Store, seq<Read>, Gathered))
    requires AbortedBy(got + [rd], r)
    ensures AbortedBy(got, r)
  {
  }

  lemma {:induction false} GatherAbortsSelf(reg: Registry, s: Store, atom: AtomId, rest: seq<AtomId>, got: seq<Read>, values: seq<Value>)
    requires Wf(reg, s) && atom < |reg| && rest != [] && rest[0] == atom
    requires forall k | 0 <= k < |rest| :: ReadsOrSelf(reg, atom, rest[k])
    requires GotWf(reg, atom, got)
    ensures AbortedBy(got, Gather(reg, s, atom, rest, got, values))
    decreases |rest|, 0
  {
    if atom in s.states {
      var st := s.states[atom];
      var rd := Read(atom, Some(Snap(st)));
      if st.content.Val? {
        GatherAborts(reg, s, atom, rest[1..], got + [rd], values + [st.content.v]);
        AbortedByLonger(got, rd, Gather(reg, s, atom, rest[1..], got + [rd], values + [st.content.v]));
      }
    } else if reg[atom].init.Some? {
      var rd := Read(atom, None);
      var v := reg[atom].init.value;
      GatherAborts(reg, s, atom, rest[1..], got + [rd], values + [v]);
      AbortedByLonger(got, rd, Gather(reg, s, atom, rest[1..], got + [rd], values + [v]));
    }
  }

  lemma {:induction false} GatherAbortsOther(reg: Registry, s: Store, atom: AtomId, rest: seq<AtomId>, got: seq<Read>, values: seq<Value>)
    requires Wf(reg, s) && atom < |reg| && rest != [] && rest[0] != atom
    requires forall k | 0 <= k < |rest| :: ReadsOrSelf(reg, atom, rest[k])
    requires GotWf(reg, atom, got)
    ensures AbortedBy(got, Gather(reg, s, atom, rest, got, values))
    decreases |rest|, 0
  {
    var a := rest[0];
    ReadsOrSelfBelow(reg, atom, a);
    var (s1, st) := ReadAtomState(reg, s, a);
    var rd := Read(a, Some(Snap(st)));
    if st.content.Val? {
      GatherAborts(reg, s1, atom, rest[1..], got + [rd], values + [st.content.v]);
      AbortedByLonger(got, rd, Gather(reg, s1, atom, rest[1..], got + [rd], values + [st.content.v]));
    }
  }

  /** Every recorded dependency of `a` still passes the memo test of
      `readAtomState`, and so, recursively, do those of each dependency that is
      not mounted — the ones the read brings up to date first. */
  ghost predicate Consistent(s: Store, a: AtomId)
    decreases a
  {
    && a in s.states
    && forall k | 0 <= k < |s.states[a].deps| ::
         var d := s.states[a].deps[k];
         d.atom == a || (d.atom < a && DepFresh(s, a, d) && (d.atom !in s.mounted ==> Consistent(s, d.atom)))
  }

  /** The dependencies `readAtomState` brings up to date first need nothing done. */
  ghost predicate RefreshIdle(s: Store, a: AtomId, deps: seq<Dep>) {
    forall k | 0 <= k < |deps| :: deps[k].atom == a || deps[k].atom in s.mounted || (deps[k].atom < a && Consistent(s, deps[k].atom))
  }

  /** Memoisation: reading a consistent atom returns its cached record and changes
      nothing in the store — the read function does not run again. */
  lemma {:induction false} ConsistentReadIsNoOp(reg: Registry, s: Store, a: AtomId)
    requires Wf(reg, s) && a < |reg| && Consistent(s, a)
    ensures ReadAtomState(reg, s, a) == (s, s.states[a])
    decreases a, 1
  {
    RefreshConsistent(reg, s, a, s.states[a].deps);
  }

  /** The other half of memoisation: when the dependencies that are not mounted
      need nothing done but some recorded dependency fails the memo test, the read
      function runs again, and the new content is what it makes of the inputs. */
  lemma {:induction false} StaleReadRecomputes(reg: Registry, s: Store, a: AtomId)
    requires Wf(reg, s) && a < |reg| && a in s.states && RefreshIdle(s, a, s.states[a].deps)
    requires exists k | 0 <= k < |s.states[a].deps| :: !DepFresh(s, a, s.states[a].deps[k])
    ensures ReadAtomState(reg, s, a) == Recompute(reg, s, a)
    ensures Settles(reg[a].reader, Gather(reg, s, a, Reads(reg, a), [], []).2, ReadAtomState(reg, s, a).1.content)
    decreases a, 1
  {
    RefreshConsistent(reg, s, a, s.states[a].deps);
  }

  lemma {:induction false} RefreshConsistent(reg: Registry, s: Store, a: AtomId, deps: seq<Dep>)
    requires Wf(reg, s) && a < |reg| && DepsWf(reg, a, deps)
    requires RefreshIdle(s, a, deps)
    ensures RefreshDeps(reg, s, a, deps) == s
    decreases a, 0, |deps|
  {
    if deps != [] {
      var d := deps[0].atom;
      ReadsOrSelfBelow(reg, a, d);
      if d != a && d !in s.mounted {
        ConsistentReadIsNoOp(reg, s, d);
      }
      RefreshConsistent(reg, s, a, deps[1..]);
    }
  }
}

=== FILE: source.dfy ===
/** `validateSource`: the format check the avatar components run on a model
    source before loading it. An array is valid when it is not empty and every
    element is valid; a string when it names a `.glb` or `.fbx` file (possibly
    followed by a query) or is a base64 data URL of a binary glTF model; a Blob
    when its MIME type is that of binary glTF. Nothing else is valid.

    The file-ending pattern is `(.glb|.fbx|.fbx[?].*|.glb[?].*)$`, whose dots are
    not escaped: each matches any character but a line terminator, so the check
    also accepts a name such as `modelglb`. `Dot` selects between that reading
    and the intended one, where the dot is a literal `.`.
 */
module Source {
  /** The values `validateSource` distinguishes. */
  datatype Source = Items(items: seq<Source>) | Text(text: string) | BlobOf(mime: string) | Other

  /** What the first character of the file-ending pattern matches. */
  datatype Dot = AnyChar | LiteralDot

  /** The characters a JavaScript `.` does not match when the `s` flag is off. */
  predicate LineTerminator(c: char) {
    c == '\n' || c == '\r' || c == '\U{2028}' || c == '\U{2029}'
  }

  predicate NoLineTerminator(t: string) {
    forall k | 0 <= k < |t| :: !LineTerminator(t[k])
  }

  predicate DotMatches(dot: Dot, c: char) {
    match dot
    case AnyChar => !LineTerminator(c)
    case LiteralDot => c == '.'
  }

  const UploadPrefix: string := "data:application/octet-stream;base64,"
  const GltfPrefix: string := "data:model/gltf-binary;base64,"
  const GltfMime: string := "model/gltf-binary"

  /** The reading of the file-ending pattern, position by position: a character
      the dot matches, then `glb` or `fbx`, then either the end of the string or
      a `?` followed by a tail without line terminators. */
  predicate EndingAt(s: string, i: nat, dot: Dot) {
    && i + 4 <= |s|
    && DotMatches(dot, s[i])
    && s[i + 1..i + 4] in {"glb", "fbx"}
    && (i + 4 == |s| || (s[i + 4] == '?' && NoLineTerminator(s[i + 5..])))
  }

  /** The pattern matches somewhere in `s`. */
  predicate FileEnding(s: string, dot: Dot) {
    exists i | 0 <= i <= |s| :: EndingAt(s, i, dot)
  }

  // ---------------------------------------------------------------------------
  // The matcher

  /** Where a greedy `.*` started at `j` stops: at the first line terminator, or
      at the end of the string. */
  function RunEnd(s: string, j: nat): (e: nat)
    requires j <= |s|
    ensures j <= e <= |s|
    ensures NoLineTerminator(s[j..e])
    ensures e < |s| ==> LineTerminator(s[e])
    decreases |s| - j
  {
    if j == |s| || LineTerminator(s[j]) then j
    else
      var e := RunEnd(s, j + 1);
      assert s[j..e] == [s[j]] + s[j + 1..e];
      e
  }

  /** One alternative of the pattern tried at position `i`: the dot, the
      extension, then `$` — or `[?]`, a greedy `.*`, then `$`. Backing the `.*`
      off to a shorter run never reaches the end, so `$` holds only if the
      greedy run does. */
  function Alternative(s: string, i: nat, dot: Dot, ext: string, query: bool): bool
    requires i <= |s|
  {
    && i + 4 <= |s| && DotMatches(dot, s[i]) && s[i + 1..i + 4] == ext
    && if query then i + 4 < |s| && s[i + 4] == '?' && RunEnd(s, i + 5) == |s| else i + 4 == |s|
  }

  /** The four alternatives, in the order the pattern lists them. */
  function MatchAt(s: string, i: nat, dot: Dot): bool
    requires i <= |s|
  {
    || Alternative(s, i, dot, "glb", false)
    || Alternative(s, i, dot, "fbx", false)
    || Alternative(s, i, dot, "fbx", true)
    || Alternative(s, i, dot, "glb", true)
  }

  lemma MatchAtIff(s: string, i: nat, dot: Dot)
    requires i <= |s|
    ensures MatchAt(s, i, dot) <==> EndingAt(s, i, dot)
  {
    if i + 4 < |s| {
      RunEndIff(s, i + 5);
      assert MatchAt(s, i, dot) <==>
        DotMatches(dot, s[i]) && s[i + 1..i + 4] in {"glb", "fbx"} && s[i + 4] == '?' && RunEnd(s, i + 5) == |s|;
    }
  }

  /** The greedy run reaches the end exactly when the rest has no line terminator. */
  lemma RunEndIff(s: string, j: nat)
    requires j <= |s|
    ensures RunEnd(s, j) == |s| <==> NoLineTerminator(s[j..])
  {
    var e := RunEnd(s, j);
    if e < |s| {
      assert s[j..][e - j] == s[e];
    }
  }

  /** `RegExp.prototype.test`: try every start position from `i` on, leftmost first. */
  function Search(s: string, i: nat, dot: Dot): (r: bool)
    requires i <= |s|
    ensures r <==> exists k | i <= k <= |s| :: EndingAt(s, k, dot)
    decreases |s| - i
  {
    MatchAtIff(s, i, dot);
    MatchAt(s, i, dot) || (i < |s| && Search(s, i + 1, dot))
  }

  /** `validateSource(source)`. */
  function ValidateSource(src: Source, dot: Dot): (ok: bool)
    ensures src.Items? ==> (ok <==> |src.items| > 0 && forall k | 0 <= k < |src.items| :: ValidateSource(src.items[k], dot))
    ensures src.Text? ==> (ok <==> FileEnding(src.text, dot) || UploadPrefix <= src.text || GltfPrefix <= src.text)
    ensures src.BlobOf? ==> (ok <==> src.mime == GltfMime)
    ensures src.Other? ==> !ok
    decreases src
  {
    match src
    case Items(xs) => |xs| > 0 && Every(xs, dot)
    case Text(s) =>
      Search(s, 0, dot) || UploadPrefix <= s || GltfPrefix <= s
    case BlobOf(mime) => mime == GltfMime
    case Other => false
  }

  /** `source.every(validateSource)`. */
  function Every(xs: seq<Source>, dot: Dot): (ok: bool)
    ensures ok <==> forall k | 0 <= k < |xs| :: ValidateSource(xs[k], dot)
    decreases xs
  {
    if xs == [] then true
    else
      assert forall k | 1 <= k < |xs| :: xs[k] == xs[1..][k - 1];
      ValidateSource(xs[0], dot) && Every(xs[1..], dot)
  }

  // ---------------------------------------------------------------------------
  // Properties

  /** A file name with either extension is accepted, with or without a query. */
  lemma FileNamesAccepted(name: string, ext: string, query: string, dot: Dot)
    requires ext in {".glb", ".fbx"} && NoLineTerminator(query)
    ensures ValidateSource(Text(name + ext), dot)
    ensures ValidateSource(Text(name + ext + "?" + query), dot)
  {
    var s := name + ext;
    assert s[|name|] == '.' && s[|name| + 1..|name| + 4] == ext[1..];
    assert EndingAt(s, |name|, dot);
    var t := name + ext + "?" + query;
    assert t[|name|] == '.' && t[|name| + 1..|name| + 4] == ext[1..] && t[|name| + 4] == '?';
    assert t[|name| + 5..] == query;
    assert EndingAt(t, |name|, dot);
  }

  /** An empty array is not a valid source, even though every element is. */
  lemma EmptyArrayRejected(dot: Dot)
    ensures !ValidateSource(Items([]), dot)
  {
  }

  /** As written, the unescaped dot lets a name without a dot through. */
  lemma AnyCharAcceptsNameWithoutDot()
    ensures ValidateSource(Text("modelglb"), AnyChar)
    ensures !ValidateSource(Text("modelglb"), LiteralDot)
  {
    var s := "modelglb";
    assert s[5..8] == "glb";
    assert EndingAt(s, 4, AnyChar);
    assert forall i | 0 <= i < |s| :: s[i] != '.';
  }

  /** With the dot taken literally, a string accepted by its ending ends in
      `.glb` or `.fbx`, or has one of them followed by a query. */
  lemma LiteralDotNeedsExtension(s: string)
    requires ValidateSource(Text(s), LiteralDot) && !(UploadPrefix <= s) && !(GltfPrefix <= s)
    ensures exists i :: ExtensionAt(s, i)
  {
    var i :| 0 <= i <= |s| && EndingAt(s, i, LiteralDot);
    assert s[i..i + 4] == [s[i]] + s[i + 1..i + 4];
    if s[i + 1..i + 4] == "glb" {
      assert s[i..i + 4] == ".glb";
    } else {
      assert s[i..i + 4] == ".fbx";
    }
    assert ExtensionAt(s, i);
  }

  /** `.glb` or `.fbx` at position `i`, ending the string or followed by `?`. */
  predicate ExtensionAt(s: string, i: nat) {
    i + 4 <= |s| && s[i..i + 4] in {".glb", ".fbx"} && (i + 4 == |s| || s[i + 4] == '?')
  }

  /** Every string the literal reading accepts, the pattern as written accepts too. */
  lemma LiteralDotIsStricter(src: Source)
    ensures ValidateSource(src, LiteralDot) ==> ValidateSource(src, AnyChar)
    decreases src
  {
    match src
    case Items(xs) =>
      forall k | 0 <= k < |xs| ensures ValidateSource(xs[k], LiteralDot) ==> ValidateSource(xs[k], AnyChar) {
        LiteralDotIsStricter(xs[k]);
      }
    case Text(s) =>
      if FileEnding(s, LiteralDot) {
        var i :| 0 <= i <= |s| && EndingAt(s, i, LiteralDot);
        assert EndingAt(s, i, AnyChar);
      }
    case BlobOf(_) =>
    case Other =>
  }
}

=== FILE: state.dfy ===
/** The store's per-atom records and the primitive transitions that install them:
    `setAtomState`, `updateDependencies`, `setAtomValue`, `setAtomValueOrPromise`
    and `setAtomError`.

    JavaScript compares state records by reference; here every record carries an
    `id` drawn from the store's counter `next`, and two records are the same
    object exactly when their ids agree. Maps and sets of the source iterate in
    insertion order, so they are sequences here, each atom listed at most once.
 */
module StoreState {
  import opened Values
  import opened Atoms

  /** What a dependency's record was when it was read: its identity and content. */
  datatype Snapshot = Snapshot(id: nat, content: Content)

  /** One entry of a record's dependency map. */
  datatype Dep = Dep(atom: AtomId, seen: Snapshot)

  /** An atom state: the dependency map `d` and either `v` or `e`. */
  datatype AtomState = AtomState(id: nat, deps: seq<Dep>, content: Content)

  function Snap(st: AtomState): Snapshot {
    Snapshot(st.id, st.content)
  }

  /** A mounted entry: listeners `l`, dependents `t`, and whether `onMount`
      returned an `onUnmount` (`u`). `serial` is the entry's object identity. */
  datatype Mounted = Mounted(serial: nat, listeners: seq<ListenerId>, dependents: seq<AtomId>, hasUnmount: bool)

  /** An entry of `pendingMap`: an atom and the state it had before its first
      update since the last flush. */
  datatype PendingEntry = PendingEntry(atom: AtomId, prev: Option<AtomState>)

  /** Calls the store makes into code outside it, in the order it makes them. */
  datatype Event =
    | MountHookRan(atom: AtomId)
    | UnmountHookRan(atom: AtomId)
    | ListenerCalled(atom: AtomId, listener: ListenerId)

  datatype Store = Store(
    states: map<AtomId, AtomState>,   // atomStateMap
    mounted: map<AtomId, Mounted>,    // mountedMap
    pending: seq<PendingEntry>,       // pendingMap
    next: nat,                        // source of incoming object identities
    log: seq<Event>)

  /** `Set.prototype.add` on an insertion-ordered set. */
  function SetAdd(xs: seq<nat>, x: nat): (r: seq<nat>)
    ensures forall y :: y in r <==> y in xs || y == x
    ensures x in xs ==> r == xs
    ensures NoDuplicates(xs) ==> NoDuplicates(r)
  {
    if x in xs then xs else xs + [x]
  }

  /** `Set.prototype.delete` on an insertion-ordered set. */
  function SetRemove(xs: seq<nat>, x: nat): (r: seq<nat>)
    ensures forall y :: y in r <==> y in xs && y != x
    ensures x !in xs ==> r == xs
    ensures NoDuplicates(xs) ==> NoDuplicates(r)
    decreases |xs|
  {
    if xs == [] then []
    else if xs[0] == x then SetRemove(xs[1..], x)
    else
      var rest := SetRemove(xs[1..], x);
      assert NoDuplicates(xs) ==> xs[0] !in xs[1..] by {
        if NoDuplicates(xs) {
          HeadNotInTail(xs);
        }
      }
      [xs[0]] + rest
  }

  lemma HeadNotInTail(xs: seq<nat>)
    requires xs != [] && NoDuplicates(xs)
    ensures xs[0] !in xs[1..]
  {
    forall k | 0 <= k < |xs| - 1
      ensures xs[1..][k] != xs[0]
    {
      assert xs[1..][k] == xs[k + 1];
    }
  }

  /** `createStore()`. */
  function EmptyStore(): (s: Store)
    ensures s.states == map[] && s.mounted == map[] && s.pending == [] && s.log == []
  {
    Store(map[], map[], [], 0, [])
  }

  function GetState(s: Store, a: AtomId): (r: Option<AtomState>)
    ensures r.Some? <==> a in s.states
    ensures r.Some? ==> r.value == s.states[a]
  {
    if a in s.states then Some(s.states[a]) else None
  }

  /** The atoms of a dependency map, in insertion order. */
  function DepAtoms(deps: seq<Dep>): (r: seq<AtomId>)
    ensures |r| == |deps|
    ensures forall k | 0 <= k < |deps| :: r[k] == deps[k].atom
  {
    if deps == [] then [] else [deps[0].atom] + DepAtoms(deps[1..])
  }

  /** `d.get(a)`. */
  function Lookup(deps: seq<Dep>, a: AtomId): (r: Option<Snapshot>)
    ensures r.Some? <==> a in DepAtoms(deps)
    ensures r.Some? ==> exists k | 0 <= k < |deps| :: deps[k].atom == a && deps[k].seen == r.value
  {
    if deps == [] then None
    else if deps[0].atom == a then Some(deps[0].seen)
    else Lookup(deps[1..], a)
  }

  predicate InPending(pending: seq<PendingEntry>, a: AtomId) {
    exists k | 0 <= k < |pending| :: pending[k].atom == a
  }

  /** `setAtomState`: install `st` for `a`; the pending map keeps the state `a` had
      before its first update since the last flush. */
  function SetAtomState(s: Store, a: AtomId, st: AtomState): (r: Store)
    ensures r.states == s.states[a := st]
    ensures r.mounted == s.mounted && r.next == s.next && r.log == s.log
    ensures InPending(s.pending, a) ==> r.pending == s.pending
    ensures !InPending(s.pending, a) ==> r.pending == s.pending + [PendingEntry(a, GetState(s, a))]
    ensures InPending(r.pending, a)
  {
    var pending := if InPending(s.pending, a) then s.pending else s.pending + [PendingEntry(a, GetState(s, a))];
    assert pending[|pending| - 1].atom == a || InPending(s.pending, a);
    s.(states := s.states[a := st], pending := pending)
  }

  /** A dependency recorded by the getter while a read function runs. `seen` is
      `None` for the atom's own entry recorded from its init, which
      `updateDependencies` replaces by the new record itself. */
  datatype Read = Read(atom: AtomId, seen: Option<Snapshot>)

  /** The atoms of a list of reads, in reading order. */
  function ReadAtomSeq(got: seq<Read>): (r: seq<AtomId>)
    ensures |r| == |got|
    ensures forall k | 0 <= k < |got| :: r[k] == got[k].atom
  {
    if got == [] then [] else [got[0].atom] + ReadAtomSeq(got[1..])
  }

  /** The `dependencies` map `updateDependencies` builds; `own` is the new record. */
  function ResolveReads(atom: AtomId, got: seq<Read>, own: Snapshot): (deps: seq<Dep>)
    ensures |deps| <= |got|
    ensures forall k | 0 <= k < |deps| :: deps[k].atom in ReadAtomSeq(got)
  {
    if got == [] then []
    else
      var rest := ResolveReads(atom, got[1..], own);
      assert ReadAtomSeq(got) == [got[0].atom] + ReadAtomSeq(got[1..]);
      if got[0].seen.Some? then [Dep(got[0].atom, got[0].seen.value)] + rest
      else if got[0].atom == atom then [Dep(atom, own)] + rest
      else rest
  }

  /** The record a read saw: its own, or `own` for the atom's read of its init. */
  function SeenBy(rd: Read, own: Snapshot): Snapshot {
    if rd.seen.Some? then rd.seen.value else own
  }

  /** `deps` is the map `updateDependencies` builds from the reads `got`: its keys
      are exactly the atoms read with a record, and the atom itself when it read
      its init; each entry holds the record its read saw, `own` for that init read. */
  ghost predicate Resolves(deps: seq<Dep>, atom: AtomId, got: seq<Read>, own: Snapshot) {
    && (forall a :: a in DepAtoms(deps) <==> a in ReadAtoms(atom, got))
    && (forall k | 0 <= k < |deps| :: exists j | 0 <= j < |got| :: got[j].atom == deps[k].atom && deps[k].seen == SeenBy(got[j], own))
  }

  lemma {:induction false} ResolveReadsResolves(atom: AtomId, got: seq<Read>, own: Snapshot)
    ensures Resolves(ResolveReads(atom, got, own), atom, got, own)
    decreases |got|
  {
    if got != [] {
      var deps := ResolveReads(atom, got, own);
      var rest := ResolveReads(atom, got[1..], own);
      ResolveReadsResolves(atom, got[1..], own);
      ReadAtomsCons(atom, got);
      if got[0].seen.Some? || got[0].atom == atom {
        var d := Dep(got[0].atom, SeenBy(got[0], own));
        assert deps == [d] + rest;
        assert DepAtoms(deps) == [d.atom] + DepAtoms(rest) by {
          assert deps[1..] == rest;
        }
        forall k | 0 <= k < |deps|
          ensures exists j | 0 <= j < |got| :: got[j].atom == deps[k].atom && deps[k].seen == SeenBy(got[j], own)
        {
          if k == 0 {
            assert got[0].atom == deps[0].atom && deps[0].seen == SeenBy(got[0], own);
          } else {
            assert deps[k] == rest[k - 1];
            var j :| 0 <= j < |got[1..]| && got[1..][j].atom == rest[k - 1].atom && rest[k - 1].seen == SeenBy(got[1..][j], own);
            assert got[j + 1] == got[1..][j];
          }
        }
      } else {
        assert deps == rest;
        forall k | 0 <= k < |deps|
          ensures exists j | 0 <= j < |got| :: got[j].atom == deps[k].atom && deps[k].seen == SeenBy(got[j], own)
        {
          var j :| 0 <= j < |got[1..]| && got[1..][j].atom == rest[k].atom && rest[k].seen == SeenBy(got[1..][j], own);
          assert got[j + 1] == got[1..][j];
        }
      }
    }
  }

  lemma ReadAtomsCons(atom: AtomId, got: seq<Read>)
    requires got != []
    ensures ReadAtoms(atom, got) ==
              (if got[0].seen.Some? || got[0].atom == atom then {got[0].atom} else {}) + ReadAtoms(atom, got[1..])
  {
    forall a | a in ReadAtoms(atom, got[1..])
      ensures a in ReadAtoms(atom, got)
    {
      var j :| 0 <= j < |got[1..]| && (got[1..][j].seen.Some? || got[1..][j].atom == atom) && got[1..][j].atom == a;
      assert got[j + 1] == got[1..][j];
    }
    forall a | a in ReadAtoms(atom, got) && a != got[0].atom
      ensures a in ReadAtoms(atom, got[1..])
    {
      var j :| 0 <= j < |got| && (got[j].seen.Some? || got[j].atom == atom) && got[j].atom == a;
      assert got[1..][j - 1] == got[j];
    }
  }

  /** The identity the new `dependencies` map gives atom `r.atom`, when it keeps it. */
  predicate SameIdentity(prev: seq<Dep>, atom: AtomId, r: Read) {
    && r.seen.Some?
    && Lookup(prev, r.atom).Some?
    && Lookup(prev, r.atom).value.id == r.seen.value.id
  }

  function ReadAtoms(atom: AtomId, got: seq<Read>): set<AtomId> {
    set k | 0 <= k < |got| && (got[k].seen.Some? || got[k].atom == atom) :: got[k].atom
  }

  /** `updateDependencies` decides to replace `d`: some entry is not the object
      `d` already holds (the new record never is), or the key sets differ — which,
      when every entry is already in `d`, is what the size test detects. */
  predicate DepsChanged(prev: seq<Dep>, atom: AtomId, got: seq<Read>) {
    || (exists k | 0 <= k < |got| :: (got[k].seen.Some? || got[k].atom == atom) && !SameIdentity(prev, atom, got[k]))
    || (set k | 0 <= k < |prev| :: prev[k].atom) != ReadAtoms(atom, got)
  }

  /** The dependency map of the record `setAtomValue`/`setAtomError` builds, given
      the map of the previous record. */
  function NextDeps(prev: seq<Dep>, atom: AtomId, got: Option<seq<Read>>, own: Snapshot): seq<Dep> {
    if got.Some? && DepsChanged(prev, atom, got.value) then ResolveReads(atom, got.value, own) else prev
  }

  function PrevDeps(prev: Option<AtomState>): seq<Dep> {
    if prev.Some? then prev.value.deps else []
  }

  /** `setAtomValue`. Returns the store and the record that is now the atom's state. */
  function SetAtomValue(s: Store, atom: AtomId, v: Value, got: Option<seq<Read>>): (r: (Store, AtomState))
    ensures atom in r.0.states && r.0.states[atom] == r.1
    ensures r.0.mounted == s.mounted && r.0.log == s.log && r.0.next >= s.next
    ensures forall b | b != atom :: (b in r.0.states <==> b in s.states) && (b in s.states ==> r.0.states[b] == s.states[b])
    // a write is suppressed exactly when the value is the same (or wraps the same
    // original promise) and the dependency map is kept
    ensures (atom in s.states && r == (s, s.states[atom])) <==>
              && atom in s.states
              && (IsEqualValue(s.states[atom].content, Val(v)) || IsEqualPromiseValue(s.states[atom].content, Val(v)))
              && !(got.Some? && DepsChanged(s.states[atom].deps, atom, got.value))
    // otherwise a new record holding the value (or, for a promise around the same
    // original promise, the promise already stored) is installed
    ensures (atom in s.states && r == (s, s.states[atom])) || (r.1.id == s.next && r.0 == SetAtomState(s.(next := s.next + 1), atom, r.1))
    ensures r.1.content == Val(v) || (atom in s.states && r.1.content == s.states[atom].content && IsEqualPromiseValue(r.1.content, Val(v)))
    // the record's dependency map: the one the reads built when it changed, with
    // the atom's own init read pointing at the record itself; otherwise the previous one
    ensures got.Some? && DepsChanged(PrevDeps(GetState(s, atom)), atom, got.value) ==> Resolves(r.1.deps, atom, got.value, Snap(r.1))
    ensures !(got.Some? && DepsChanged(PrevDeps(GetState(s, atom)), atom, got.value)) ==> r.1.deps == PrevDeps(GetState(s, atom))
  {
    var prev := GetState(s, atom);
    var incoming := Val(v);
    var same := !(got.Some? && DepsChanged(PrevDeps(prev), atom, got.value));
    if prev.Some? && IsEqualValue(prev.value.content, incoming) && same then
      (s, prev.value)
    else if prev.Some? && HasPromiseValue(prev.value.content) && HasPromiseValue(incoming)
         && IsEqualPromiseValue(prev.value.content, incoming) && same then
      (s, prev.value)
    else
      var content := if prev.Some? && HasPromiseValue(prev.value.content) && HasPromiseValue(incoming)
                        && IsEqualPromiseValue(prev.value.content, incoming)
                     then prev.value.content else incoming;
      var st := AtomState(s.next, NextDeps(PrevDeps(prev), atom, got, Snapshot(s.next, content)), content);
      if got.Some? then ResolveReadsResolves(atom, got.value, Snapshot(s.next, content)); (SetAtomState(s.(next := s.next + 1), atom, st), st)
      else (SetAtomState(s.(next := s.next + 1), atom, st), st)
  }

  /** The content that stores `v`: a promise is stored wrapped, any other value
      as it is. */
  predicate StoredAs(c: Content, v: Value) {
    if IsPromiseLike(v) then c.Val? && c.v.Wrapped? && c.v.orig == v else c == Val(v)
  }

  /** `setAtomValueOrPromise` (its synchronous part): a promise is wrapped in a new
      promise that remembers the original as `orig`. */
  function SetAtomValueOrPromise(s: Store, atom: AtomId, v: Value, got: Option<seq<Read>>): (r: (Store, AtomState))
    ensures atom in r.0.states && r.0.states[atom] == r.1
    ensures r.0.mounted == s.mounted && r.0.log == s.log && r.0.next >= s.next
    ensures forall b | b != atom :: (b in r.0.states <==> b in s.states) && (b in s.states ==> r.0.states[b] == s.states[b])
    ensures !IsPromiseLike(v) ==> r == SetAtomValue(s, atom, v, got)
    ensures StoredAs(r.1.content, v)
    ensures got.Some? && DepsChanged(PrevDeps(GetState(s, atom)), atom, got.value) ==> Resolves(r.1.deps, atom, got.value, Snap(r.1))
    ensures !(got.Some? && DepsChanged(PrevDeps(GetState(s, atom)), atom, got.value)) ==> r.1.deps == PrevDeps(GetState(s, atom))
  {
    if IsPromiseLike(v) then SetAtomValue(s.(next := s.next + 1), atom, Wrapped(s.next, v), got)
    else SetAtomValue(s, atom, v, got)
  }

  /** `setAtomError`. */
  function SetAtomError(s: Store, atom: AtomId, e: Value, got: Option<seq<Read>>): (r: (Store, AtomState))
    ensures atom in r.0.states && r.0.states[atom] == r.1
    ensures r.0.mounted == s.mounted && r.0.log == s.log && r.0.next >= s.next
    ensures forall b | b != atom :: (b in r.0.states <==> b in s.states) && (b in s.states ==> r.0.states[b] == s.states[b])
    ensures r.1.content == Err(e)
    // an error is suppressed exactly when it is the same error and the dependency map is kept
    ensures (atom in s.states && r == (s, s.states[atom])) <==>
              && atom in s.states && IsEqualError(s.states[atom].content, Err(e))
              && !(got.Some? && DepsChanged(s.states[atom].deps, atom, got.value))
    ensures (atom in s.states && r == (s, s.states[atom])) || (r.1.id == s.next && r.0 == SetAtomState(s.(next := s.next + 1), atom, r.1))
    ensures got.Some? && DepsChanged(PrevDeps(GetState(s, atom)), atom, got.value) ==> Resolves(r.1.deps, atom, got.value, Snap(r.1))
    ensures !(got.Some? && DepsChanged(PrevDeps(GetState(s, atom)), atom, got.value)) ==> r.1.deps == PrevDeps(GetState(s, atom))
  {
    var prev := GetState(s, atom);
    var same := !(got.Some? && DepsChanged(PrevDeps(prev), atom, got.value));
    if prev.Some? && IsEqualError(prev.value.content, Err(e)) && same then
      (s, prev.value)
    else
      var st := AtomState(s.next, NextDeps(PrevDeps(prev), atom, got, Snapshot(s.next, Err(e))), Err(e));
      if got.Some? then ResolveReadsResolves(atom, got.value, Snapshot(s.next, Err(e))); (SetAtomState(s.(next := s.next + 1), atom, st), st)
      else (SetAtomState(s.(next := s.next + 1), atom, st), st)
  }
}

=== FILE: store.dfy ===
/** The store's public surface: `createStore`, `getDefaultStore`, and `sub`
    (`subscribeAtom` and the unsubscribe function it returns). `get` is
    `Read.ReadAtom` and `set` is `Write.WriteAtom`.

    A subscription remembers the mounted entry it added its listener to, as the
    closure `sub` returns holds on to the `mounted` object: unsubscribing removes
    the listener from that entry only.
 */
module StoreApi {
  import opened Values
  import opened Atoms
  import opened StoreState
  import opened Invariants
  import opened Mount
  import opened Flush

  /** What `sub` hands back: the atom, the listener, and the identity of the
      mounted entry the listener was added to. */
  datatype Subscription = Subscription(atom: AtomId, listener: ListenerId, serial: nat)

  /** `listeners.add(listener)` on the mounted entry of `atom`. */
  function AddListener(reg: Registry, s: Store, atom: AtomId, listener: ListenerId): (r: Store)
    requires Wf(reg, s) && atom in s.mounted
    ensures Wf(reg, r) && r.states == s.states && r.pending == s.pending && r.next == s.next && r.log == s.log
    ensures atom in r.mounted && r.mounted == s.mounted[atom := r.mounted[atom]]
    ensures r.mounted[atom].serial == s.mounted[atom].serial && r.mounted[atom].dependents == s.mounted[atom].dependents
    ensures forall l :: l in r.mounted[atom].listeners <==> l in s.mounted[atom].listeners || l == listener
  {
    var m := s.mounted[atom];
    s.(mounted := s.mounted[atom := m.(listeners := SetAdd(m.listeners, listener))])
  }

  /** `listeners.delete(listener)` on the mounted entry of `atom`. */
  function RemoveListener(reg: Registry, s: Store, atom: AtomId, listener: ListenerId): (r: Store)
    requires Wf(reg, s) && atom in s.mounted
    ensures Wf(reg, r) && r.states == s.states && r.pending == s.pending && r.next == s.next && r.log == s.log
    ensures atom in r.mounted && r.mounted == s.mounted[atom := r.mounted[atom]]
    ensures r.mounted[atom].serial == s.mounted[atom].serial && r.mounted[atom].dependents == s.mounted[atom].dependents
    ensures r.mounted[atom].hasUnmount == s.mounted[atom].hasUnmount
    ensures forall l :: l in r.mounted[atom].listeners <==> l in s.mounted[atom].listeners && l != listener
  {
    var m := s.mounted[atom];
    s.(mounted := s.mounted[atom := m.(listeners := SetRemove(m.listeners, listener))])
  }

  /** `subscribeAtom(atom, listener)` in the corrected order: mount the atom, add
      the listener to its entry, then flush. The store flushes before it adds the
      listener (`SubscribeAtomAsWritten`), which can lose the listener. Returns the
      store, the subscription and the rounds of the flush left over. */
  function SubscribeAtom(reg: Registry, s: Store, atom: AtomId, listener: ListenerId, rounds: nat)
    : (r: (Store, Subscription, nat))
    requires Wf(reg, s) && atom < |reg|
    ensures Wf(reg, r.0) && s.log <= r.0.log
    ensures r.1.atom == atom && r.1.listener == listener
    // an atom already mounted keeps its entry; otherwise a new one is made
    ensures atom in s.mounted ==> r.1.serial == s.mounted[atom].serial
    ensures atom !in s.mounted ==> r.1.serial == s.next
    // afterwards the atom is mounted on that entry, and the listener is on it
    ensures atom in r.0.mounted && r.0.mounted[atom].serial == r.1.serial
    ensures forall l :: l in r.0.mounted[atom].listeners <==>
              l == listener || (atom in s.mounted && l in s.mounted[atom].listeners)
    // no other atom that has listeners is unmounted
    ensures KeepsListened(s.mounted - {atom}, r.0.mounted)
    ensures r.0.pending == [] || r.2 == 0
  {
    var (s1, serial) := AddAtom(reg, s, atom);
    var s2 := AddListener(reg, s1, atom, listener);
    var (s3, left) := FlushPending(reg, s2, rounds);
    SubscribeFrame(reg, s, s1, s2, s3.mounted, atom);
    (s3, Subscription(atom, listener, serial), left)
  }

  /** `subscribeAtom` as the store writes it: the flush runs before the listener
      is added to the entry `addAtom` returned. When the flush unmounts the atom,
      that entry has left the mounted map, and the listener is added to an object
      the store no longer reaches. */
  function SubscribeAtomAsWritten(reg: Registry, s: Store, atom: AtomId, listener: ListenerId, rounds: nat)
    : (r: (Store, Subscription, nat))
    requires Wf(reg, s) && atom < |reg|
    ensures Wf(reg, r.0) && s.log <= r.0.log
    ensures r.1.atom == atom && r.1.listener == listener
    ensures atom in s.mounted ==> r.1.serial == s.mounted[atom].serial
    ensures atom !in s.mounted ==> r.1.serial == s.next
    // when the atom's entry is still the captured one, the listener is on it
    ensures Captured(r.0, r.1) ==> listener in r.0.mounted[atom].listeners
    ensures r.0.pending == [] || r.2 == 0
  {
    var (s1, serial) := AddAtom(reg, s, atom);
    var (s2, left) := FlushPending(reg, s1, rounds);
    var sub := Subscription(atom, listener, serial);
    if Captured(s2, sub) then (AddListener(reg, s2, atom, listener), sub, left) else (s2, sub, left)
  }

  lemma SubscribeFrame(reg: Registry, s: Store, s1: Store, s2: Store, m3: map<AtomId, Mounted>, atom: AtomId)
    requires Grows(s.mounted, s1.mounted) && FreshEntries(reg, s.mounted, s1.mounted) && atom in s1.mounted
    requires atom in s2.mounted && s2.mounted == s1.mounted[atom := s2.mounted[atom]]
    requires s2.mounted[atom].serial == s1.mounted[atom].serial
    requires s2.mounted[atom].listeners != []
    requires KeepsListened(s2.mounted, m3)
    ensures KeepsListened(s.mounted - {atom}, m3)
    ensures atom in m3 && m3[atom].serial == s1.mounted[atom].serial && m3[atom].listeners == s2.mounted[atom].listeners
  {
  }

  /** Whether the entry a subscription captured is the atom's current entry. */
  predicate Captured(s: Store, sub: Subscription) {
    sub.atom in s.mounted && s.mounted[sub.atom].serial == sub.serial
  }

  /** The function `sub` returns: remove the listener from the entry it was added
      to, then `delAtom`. */
  function Unsubscribe(reg: Registry, s: Store, sub: Subscription): (r: Store)
    requires Wf(reg, s) && sub.atom < |reg|
    ensures Wf(reg, r)
    ensures r.states == s.states && r.pending == s.pending && s.log <= r.log
    // the listener is no longer on the captured entry
    ensures Captured(r, sub) ==> sub.listener !in r.mounted[sub.atom].listeners
    // the atom is unmounted exactly when that leaves its entry without
    // listeners and without dependents other than itself
    ensures Captured(s, sub) ==>
              (sub.atom !in r.mounted <==>
                 && (forall l | l in s.mounted[sub.atom].listeners :: l == sub.listener)
                 && (forall x | x in s.mounted[sub.atom].dependents :: x == sub.atom))
    // a stale subscription leaves the listeners of the current entry alone
    ensures !Captured(s, sub) && sub.atom in r.mounted ==> sub.atom in s.mounted && r.mounted[sub.atom] == s.mounted[sub.atom]
    // no other atom that has listeners is unmounted
    ensures KeepsListened(s.mounted - {sub.atom}, r.mounted)
  {
    var a := sub.atom;
    var s1 := if Captured(s, sub) then RemoveListener(reg, s, a, sub.listener) else s;
    var r := DelAtom(reg, s1, a);
    UnsubscribeFrame(s, s1, r, a);
    UnsubscribeRule(reg, s, sub, s1, r);
    r
  }

  lemma UnsubscribeRule(reg: Registry, s: Store, sub: Subscription, s1: Store, r: Store)
    requires MountedMapWf(reg, s1.mounted)
    requires Captured(s, sub) ==>
               && sub.atom in s1.mounted && s1.mounted[sub.atom].dependents == s.mounted[sub.atom].dependents
               && forall l :: l in s1.mounted[sub.atom].listeners <==> l in s.mounted[sub.atom].listeners && l != sub.listener
    requires sub.atom in s1.mounted && CanUnmountAtom(sub.atom, s1.mounted[sub.atom]) ==> sub.atom !in r.mounted
    requires !(sub.atom in s1.mounted && CanUnmountAtom(sub.atom, s1.mounted[sub.atom])) ==> r == s1
    ensures Captured(s, sub) ==>
              (sub.atom !in r.mounted <==>
                 && (forall l | l in s.mounted[sub.atom].listeners :: l == sub.listener)
                 && (forall x | x in s.mounted[sub.atom].dependents :: x == sub.atom))
  {
    var a := sub.atom;
    if Captured(s, sub) {
      var ls := s1.mounted[a].listeners;
      CanUnmountIff(a, s1.mounted[a]);
      if ls != [] {
        assert ls[0] in ls;
      }
    }
  }

  lemma UnsubscribeFrame(s: Store, s1: Store, r: Store, a: AtomId)
    requires s1.mounted.Keys == s.mounted.Keys && s1.mounted - {a} == s.mounted - {a}
    requires Shrinks(s1.mounted, r.mounted) && UnmountedAlone(s1.mounted - {a}, r.mounted)
    ensures KeepsListened(s.mounted - {a}, r.mounted)
  {
    assert forall b | b in s.mounted && b != a :: s1.mounted[b] == s.mounted[b];
  }

  /** `getDefaultStore()`: the module-level store, created on first use.
      Returns the new module-level slot and the store handed out. */
  function GetDefaultStore(current: Option<Store>): (r: (Option<Store>, Store))
    ensures r.0 == Some(r.1)
    ensures current.Some? ==> r.1 == current.value
    ensures current.None? ==> r.1 == EmptyStore()
  {
    if current.Some? then (current, current.value) else (Some(EmptyStore()), EmptyStore())
  }

  /** Every call after the first hands out the same store. */
  lemma DefaultStoreIsShared(current: Option<Store>)
    ensures var (slot, first) := GetDefaultStore(current);
            GetDefaultStore(slot) == (slot, first)
  {
  }
}

=== FILE: values.dfy ===
/** Values held by atoms, and the comparisons the store makes between them.

    JavaScript compares atom values with `Object.is`, so every value is modelled
    by its identity: two values are the same exactly when they are equal here.
 */
module Values {

  datatype Option<+T> = None | Some(value: T)

  /** Atoms are identified by their position in the registry. */
  type AtomId = nat

  /** Listener callbacks are identified by a number chosen by the subscriber. */
  type ListenerId = nat

  /** The Error objects the store itself creates. */
  datatype FaultKind =
    | NoAtomInit           // a read function read its own atom, which has no state and no init
    | NotWritable          // a write function set its own atom, which has no init
    | WriteIsNotAFunction  // `set` on an atom that has no write function at all
    | StackOverflow        // write functions that keep setting other atoms without end

  datatype Value =
    | Plain(data: int)                    // any value that is not a promise
    | Thenable(ref: int)                  // a promise made by user code
    | Wrapped(serial: nat, orig: Value)   // the promise the store wraps around `orig`
    | Fault(serial: nat, kind: FaultKind) // an Error object the store throws

  /** `typeof x.then === "function"`: the user's promises and the store's wrappers. */
  predicate IsPromiseLike(v: Value) {
    v.Thenable? || v.Wrapped?
  }

  /** What an atom state holds: exactly one of a value and an error. */
  datatype Content = Val(v: Value) | Err(e: Value)

  /** `hasPromiseAtomValue`: the content is a value and that value is a promise. */
  predicate HasPromiseValue(c: Content) {
    c.Val? && IsPromiseLike(c.v)
  }

  /** `isEqualAtomValue`: both hold values and the values are `Object.is`-equal. */
  predicate IsEqualValue(a: Content, b: Content) {
    a.Val? && b.Val? && a.v == b.v
  }

  /** `isEqualAtomError`: both hold errors and the errors are `Object.is`-equal. */
  predicate IsEqualError(a: Content, b: Content) {
    a.Err? && b.Err? && a.e == b.e
  }

  /** `isEqualPromiseAtomValue`: two wrapped promises around the same original promise. */
  predicate IsEqualPromiseValue(a: Content, b: Content) {
    a.Val? && b.Val? && a.v.Wrapped? && b.v.Wrapped? && a.v.orig == b.v.orig
  }

  /** The outcome of a call that may throw. */
  datatype Completion<+T> = Normal(value: T) | Abrupt(thrown: Value)

  /** `returnAtomValue`: rethrow a stored error, otherwise hand out the stored value. */
  function ReturnAtomValue(c: Content): (r: Completion<Value>)
    ensures r.Abrupt? <==> c.Err?
    ensures c.Err? ==> r.thrown == c.e
    ensures c.Val? ==> r.value == c.v
  {
    match c
    case Val(v) => Normal(v)
    case Err(e) => Abrupt(e)
  }
}

=== FILE: write.dfy ===
/** The write path: `writeAtomState`, the setter it hands to write functions, and
    `writeAtom`, the store's `set`.

    A write function gets a getter (`readAtom`) and a setter. Setting the atom
    being written installs a value — only for an atom with an initial value — and
    brings its mounted dependents up to date; setting any other atom runs that
    atom's write function in turn. Writes never touch the mounted map and never
    call listeners: that is left to the flush that `writeAtom` runs afterwards.
 */
module Write {
  import opened Values
  import opened Atoms
  import opened StoreState
  import opened Invariants
  import opened Read
  import opened Propagate
  import opened Mount
  import opened Flush

  /** What a write function returned (`None` for `undefined`), or what it threw. */
  type WriteResult = Completion<Option<Value>>

  /** `throw new Error(...)`: the store creates a new Error object. */
  function Throw(s: Store, kind: FaultKind): (Store, WriteResult) {
    (s.(next := s.next + 1), Abrupt(Fault(s.next, kind)))
  }

  /** `writeAtomState(atom, arg)`. `depth` bounds how deep write functions may
      call one another; exhausting it throws, as the engine's stack overflow does. */
  function WriteAtomState(reg: Registry, s: Store, atom: AtomId, arg: Update, depth: nat): (r: (Store, WriteResult))
    requires Wf(reg, s) && atom < |reg|
    ensures Wf(reg, r.0) && r.0.next >= s.next
    // writes neither mount nor unmount anything, and call no listener
    ensures r.0.mounted == s.mounted && r.0.log == s.log
    // an atom without a write function: calling `atom.write` throws a TypeError
    ensures reg[atom].writer.None? ==> r == Throw(s, WriteIsNotAFunction)
    decreases depth, 1
  {
    match reg[atom].writer
    case None => Throw(s, WriteIsNotAFunction)
    case Some(DefaultUpdater) =>
      (match arg
       case Replace(v) => Setter(reg, s, atom, atom, v, depth)
       case Apply(f) =>
         var (s1, got) := ReadAtom(reg, s, atom);
         if got.Abrupt? then (s1, Abrupt(got.thrown)) else Setter(reg, s1, atom, atom, f(got.value), depth))
    case Some(Custom(steps, result)) =>
      assert AtomWf(reg, atom);
      RunSteps(reg, s, atom, arg, steps, result, depth)
  }

  /** The setter a write function of `atom` calls as `set(a, v)`. */
  function Setter(reg: Registry, s: Store, atom: AtomId, a: AtomId, v: Value, depth: nat): (r: (Store, WriteResult))
    requires Wf(reg, s) && atom < |reg| && a < |reg|
    ensures Wf(reg, r.0) && r.0.next >= s.next
    ensures r.0.mounted == s.mounted && r.0.log == s.log
    // setting the atom itself without an initial value throws before any state is installed
    ensures a == atom && !HasInitialValue(reg[a]) ==> r == Throw(s, NotWritable)
    ensures a == atom && HasInitialValue(reg[a]) ==> r.1 == Normal(None)
    ensures a != atom && depth == 0 ==> r == Throw(s, StackOverflow)
    decreases depth, 0, 0
  {
    if a == atom then
      if !HasInitialValue(reg[a]) then Throw(s, NotWritable)
      else
        SetAtomValueOrPromiseKeepsWf(reg, s, a, v, None);
        (SetOwn(reg, s, a, v), Normal(None))
    else if depth == 0 then Throw(s, StackOverflow)
    else WriteAtomState(reg, s, a, Replace(v), depth - 1)
  }

  /** The setter on the atom being written: install the value, then bring the
      dependents up to date unless the value is the same as before. */
  function SetOwn(reg: Registry, s: Store, a: AtomId, v: Value): (r: Store)
    requires Wf(reg, s) && a < |reg|
    ensures Wf(reg, r) && r.next >= s.next
    ensures r.mounted == s.mounted && r.log == s.log
  {
    var prev := GetState(s, a);
    SetAtomValueOrPromiseKeepsWf(reg, s, a, v, None);
    var (s1, next) := SetAtomValueOrPromise(s, a, v, None);
    if prev.None? || !IsEqualValue(prev.value.content, next.content) then RecomputeDependents(reg, s1, a) else s1
  }

  /** One `set` call of a custom write function. A `SetFrom` step reads its source
      first, and a read that throws stops the step. */
  function RunStep(reg: Registry, s: Store, atom: AtomId, arg: Update, step: WriteStep, depth: nat): (r: (Store, WriteResult))
    requires Wf(reg, s) && atom < |reg| && StepInRange(step, |reg|)
    ensures Wf(reg, r.0) && r.0.next >= s.next
    ensures r.0.mounted == s.mounted && r.0.log == s.log
    decreases depth, 0, 1
  {
    match step
    case SetWith(t, payload) => Setter(reg, s, atom, t, payload(arg), depth)
    case SetFrom(t, src, f) =>
      var (s1, got) := ReadAtom(reg, s, src);
      if got.Abrupt? then (s1, Abrupt(got.thrown)) else Setter(reg, s1, atom, t, f(got.value), depth)
  }

  /** The body of a custom write function: its `set` calls in order, then its
      return value. A call that throws ends the function with that exception. */
  function RunSteps(reg: Registry, s: Store, atom: AtomId, arg: Update, steps: seq<WriteStep>, result: Option<Value>, depth: nat)
    : (r: (Store, WriteResult))
    requires Wf(reg, s) && atom < |reg|
    requires forall k | 0 <= k < |steps| :: StepInRange(steps[k], |reg|)
    ensures Wf(reg, r.0) && r.0.next >= s.next
    ensures r.0.mounted == s.mounted && r.0.log == s.log
    // a write function that completes returns its own result
    ensures r.1.Normal? ==> r.1.value == result
    ensures steps == [] ==> r == (s, Normal(result))
    decreases depth, 0, |steps| + 1
  {
    if steps == [] then (s, Normal(result))
    else
      var (s1, c) := RunStep(reg, s, atom, arg, steps[0], depth);
      if c.Abrupt? then (s1, c) else RunSteps(reg, s1, atom, arg, steps[1..], result, depth)
  }

  /** `writeAtom`, the store's `set`: write, then flush. An exception from the write
      function propagates before the flush, so no listener runs. Returns the
      rounds of the flush left over. */
  function WriteAtom(reg: Registry, s: Store, atom: AtomId, arg: Update, depth: nat, rounds: nat): (r: (Store, WriteResult, nat))
    requires Wf(reg, s) && atom < |reg|
    ensures Wf(reg, r.0) && s.log <= r.0.log
    // the result is what the write function returned or threw
    ensures r.1 == WriteAtomState(reg, s, atom, arg, depth).1
    // an exception propagates before the flush: the store is the one the write left
    ensures r.1.Abrupt? ==> r.0 == WriteAtomState(reg, s, atom, arg, depth).0 && r.2 == rounds
    ensures r.1.Abrupt? ==> r.0.mounted == s.mounted && r.0.log == s.log
    ensures r.1.Normal? ==> r.0.pending == [] || r.2 == 0
    // otherwise the flush starts from the store the write left: a round is spent
    // exactly when the write left something pending, the first round calls every
    // listener of a pending atom whose change always notifies, and no atom with
    // listeners is unmounted
    ensures var w := WriteAtomState(reg, s, atom, arg, depth).0;
            r.1.Normal? ==>
              && (r.2 < rounds <==> w.pending != [] && rounds > 0)
              && (rounds > 0 ==> CallsListenersOf(w.pending, w.states, s.mounted, r.0.log[|s.log|..]))
              && KeepsListened(s.mounted, r.0.mounted)
  {
    var (s1, c) := WriteAtomState(reg, s, atom, arg, depth);
    if c.Abrupt? then (s1, c, rounds)
    else
      var (s2, left) := FlushPending(reg, s1, rounds);
      (s2, c, left)
  }

  // ---------------------------------------------------------------------------
  // Properties

  /** The not-writable check ends a write function at once: when its first call
      sets its own atom and that atom has no initial value, the write throws and
      the store changes only by the new Error object. */
  lemma SetOwnWithoutInitThrows(reg: Registry, s: Store, atom: AtomId, arg: Update, depth: nat)
    requires Wf(reg, s) && atom < |reg| && !HasInitialValue(reg[atom])
    requires reg[atom].writer.Some? && reg[atom].writer.value.Custom?
    requires var steps := reg[atom].writer.value.steps; |steps| > 0 && steps[0].SetWith? && steps[0].target == atom
    ensures WriteAtomState(reg, s, atom, arg, depth) == Throw(s, NotWritable)
  {
    assert AtomWf(reg, atom);
    var w := reg[atom].writer.value;
    assert RunStep(reg, s, atom, arg, w.steps[0], depth) == Throw(s, NotWritable);
  }

  /** A no-op write is suppressed: setting an atom to the non-promise value it
      already holds changes nothing, so no dependent is recomputed. */
  lemma SetSameValueIsNoOp(reg: Registry, s: Store, a: AtomId, v: Value)
    requires Wf(reg, s) && a < |reg| && a in s.states
    requires s.states[a].content == Val(v) && !IsPromiseLike(v)
    ensures SetOwn(reg, s, a, v) == s
  {
    assert SetAtomValueOrPromise(s, a, v, None) == (s, s.states[a]);
  }

  /** Nothing mounted depends on `a` other than `a` itself. */
  predicate NoOtherDependents(m: map<AtomId, Mounted>, a: AtomId) {
    forall t | t in DependentsOf(m, a) :: t == a
  }

  /** Recomputing the dependents of an atom nothing depends on changes nothing. */
  lemma RecomputeWithoutDependents(reg: Registry, s: Store, a: AtomId)
    requires Wf(reg, s) && a < |reg| && NoOtherDependents(s.mounted, a)
    ensures RecomputeDependents(reg, s, a) == s
  {
    WfUpward(reg, s);
    var mk := Loop1(|reg|, s.mounted, a, Marks(map[], map[]));
    var ts := DependentsOf(s.mounted, a);
    assert Above(|reg|, a, ts);
    forall k | 0 <= k < |ts| ensures ts[k] == a {
      assert ts[k] in ts;
    }
    Loop2EachSelf(reg, Pass(s, mk, []), a, ts);
  }

  lemma {:induction false} Loop2EachSelf(reg: Registry, p: Pass, a: AtomId, ts: seq<AtomId>)
    requires Wf(reg, p.s) && Above(|reg|, a, ts)
    requires forall k | 0 <= k < |ts| :: ts[k] == a
    ensures Loop2Each(reg, p, a, ts) == p
    decreases |ts|
  {
    if ts != [] {
      Loop2EachSelf(reg, p, a, ts[1..]);
    }
  }

  /** The default updater of an atom built from an initial value stores its
      argument, or — for an updater function — the function applied to the
      current value; a current value that is an error is rethrown instead. */
  lemma DefaultUpdaterStores(reg: Registry, s: Store, atom: AtomId, arg: Update, depth: nat)
    requires Wf(reg, s) && atom < |reg|
    requires reg[atom].writer == Some(DefaultUpdater) && HasInitialValue(reg[atom])
    requires NoOtherDependents(s.mounted, atom)
    ensures var r := WriteAtomState(reg, s, atom, arg, depth);
            arg.Replace? ==> r.1 == Normal(None) && atom in r.0.states && StoredAs(r.0.states[atom].content, arg.v)
    ensures var r := WriteAtomState(reg, s, atom, arg, depth);
            var (s1, current) := ReadAtom(reg, s, atom);
            arg.Apply? ==>
              && (current.Abrupt? ==> r == (s1, Abrupt(current.thrown)))
              && (current.Normal? ==> r.1 == Normal(None) && atom in r.0.states
                                      && StoredAs(r.0.states[atom].content, arg.f(current.value)))
  {
    match arg
    case Replace(v) =>
      SetOwnStores(reg, s, atom, v);
    case Apply(f) =>
      var (s1, current) := ReadAtom(reg, s, atom);
      if current.Normal? {
        SetOwnStores(reg, s1, atom, f(current.value));
      }
  }

  /** With nothing depending on it, setting an atom leaves it holding the value. */
  lemma SetOwnStores(reg: Registry, s: Store, a: AtomId, v: Value)
    requires Wf(reg, s) && a < |reg| && NoOtherDependents(s.mounted, a)
    ensures a in SetOwn(reg, s, a, v).states && StoredAs(SetOwn(reg, s, a, v).states[a].content, v)
  {
    SetAtomValueOrPromiseKeepsWf(reg, s, a, v, None);
    var s1 := SetAtomValueOrPromise(s, a, v, None).0;
    RecomputeWithoutDependents(reg, s1, a);
  }
}
